=== FILE: README.md ===
# NetworkForensics in Dafny

A model of `NetworkForensics`, a command-line tool that reads a libpcap
capture and prints one of four reports:

1. **Counters**: the number of packets, IPv4 packets, TCP packets and UDP packets, and the number of distinct TCP connections.
2. **Flow dump**: one line per key of the HTTP connection table, then the bytes each key's flow carried, upstream before downstream. A connection with port 80 at both ends is filed under both of its tuples (lines 520 and 549), so it is listed, and its bytes dumped, twice.
3. **Transaction log**: one line per HTTP request that has a response, in capture order. Each line gives the URL, host, status code and body length.
4. **Image extraction**: the bodies of the responses to image requests, in capture order.

The tool writes these four reports as four copies of the same code. The
model writes that code once and says which report it serves with a mode
(`Requests.Report`).

The pieces, following the pipeline:

| file | module | what it models |
|---|---|---|
| `base.dfy` | `Base` | Bytes, Java `int`/`long` wrap-around, reads of the zero-filled capture buffer, big- and little-endian fields. |
| `text.dfy` | `Text` | Java's `(char)` of a byte, `toLowerCase`, `equalsIgnoreCase` and `indexOf`. Also `Integer.parseInt` and `Long.parseLong` (base 10 and 16), decimal printing, and the first word of a line. |
| `decoder.dfy` | `Decoder` | The record scan: 40 bytes in, then a little-endian length and steps of `length + 16`. Then the Ethernet, IPv4 and TCP header fields and the capture timestamps. It also holds an encoder for captures, used to state round trips. |
| `connections.dfy` | `Connections` | Connection identity: a tuple is the same connection as itself and as its endpoint swap. |
| `counters.dfy` | `Counters` | The counters report. |
| `flows.dfy` | `Flows` | The connection table: direction-insensitive lookup and attribution of payload by port 80. Also the flow dump. |
| `lines.dfy` | `Lines` | The CRLF line splitter with its "new block" flag, shared by both HTTP parsers. |
| `requests.dfy` | `Requests` | The request parser. It reads the method line, URL and `Host:`, applies the image filter and keys each request by `sequence number + payload size`. |
| `responses.dfy` | `Responses` | The response parser. It reads the status code, `Content-Length:` and `Transfer-Encoding: chunked`, and follows the chunk-size countdown. It also captures fixed-length bodies. The parser is a fold over the payload bytes with an explicit state record. |
| `correlate.dfy` | `Correlate` | The join of requests and responses on their key. Also the sort by capture time, the log line and the image output. |

Runtime exceptions of the tool end a report with no output. Examples are
`parseInt` on a non-number, `substring` with a missing second space, and
the null dereference described under Findings. The model returns `None`
in those cases rather than excluding them by a precondition. Java `HashMap`
iteration order is unspecified, so the model takes the order in which a
table is walked as a parameter (`order`, `keys`) that lists every key of
the table once. The capture is a given
byte sequence.

Two behaviours of the code differ from what a reader of the tool's
description would expect. The model follows the code in both:

- **Transfer-Encoding is checked per segment.** A chunked body is only followed when its first size line is in the same TCP segment as the `Transfer-Encoding: chunked` header (`Responses.ChunkedHeadSegment`). When the header ends its segment, the response is filed with the chunk total left over from earlier, and later size lines are ignored (`Responses.ChunkedBodyAfterBareHead`).
- **Body capture starts late.** Image capture does not start at the blank line that ends the head. It starts at the first CR LF line end after that blank line, wherever that line end falls: in the head's own segment or in a later one. The bytes up to and including that line feed are not captured. So a body in the head's own segment that holds no CR is never captured (`Responses.ImageBodyInHeadSegment`). A PNG body, whose signature holds CR LF at offsets 4-5, starts being captured at offset 6 inside the head's segment. The capture is filed under the key of the segment it starts in (`Responses.ImageResponseTwoSegments`, `Responses.ArmedStatusLineStep`).

## Model

| member | source | states |
|---|---|---|
| Base.Int32 | NetworkForensics/src/forensics/NetworkForensics.java:350-356 | A Java `int` result is in the 32-bit range and equals the mathematical value when that value fits. |
| Base.Int64 | NetworkForensics/src/forensics/NetworkForensics.java:1000-1001 | A Java `long` result is in the 64-bit range and equals the mathematical value when that value fits. |
| Base.Window | NetworkForensics/src/forensics/NetworkForensics.java:541-545 | Copying `n` bytes from an offset of the capture buffer yields `n` bytes, each being the buffer's byte there; bytes past the capture read as zero, as they do below the buffer's 30,000,000-byte end. |
| Base.Substring | NetworkForensics/src/forensics/NetworkForensics.java:861-862 | `substring(b, e)` succeeds exactly when `0 <= b <= e <= length`, and then yields the `e - b` bytes from `b`. |
| Base.BE32Bound | NetworkForensics/src/forensics/NetworkForensics.java:726-748 | Four big-endian bytes give a value below 2^32, and below 2^31 when the top byte is below 0x80. |
| Base.EncodeBE16 | NetworkForensics/src/forensics/NetworkForensics.java:389-396 | The two bytes written for a 16-bit value read back as that value in big-endian order. |
| Base.EncodeBE32 | NetworkForensics/src/forensics/NetworkForensics.java:726-748 | The four bytes written for a 32-bit value read back as that value in big-endian order. |
| Base.EncodeLE32 | NetworkForensics/src/forensics/NetworkForensics.java:350-356 | The four bytes written for a 32-bit value read back as that value in little-endian order. |
| Base.EncodeBE16OfDecoded | NetworkForensics/src/forensics/NetworkForensics.java:389-396 | Reading a port and writing it back gives the same two bytes. |
| Base.EncodeBE32OfDecoded | NetworkForensics/src/forensics/NetworkForensics.java:726-748 | Reading a sequence or acknowledgement number and writing it back gives the same four bytes. |
| Connections.Swap | NetworkForensics/src/forensics/NetworkForensics.java:511-514 | The reverse tuple exchanges both addresses and both ports. |
| Connections.SwapSwap | NetworkForensics/src/forensics/NetworkForensics.java:511-514 | Reversing a tuple twice gives it back. |
| Connections.SameConnectionIff | NetworkForensics/src/forensics/NetworkForensics.java:190-207 | Two tuples are the same connection exactly when they are equal or one is the other reversed; the relation is symmetric. |
| Connections.SameConnectionTransitive | NetworkForensics/src/forensics/NetworkForensics.java:190-207 | Connection identity is reflexive and transitive. |
| Text.JavaChar | NetworkForensics/src/forensics/NetworkForensics.java:837-838 | `(char)` of a byte read as a Java `byte` is the byte below 0x80 and `0xFF00 +` the byte from 0x80 up. |
| Text.JavaString | NetworkForensics/src/forensics/NetworkForensics.java:837-838 | Turning bytes into characters keeps the length. |
| Text.JavaCharInjective | NetworkForensics/src/forensics/NetworkForensics.java:837-838 | Distinct bytes become distinct characters. |
| Text.LowerAll | NetworkForensics/src/forensics/NetworkForensics.java:1057-1058 | Lower-casing keeps the length and lower-cases each byte. |
| Text.EqualsIgnoreCaseReflexive | NetworkForensics/src/forensics/NetworkForensics.java:852-854 | Every text equals itself ignoring case. |
| Text.EqualsIgnoreCaseIffLowerEqual | NetworkForensics/src/forensics/NetworkForensics.java:852-854 | Two texts are equal ignoring case exactly when their lower-case forms are equal. |
| Text.IndexOf | NetworkForensics/src/forensics/NetworkForensics.java:846-847 | `indexOf(c, from)` is -1 or a position at or after `from` holding `c`, and no earlier such position holds `c`. |
| Text.FirstWord | NetworkForensics/src/forensics/NetworkForensics.java:845-848 | A line has a first word exactly when it contains a space; the word is the text before the first space. |
| Text.ParseInteger | NetworkForensics/src/forensics/NetworkForensics.java:962-963 | A successful `parseInt`/`parseLong` yields a value within the type's range, from a non-empty text. Which texts parse, and to what, is stated by `Text.ParseSignedDigits` and `Text.ParseNonDigit`. |
| Text.ParseSignedDigits | NetworkForensics/src/forensics/NetworkForensics.java:962-963 | An optional `-` or `+` followed by at least one digit of the radix (leading zeros allowed) parses to the signed value of the digits when that value is in range, and fails when it is not. |
| Text.ParseNonDigit | NetworkForensics/src/forensics/NetworkForensics.java:942 | A sign alone fails to parse, and so does a sign followed by text holding a byte that is not a digit of the radix. Without a sign, any such byte other than a leading sign makes the parse fail. |
| Text.Digits | NetworkForensics/src/forensics/NetworkForensics.java:1057-1058 | A number printed in a radix is a non-empty run of that radix's digits. |
| Text.DecimalText | NetworkForensics/src/forensics/NetworkForensics.java:1057-1058 | A printed number is non-empty and holds no space, CR or LF. |
| Text.MagnitudeOfDigits | NetworkForensics/src/forensics/NetworkForensics.java:942 | Reading back the digits of a number printed in a radix gives the number. |
| Text.ParseDigits | NetworkForensics/src/forensics/NetworkForensics.java:942 | Parsing the printed digits of an in-range number succeeds with that number. |
| Text.ParseDecimalText | NetworkForensics/src/forensics/NetworkForensics.java:962-963 | `Long.parseLong` of a printed `long`, and `Integer.parseInt` of a printed `int`, give it back. |
| Decoder.Records | NetworkForensics/src/forensics/NetworkForensics.java:347 | The record scan visits nothing exactly when it starts at or past the end, and otherwise starts where it is told. |
| Decoder.RecordsSteps | NetworkForensics/src/forensics/NetworkForensics.java:347-356 | Every visited offset is inside the capture, each next offset is the previous one plus its length plus 16, and the scan stops at the first offset at or past the end. |
| Decoder.RecordLengthUnsigned | NetworkForensics/src/forensics/NetworkForensics.java:350-356 | On a scan that fits in Java `int`, a record length is the little-endian value of the four bytes before the frame. |
| Decoder.IpHeaderLength | NetworkForensics/src/forensics/NetworkForensics.java:460-464 | The IPv4 header length is a multiple of 4 no greater than 60. |
| Decoder.TcpHeaderLength | NetworkForensics/src/forensics/NetworkForensics.java:478-481 | The TCP header length is a multiple of 4 no greater than 60. |
| Decoder.Decode | NetworkForensics/src/forensics/NetworkForensics.java:453-483 | A frame is IPv4 exactly when its EtherType is 2048, and TCP exactly when it is IPv4 with protocol 6. The payload length is total length minus both header lengths, and that many payload bytes are taken, none if it is not positive. |
| Decoder.DecodeIpv4 | NetworkForensics/src/forensics/NetworkForensics.java:457-470 | An IPv4 packet is TCP exactly when its protocol byte is 6. |
| Decoder.DecodeTcp | NetworkForensics/src/forensics/NetworkForensics.java:470-509 | A TCP segment keeps the IP header and total lengths it was given, and its payload length and payload follow from them. |
| Decoder.Capture | NetworkForensics/src/forensics/NetworkForensics.java:625-810 | A capture decodes to one record per step of the record scan, each with a payload of the size its headers give. |
| Decoder.EncodeIpv4Header | NetworkForensics/src/forensics/NetworkForensics.java:460-497 | An encoded IPv4 header reads back with its header length, total length, protocol 6 and both addresses. |
| Decoder.EncodeTcpHeader | NetworkForensics/src/forensics/NetworkForensics.java:726-748 | An encoded TCP header reads back with both ports, sequence and acknowledgement numbers and header length. |
| Decoder.TcpFixedPart | NetworkForensics/src/forensics/NetworkForensics.java:499-509 | The first 14 bytes of an encoded TCP header read back as both ports, both numbers and the data offset. |
| Decoder.DataOffsetByte | NetworkForensics/src/forensics/NetworkForensics.java:478-481 | The encoded data-offset byte reads back as the header length in bytes. |
| Decoder.EthernetHeader | NetworkForensics/src/forensics/NetworkForensics.java:453-457 | The encoded Ethernet header is 14 bytes with EtherType 2048. |
| Decoder.EncodeTcpFrame | NetworkForensics/src/forensics/NetworkForensics.java:453-483 | An encoded frame is as long as its Ethernet, IP and TCP headers and its payload. |
| Decoder.FrameLayout | NetworkForensics/src/forensics/NetworkForensics.java:453-457 | A frame placed in the capture has EtherType 2048, and its IP header, TCP header and payload are found at their offsets. |
| Decoder.DecodeTcpPlaced | NetworkForensics/src/forensics/NetworkForensics.java:470-509 | A TCP header and payload placed after an IP header decode to their ports, numbers, lengths and payload. |
| Decoder.DecodeWellFormed | NetworkForensics/src/forensics/NetworkForensics.java:453-509 | A well-formed TCP/IPv4 frame decodes to the addresses, ports, numbers, lengths and payload it contains. |
| Decoder.DecodeEncodedFrame | NetworkForensics/src/forensics/NetworkForensics.java:453-509 | Decoding an encoded frame gives back the fields and payload it was encoded from. |
| Decoder.EncodeRecord | NetworkForensics/src/forensics/NetworkForensics.java:347-356 | An encoded record is its 16-byte record header followed by its frame. |
| Decoder.LaidOutEncoded | NetworkForensics/src/forensics/NetworkForensics.java:347-356 | Encoded records lie in the capture one after the other, each header describing its frame. |
| Decoder.ScanLaidOut | NetworkForensics/src/forensics/NetworkForensics.java:347-356 | On records laid out one after the other, the record scan visits exactly the start of each frame, in order. |
| Decoder.LaidOutAt | NetworkForensics/src/forensics/NetworkForensics.java:753-769 | At each visited offset lie the record's frame bytes, and its seconds and microseconds read back from the little-endian timestamp fields. |
| Decoder.CaptureRecordAt | NetworkForensics/src/forensics/NetworkForensics.java:753-769 | The k-th decoded record carries the k-th record's timestamps and the decoding of its frame. |
| Decoder.CaptureOfLaidOut | NetworkForensics/src/forensics/NetworkForensics.java:625-810 | A capture of laid-out records decodes to exactly those records. |
| Decoder.CaptureOfEncoded | NetworkForensics/src/forensics/NetworkForensics.java:625-810 | Decoding an encoded capture gives back one record per encoded record, with its timestamps and frame (round trip). |
| Decoder.EncodedCaptureLaidOut | NetworkForensics/src/forensics/NetworkForensics.java:347-356 | An encoded capture lays its records out after the 24-byte file header. |
| Counters.CountFrame | NetworkForensics/src/forensics/NetworkForensics.java:364-420 | Each record adds 1 to the total count. An IPv4 frame also adds 1 to the IPv4 count, and a TCP or UDP frame to its count. A TCP frame adds 1 to the connection count exactly when neither its tuple nor the reverse was seen. |
| Counters.CountBounds | NetworkForensics/src/forensics/NetworkForensics.java:364-420 | TCP plus UDP is at most IPv4, which is at most the total, which is the number of records. The connection count is the number of tuples kept. |
| Counters.SeenIsConnections | NetworkForensics/src/forensics/NetworkForensics.java:401-414 | The tuples kept come from TCP frames, no two of them are the same connection, and every TCP tuple is kept or its reverse is. |
| Counters.ReverseNeverCounts | NetworkForensics/src/forensics/NetworkForensics.java:407-414 | A packet of a connection already seen, in either direction, leaves the connection count unchanged. |
| Counters.CountersReport | NetworkForensics/src/forensics/NetworkForensics.java:347-425 | The total is the number of records the scan visits, and TCP plus UDP is at most IPv4, which is at most the total. |
| Counters.CountersLine | NetworkForensics/src/forensics/NetworkForensics.java:424-425 | The report is a single line ending in LF. |
| Flows.Lookup | NetworkForensics/src/forensics/NetworkForensics.java:516-532 | A tuple finds a flow exactly when it or its reverse is a key. The forward key is tried first. |
| Flows.Target | NetworkForensics/src/forensics/NetworkForensics.java:516-532 | A packet's flow is the one found, or a fresh empty flow at the end of the table. |
| Flows.AddSegment | NetworkForensics/src/forensics/NetworkForensics.java:539-561 | An upstream segment appends exactly its payload and its length to the upstream side and leaves the downstream side unchanged. A downstream segment does the reverse. |
| Flows.Accumulate | NetworkForensics/src/forensics/NetworkForensics.java:516-561 | Only TCP packets with port 80 on one side change the table. Such a packet's flow gets the segment, and the flow is stored under the tuple whose destination port is 80. |
| Flows.FlowsOf | NetworkForensics/src/forensics/NetworkForensics.java:441-568 | Filing every record keeps the table well formed: each key refers to a flow, and a tuple and its reverse refer to the same one. |
| Flows.AddSegmentConsistent | NetworkForensics/src/forensics/NetworkForensics.java:541-558 | Adding a segment keeps each side's data the concatenation of its segments. When no payload length is negative, it also keeps each length counter equal to its data's size. |
| Flows.AccumulateConsistent | NetworkForensics/src/forensics/NetworkForensics.java:516-561 | Filing a record keeps every flow consistent in that sense. |
| Flows.FlowsConsistent | NetworkForensics/src/forensics/NetworkForensics.java:441-568 | After the whole capture, each side's length counter equals the size of its data, when no payload length is negative. |
| Flows.AccumulateVolume | NetworkForensics/src/forensics/NetworkForensics.java:516-561 | Filing a record grows the bytes held on a side by exactly the payload that record attributes to that side. |
| Flows.VolumeConserved | NetworkForensics/src/forensics/NetworkForensics.java:441-568 | The bytes held on each side across all flows are exactly the payload bytes that port 80 attributes to that side. |
| Flows.IpText | NetworkForensics/src/forensics/NetworkForensics.java:62-65 | A dotted address holds no space or LF. |
| Flows.FlowLine | NetworkForensics/src/forensics/NetworkForensics.java:113-116 | A flow's line is non-empty and holds exactly one LF, at the end. |
| Flows.Prefix | NetworkForensics/src/forensics/NetworkForensics.java:588-591 | Writing the first `n` bytes writes a prefix of the data of length `n`, or nothing when `n` is not positive. |
| Flows.FlowDumpLines | NetworkForensics/src/forensics/NetworkForensics.java:576-579 | The dump prints one line per walked table key; a port-80-to-port-80 connection held under both its tuples gets two. |
| Flows.FlowDumpBytes | NetworkForensics/src/forensics/NetworkForensics.java:584-601 | When the counters are exact, the bytes written are each walked key's upstream data then its downstream data, key by key. |
| Flows.FlowBytesExact | NetworkForensics/src/forensics/NetworkForensics.java:586-599 | For a flow whose counters are exact, writing counter-many bytes writes all its data. |
| Flows.FlowDumpOf | NetworkForensics/src/forensics/NetworkForensics.java:569-601 | The dump of a capture's records has one line per table key. With no negative payload length, its bytes are each key's full upstream then downstream data. |
| Flows.FlowReport | NetworkForensics/src/forensics/NetworkForensics.java:429-608 | The flow report of a capture has one line per table key. With no negative payload length, its bytes are each key's full upstream then downstream data. |
| Lines.Feed | NetworkForensics/src/forensics/NetworkForensics.java:835-843 | A byte ends a line exactly when it is LF after CR. A line of just CRLF is a blank line and starts a new block. Any other line is reported with its CRLF and its new-block flag, and clears that flag. |
| Lines.FeedAll | NetworkForensics/src/forensics/NetworkForensics.java:835-885 | Splitting a payload reports only blank lines and lines. |
| Lines.FeedAllConcat | NetworkForensics/src/forensics/NetworkForensics.java:835-885 | Splitting two payloads one after the other is splitting their concatenation. |
| Lines.FeedOneLine | NetworkForensics/src/forensics/NetworkForensics.java:840-843 | A line without CR, fed with its CRLF, is reported once: as a blank line if empty, else as a line. |
| Lines.SplitJoin | NetworkForensics/src/forensics/NetworkForensics.java:835-885 | Splitting CRLF-joined lines without CR reports exactly those lines, in order, each with its new-block flag (the inverse of joining). |
| Requests.SecondField | NetworkForensics/src/forensics/NetworkForensics.java:856-862 | The URL is the text strictly between the first space and the next space; it is missing exactly when there is no next space. |
| Requests.HeaderValue | NetworkForensics/src/forensics/NetworkForensics.java:874-878 | A header's value is the text after its first space, without the trailing CRLF. |
| Requests.OnRequestLine | NetworkForensics/src/forensics/NetworkForensics.java:845-880 | The first line of a block starting with a method sets the URL and marks the request for filing if the report keeps that URL. It aborts when the second space is missing. Any later `Host:` line sets the host. Other lines change nothing. |
| Requests.ScanRequestConcat | NetworkForensics/src/forensics/NetworkForensics.java:835-885 | Scanning two payload parts in turn is scanning their concatenation. |
| Requests.ScanRequestLine | NetworkForensics/src/forensics/NetworkForensics.java:840-883 | A complete line fed to the request scanner is handled once, as the line splitter reports it. |
| Requests.ParseRequest | NetworkForensics/src/forensics/NetworkForensics.java:818-889 | A parsed request carries its segment's capture time and microsecond offset. |
| Requests.RequestStep | NetworkForensics/src/forensics/NetworkForensics.java:835-883 | One byte moves the line splitter by one step; a byte that ends no line changes nothing else. The byte aborts exactly when it ends the first line of a block whose first word is a method and which has no second space. A segment once marked for filing stays marked. |
| Requests.FileRequests | NetworkForensics/src/forensics/NetworkForensics.java:887-889 | Filing a flow's requests keeps every earlier key. Each entry it adds or replaces was filed by one of the flow's segments, and every key one of its segments files is in the result. |
| Requests.RequestTable | NetworkForensics/src/forensics/NetworkForensics.java:812-890 | Every key that an upstream segment of a walked flow files a request under is a key of the request table (the converse of `Requests.RequestTableFiled`). |
| Requests.RequestTableFiled | NetworkForensics/src/forensics/NetworkForensics.java:812-890 | Every entry of the request table was filed by some upstream segment of some connection, under that segment's sequence number plus payload size. |
| Requests.RequestLineFields | NetworkForensics/src/forensics/NetworkForensics.java:845-862 | On `verb SP url SP version CRLF` the first word is the verb and the URL field is the URL. |
| Requests.HeaderLineFields | NetworkForensics/src/forensics/NetworkForensics.java:872-878 | On `name SP value CRLF` the first word is the name and the value is the value. |
| Requests.ParseRequestHead | NetworkForensics/src/forensics/NetworkForensics.java:1318-1333 | A request head (method line, `Host:` line, blank line) parses to its URL, host and times. It is kept exactly when the report keeps the URL: always for the log, and for image extraction only with an image extension. |
| Responses.CaptureByte | NetworkForensics/src/forensics/NetworkForensics.java:1403-1423 | While capturing, each byte is appended and counted. The byte that reaches the announced length files the code, length and captured bytes under the capture key, and resets the capture. |
| Responses.OnChunkLine | NetworkForensics/src/forensics/NetworkForensics.java:936-957 | A line end only reads a chunk size when a chunked body is followed and its countdown is below -2. The line then adds its hex value to the total. Size 0 stops following and gives the filed response the total. The line aborts on a bad size, or on a missing entry as written. |
| Responses.OnHeaderLine | NetworkForensics/src/forensics/NetworkForensics.java:958-995 | The header branches leave the line splitter and the response table unchanged. |
| Responses.OnResponseLine | NetworkForensics/src/forensics/NetworkForensics.java:1433-1443 | Handling a line leaves the line splitter unchanged. |
| Responses.CountDown | NetworkForensics/src/forensics/NetworkForensics.java:1000-1001 | While a chunk is followed, each byte decrements its counter as a Java `long`. Otherwise the counter stays. The chunk's total, key and active flag, the capture state, the head and the table never change. |
| Responses.Finalise | NetworkForensics/src/forensics/NetworkForensics.java:946-951 | A zero-size chunk updates the body length of the entry under the chunk key and changes no other entry or key. With the entry missing it aborts as written, and changes nothing in the corrected mode. |
| Responses.OnResponseLineFiled | NetworkForensics/src/forensics/NetworkForensics.java:1427-1515 | A handled line adds no table entry. A capture it starts is keyed by the segment's acknowledgement number. |
| Responses.ResponseStep | NetworkForensics/src/forensics/NetworkForensics.java:1397-1526 | One byte moves the line splitter by one step. Only a byte that ends a line can abort. The byte removes no table entry, and it files only under the segment's acknowledgement number or the key of a capture already under way. |
| Responses.ScanResponseFiled | NetworkForensics/src/forensics/NetworkForensics.java:1397-1526 | A whole payload removes no table entry, and it files only under the segment's acknowledgement number or the key of a capture under way when it started. |
| Responses.ScanSegment | NetworkForensics/src/forensics/NetworkForensics.java:1378-1537 | A segment aborts exactly when its scan aborts. It files only under its acknowledgement number or the key of a capture under way, and it removes no entry. A segment with a status line is filed under its acknowledgement number with the status code, an empty body, and as body length the flow's chunk total if the segment announced chunked transfer, else its `Content-Length`; every other entry and the chunk and capture state are as the scan left them. A segment without a status line files nothing more. |
| Responses.ScanSegments | NetworkForensics/src/forensics/NetworkForensics.java:1378-1538 | A flow's segments file only under their acknowledgement numbers or the key of a capture under way at the start, and they remove no entry. |
| Responses.FileResponses | NetworkForensics/src/forensics/NetworkForensics.java:1362-1538 | Filing a flow's responses keeps every earlier key. Each new key is the acknowledgement number of one of the flow's downstream segments. |
| Responses.ResponseTable | NetworkForensics/src/forensics/NetworkForensics.java:892-1016 | Every key of the response table is the acknowledgement number of a downstream segment of a walked flow (the converse is `Responses.ResponseTableStored`); which values are filed is stated per segment by `Responses.ScanSegment` and the head lemmas. |
| Responses.ScanSegmentsStored | NetworkForensics/src/forensics/NetworkForensics.java:1375-1538 | A segment whose scan, from the state the flow's earlier segments leave, sees a status line keeps its acknowledgement number as a key to the end of the flow. |
| Responses.ScanSegmentsPrefix | NetworkForensics/src/forensics/NetworkForensics.java:1375-1538 | A flow whose scan does not abort does not abort on any of its first segments. |
| Responses.ResponseTablePrefix | NetworkForensics/src/forensics/NetworkForensics.java:1266-1540 | When the response table is built, the table of the first walked flows is built too, and its keys are all kept. |
| Responses.ParserBeforeDefined | NetworkForensics/src/forensics/NetworkForensics.java:1266-1540 | When the response table is built, every segment of every walked flow is reached, from a defined state. |
| Responses.ResponseTableStored | NetworkForensics/src/forensics/NetworkForensics.java:1004-1011 | Every downstream segment of a walked flow whose scan sees a status line has its acknowledgement number as a key of the final response table. |
| Responses.ResponseTableFiled | NetworkForensics/src/forensics/NetworkForensics.java:1266-1540 | Every key of the response table is the acknowledgement number of a downstream segment of a walked flow, and walking one more flow keeps every key. |
| Responses.ScanResponseConcat | NetworkForensics/src/forensics/NetworkForensics.java:917-1003 | Scanning two payload parts in turn is scanning their concatenation. |
| Responses.ScanResponseQuiet | NetworkForensics/src/forensics/NetworkForensics.java:917-1003 | Bytes that end no line only move the line splitter and count the chunk down. |
| Responses.ScanResponseBlank | NetworkForensics/src/forensics/NetworkForensics.java:922-925 | A blank line starts a new block and counts down two bytes. |
| Responses.ScanResponseLine | NetworkForensics/src/forensics/NetworkForensics.java:926-1001 | A complete line is counted down and then handled once, as the splitter reports it. |
| Responses.OnStatus | NetworkForensics/src/forensics/NetworkForensics.java:958-965 | An `HTTP/1.1` line sets the status code and marks the segment for filing. |
| Responses.OnLength | NetworkForensics/src/forensics/NetworkForensics.java:1488-1494 | A `Content-Length:` line sets the announced length. In the image report it also arms the capture with this segment's key and the code seen so far. |
| Responses.OnChunked | NetworkForensics/src/forensics/NetworkForensics.java:975-981 | `Transfer-Encoding: chunked` marks the segment as chunked. |
| Responses.OnNoSpace | NetworkForensics/src/forensics/NetworkForensics.java:983-995 | A line without a space changes nothing, except as the first line of a block in a chunked segment. |
| Responses.OnFirstSize | NetworkForensics/src/forensics/NetworkForensics.java:983-993 | The first line of a block in a chunked segment starts following a body: its hex value starts both the total and the countdown, under this segment's key. |
| Responses.StatusLineStep | NetworkForensics/src/forensics/NetworkForensics.java:958-965 | Scanning a status line sets the code and marks the segment for filing. |
| Responses.LengthLineStep | NetworkForensics/src/forensics/NetworkForensics.java:971-973 | Scanning a `Content-Length:` line sets the length, and in the image report arms the capture. |
| Responses.ChunkedLineStep | NetworkForensics/src/forensics/NetworkForensics.java:975-981 | Scanning `Transfer-Encoding: chunked` marks the segment as chunked. |
| Responses.FirstSizeStep | NetworkForensics/src/forensics/NetworkForensics.java:983-1001 | Scanning the first size line of a chunked segment starts the total at that size. The countdown is then one below the size. |
| Responses.ChunkDataStep | NetworkForensics/src/forensics/NetworkForensics.java:936-938 | A chunk's data and CRLF count the countdown down to -3 without reading a size. |
| Responses.SizeStep | NetworkForensics/src/forensics/NetworkForensics.java:938-955 | At countdown -3 a size line adds its value to the total. A non-zero size restarts the countdown. |
| Responses.OnOtherHeader | NetworkForensics/src/forensics/NetworkForensics.java:958-995 | A header line whose first word is, ignoring case, none of `HTTP/1.1`, `Content-Length:` and `Transfer-Encoding:` changes nothing. |
| Responses.OtherHeaderByLength | NetworkForensics/src/forensics/NetworkForensics.java:928-931 | A header whose name differs in length from the three keywords, such as `Date:`, `Server:` or `Content-Type:`, is such a line. |
| Responses.OtherLineStep | NetworkForensics/src/forensics/NetworkForensics.java:917-1003 | Scanning such a line after a line end leaves the whole state as it was, when no chunk is followed and no capture runs. |
| Responses.OtherLinesStep | NetworkForensics/src/forensics/NetworkForensics.java:917-1003 | Scanning any number of such lines leaves the state as it was. |
| Responses.ResponseHeadStep | NetworkForensics/src/forensics/NetworkForensics.java:958-973 | Scanning a fixed-length head, with any other header lines before and after its `Content-Length:` line, keeps its code and length for filing, and in the image report arms the capture with them. |
| Responses.ParseResponseHead | NetworkForensics/src/forensics/NetworkForensics.java:1004-1011 | A segment holding a fixed-length head, with any other header lines around its `Content-Length:` line, files its code and announced length under its acknowledgement number. |
| Responses.ChunkedEnd | NetworkForensics/src/forensics/NetworkForensics.java:944-952 | The zero-size line and final CRLF stop following the body and give the filed response the total. |
| Responses.ChunkedOne | NetworkForensics/src/forensics/NetworkForensics.java:936-956 | A size line and its chunk add the chunk's size to the total and come back to countdown -3. |
| Responses.ChunkLinesStep | NetworkForensics/src/forensics/NetworkForensics.java:936-956 | A chunk preceded by its size printed in hex adds exactly its length to the total. |
| Responses.LastChunkLinesStep | NetworkForensics/src/forensics/NetworkForensics.java:944-952 | The final size line stops following the body and gives the filed response the total. |
| Responses.ScanChunkedRest | NetworkForensics/src/forensics/NetworkForensics.java:936-957 | The rest of a chunked body, in any number of chunks, adds the sum of the chunk sizes to the total, then stops following and files it. |
| Responses.ChunkedHeadStep | NetworkForensics/src/forensics/NetworkForensics.java:958-981 | Scanning a chunked head, with any other header lines around its `Transfer-Encoding:` line, keeps its code, marks it chunked and starts a block. |
| Responses.FirstChunkStep | NetworkForensics/src/forensics/NetworkForensics.java:983-1001 | The first chunk after a chunked head starts the total at its size, under this segment's key. |
| Responses.ScanChunkedBody | NetworkForensics/src/forensics/NetworkForensics.java:936-1001 | A whole chunked body after its head totals the sum of the chunk sizes. |
| Responses.FinaliseThenFile | NetworkForensics/src/forensics/NetworkForensics.java:948-950 | Finalising a chunk total aborts exactly when the entry is missing, as written. Otherwise, filing the segment afterwards makes the finalisation irrelevant to that key. |
| Responses.ParseChunkedResponse | NetworkForensics/src/forensics/NetworkForensics.java:892-1011 | A whole chunked response in one segment either aborts, as written with no entry yet, or is filed with its code and the sum of the chunk sizes. |
| Responses.ChunkedOneSegmentAborts | NetworkForensics/src/forensics/NetworkForensics.java:948-950 | As written, a whole chunked response in one segment aborts the report when its key has no entry yet. |
| Responses.ChunkedOneSegmentFiled | NetworkForensics/src/forensics/NetworkForensics.java:1004-1011 | With finalisation only when present, a whole chunked response in one segment is filed with its code and the sum of the chunk sizes. |
| Responses.ChunkedHeadSegment | NetworkForensics/src/forensics/NetworkForensics.java:983-1011 | A segment ending with the chunked head (other header lines allowed) and the first size line files the first size and leaves the chunk countdown running. |
| Responses.ChunkedBodySegment | NetworkForensics/src/forensics/NetworkForensics.java:936-957 | The next segment, holding the rest of the body, updates the filed entry to the sum of all chunk sizes. |
| Responses.ScanTwoSegments | NetworkForensics/src/forensics/NetworkForensics.java:896-1013 | A flow's segments are scanned in order, the state of one carried to the next. |
| Responses.ChunkedHeadScanned | NetworkForensics/src/forensics/NetworkForensics.java:983-1011 | Starting from an idle parser over any table, the head segment of a two-segment chunked response files the status code with the first chunk size, and leaves the chunk countdown running under that segment's key. |
| Responses.ChunkedBodyScanned | NetworkForensics/src/forensics/NetworkForensics.java:936-957 | With that countdown running over a filed key, the chunk segment sets that entry's body length to the sum of all chunk sizes. No other entry changes, and the countdown stops at zero. |
| Responses.ChunkedResponseTwoSegments | NetworkForensics/src/forensics/NetworkForensics.java:892-1013 | A chunked response split after the first size line is filed with its code and the sum of all chunk sizes, in either finalisation mode. |
| Responses.ChunkedExample | NetworkForensics/src/forensics/NetworkForensics.java:892-1013 | The body `5`, `AAAAA`, `3`, `BBB`, `0`, after a head segment holding the first size line, totals 8. |
| Responses.CaptureStartStep | NetworkForensics/src/forensics/NetworkForensics.java:1433-1442 | When a capture is armed, the first line end of a block starts it under this segment's key. |
| Responses.CaptureRestartKeepsCount | NetworkForensics/src/forensics/NetworkForensics.java:1433-1441 | A capture re-armed while it runs restarts with no bytes but its counter kept, so the counter exceeds the bytes captured. |
| Responses.CaptureRun | NetworkForensics/src/forensics/NetworkForensics.java:1403-1407 | Captured bytes short of the length are appended and counted one for one. |
| Responses.CaptureLastByte | NetworkForensics/src/forensics/NetworkForensics.java:1408-1423 | The byte reaching the length files the captured body and resets the capture. |
| Responses.CaptureFront | NetworkForensics/src/forensics/NetworkForensics.java:1403-1407 | Captured bytes short of the length without CR are appended and counted. |
| Responses.CaptureBodyStep | NetworkForensics/src/forensics/NetworkForensics.java:1403-1423 | A whole body after the capture starts is filed with the announced code and length and exactly its bytes. |
| Responses.ImageBodySegment | NetworkForensics/src/forensics/NetworkForensics.java:1397-1442 | A segment after an armed head files its bytes after the first line end, under its own key. |
| Responses.ImageResponseTwoSegments | NetworkForensics/src/forensics/NetworkForensics.java:1375-1538 | A fixed-length response whose body follows in the next segment is filed twice. The head segment files it with an empty body under its key. The body segment files the captured body under its own key. |
| Responses.ImageBodyInHeadSegment | NetworkForensics/src/forensics/NetworkForensics.java:1427-1443 | A body in the head's own segment that holds no CR is not captured: it ends no line after the blank line. The response is filed with an empty body, and the capture stays armed. |
| Responses.ArmedStatusLineStep | NetworkForensics/src/forensics/NetworkForensics.java:1433-1482 | A status line opening a segment while a capture is armed both starts the capture and marks the segment for filing. |
| Responses.CapturedBodyOverwritten | NetworkForensics/src/forensics/NetworkForensics.java:1529-1536 | A body captured in a segment that has a status line is replaced, under the same key, by that segment's filing with an empty body. |
| Responses.InertChunks | NetworkForensics/src/forensics/NetworkForensics.java:983 | In a segment not marked chunked, size lines and chunks change nothing. |
| Responses.BareChunkedHeadSegment | NetworkForensics/src/forensics/NetworkForensics.java:1004-1011 | A chunked head alone in its segment is filed with the chunk total left from before. |
| Responses.InertBodySegment | NetworkForensics/src/forensics/NetworkForensics.java:983 | A chunked body in a later segment changes nothing. |
| Responses.ChunkedBodyAfterBareHead | NetworkForensics/src/forensics/NetworkForensics.java:892-1013 | A chunked response split right after its head is filed with body length 0 in a fresh flow. |
| Correlate.MatchedExactly | NetworkForensics/src/forensics/NetworkForensics.java:1023-1049 | A transaction is output exactly when its key is walked and is in both tables, and it pairs the two entries for that key. |
| Correlate.MatchedCount | NetworkForensics/src/forensics/NetworkForensics.java:1023-1049 | At most one transaction per key walked, and exactly one each when every key is in both tables. |
| Correlate.Insert | NetworkForensics/src/forensics/NetworkForensics.java:1053 | Inserting keeps all elements and adds the new one. |
| Correlate.InsertSorted | NetworkForensics/src/forensics/NetworkForensics.java:1053 | Inserting into a list sorted by capture time keeps it sorted. |
| Correlate.SortByTime | NetworkForensics/src/forensics/NetworkForensics.java:1053 | The sorted list is ordered by capture time then microsecond offset, and is a permutation of its input. |
| Correlate.SortSorted | NetworkForensics/src/forensics/NetworkForensics.java:1053 | Sorting an already ordered list leaves it unchanged. |
| Correlate.JavaCompare | NetworkForensics/src/forensics/NetworkForensics.java:296-302 | The comparator's value is a Java `int`, and transactions with equal capture time and offset compare as zero. |
| Correlate.JavaCompareAgrees | NetworkForensics/src/forensics/NetworkForensics.java:296-302 | When both times fit in 31 bits, the comparator's verdict is "not later" exactly when the pair is in capture order. It is zero exactly when both times are equal. |
| Correlate.JavaCompareWraps | NetworkForensics/src/forensics/NetworkForensics.java:296-302 | Capture times 2^31 apart make the comparator put the later transaction first. |
| Correlate.LowerKeepsSpaces | NetworkForensics/src/forensics/NetworkForensics.java:1057-1058 | Lower-casing neither adds nor removes spaces. |
| Correlate.ParseLogFields | NetworkForensics/src/forensics/NetworkForensics.java:1057-1058 | Four space-free fields joined by spaces and ended by LF read back as those fields. |
| Correlate.LogBytes | NetworkForensics/src/forensics/NetworkForensics.java:1057-1058 | A log line ends in LF, and its first word is the lower-cased URL whenever the URL holds no space. |
| Correlate.LogLineRoundTrip | NetworkForensics/src/forensics/NetworkForensics.java:1057-1058 | A log line reads back as the lower-cased URL, the lower-cased host, the code and the body length. |
| Correlate.LogTextConcat | NetworkForensics/src/forensics/NetworkForensics.java:1055-1060 | The log of two transaction lists in turn is the concatenation of their logs. |
| Correlate.ImageBytesConcat | NetworkForensics/src/forensics/NetworkForensics.java:1565-1573 | The image output of two lists in turn is the concatenation of their outputs. |
| Correlate.ImageBytesAsWritten | NetworkForensics/src/forensics/NetworkForensics.java:1565-1573 | The output as written is empty for no transactions. Otherwise it is the intended output of the first transaction alone. |
| Correlate.ImageBytesFirst | NetworkForensics/src/forensics/NetworkForensics.java:1565-1573 | The intended output is the first transaction's body followed by the output of the others. |
| Correlate.LaterBodiesEmpty | NetworkForensics/src/forensics/NetworkForensics.java:1565-1573 | The output of the transactions after the first is empty exactly when each of their bodies is. |
| Correlate.ImageBytesTruncated | NetworkForensics/src/forensics/NetworkForensics.java:1565-1573 | The output as written is a prefix of all bodies concatenated. It equals that concatenation exactly when every body after the first is empty. |
| Correlate.ImageBytesEmpty | NetworkForensics/src/forensics/NetworkForensics.java:1565-1573 | The image output is empty exactly when every body is empty. |
| Correlate.ImageBytesLosesSecond | NetworkForensics/src/forensics/NetworkForensics.java:1571-1572 | With a non-empty second body, the output as written differs from all bodies concatenated. |
| Correlate.Correlated | NetworkForensics/src/forensics/NetworkForensics.java:1021-1053 | The joined transactions, in capture order, are a permutation of the matched ones. |
| Correlate.MatchedKeys | NetworkForensics/src/forensics/NetworkForensics.java:1023-1031 | The walked keys held by both tables: every key it lists is walked and held by both, every such key is listed, and no key is listed twice when the walk lists each key once. |
| Correlate.MatchedKeysEnumerate | NetworkForensics/src/forensics/NetworkForensics.java:1023-1031 | A walk listing every request key once yields every key held by both tables exactly once. |
| Correlate.Matched | NetworkForensics/src/forensics/NetworkForensics.java:1023-1049 | The matched list is the transaction of each matched key, one per key, in walk order. |
| Correlate.Tables | NetworkForensics/src/forensics/NetworkForensics.java:812-1016 | The report has tables exactly when neither the request parsing nor the response parsing aborts. |
| Correlate.TransactionLogReport | NetworkForensics/src/forensics/NetworkForensics.java:610-1062 | The log exists exactly when parsing does not abort. It then holds one line for each request key that the response table also holds, and no other line. The lines are in capture order. |
| Correlate.ImageReport | NetworkForensics/src/forensics/NetworkForensics.java:1542-1573 | The corrected image output, with every body written. It exists exactly when parsing does not abort. It is then the bodies of the joined image transactions in capture order, one per request key that the response table also holds, concatenated. |
| Correlate.ImageReportAsWritten | NetworkForensics/src/forensics/NetworkForensics.java:1542-1573 | The image output as written. It exists exactly when parsing does not abort, and it is then the body of the earliest joined image transaction alone. It is a prefix of the corrected output. |

## Left out

- Reading standard input (`input`), the `main` argument dispatch and the printing itself: the capture is a byte sequence and each report is the byte or character sequence it would print.
- The `hashCode` methods and the Java `HashMap` machinery. Tables are Dafny maps, and the order in which one is walked is a parameter.
- The `TreeMap` order of the flow dump (`String.compareTo` on `ConnectionTuple.toString`): the dump walks the connections in a given order that lists every key once.
- The character encoding `System.out` applies to the log lines: lines are modelled as Java characters.
- Captures longer than the 30,000,000-byte buffer, which make `input` throw.
- Base.Window: reads past the capture return zero, as the zero-filled buffer does below 30,000,000 bytes. A read at or past index 30,000,000 throws `ArrayIndexOutOfBoundsException` in the source and aborts the report. The model reads zero there instead. An example is a record near the end of a 29,999,990-byte capture that announces a 1,000-byte payload. `Base.MAX_CAPTURE_SIZE` records the buffer size.
- Decoder.Records: requires that every record length the scan reads is non-negative as a Java `int`, and that the next offset stays below 2^31. A top length byte of 0x80 or more, or an offset that overflows, is not modelled. Such lengths expose a defect of the source: a length of -16 (bytes `F0 FF FF FF`) makes the step `i += totalPacketLength + 16` (lines 421, 567, 808 and 1262) add zero, so the scan never ends. A length below -16 moves the scan backwards.
- Flows.FlowsConsistent: states the counter invariant only for captures with no negative TCP payload length, because the source adds a negative length to the counter while appending no bytes.
- Counters.CountersLine: states only that the report is one line ending in LF. The numbers are printed by `Text.DecimalText`, whose round trip is `Text.ParseDecimalText`.
- Responses.OnHeaderLine and Responses.OnResponseLine: the contracts state only what the line handlers leave unchanged. The effect of each branch is stated by the `On…` and `…Step` lemmas.
- The image report's content counter is a Java `long` declared once per flow (line 1370), so a capture carries it from one segment into the next; it counts at most the flow's downstream payload bytes and is not wrapped. Starting a capture clears the captured bytes but not the counter (lines 1433-1441), so a `Content-Length:` line among captured bytes re-arms a capture whose counter then exceeds its bytes (`Responses.CaptureRestartKeepsCount`); the model keeps this behaviour.
- Sorting: `List.sort` with the source's comparator is modelled by an insertion sort on the exact (capture time, microsecond offset) order. `Correlate.JavaCompareAgrees` shows the two orders agree while the times fit in 31 bits. The order among equal times depends on the walk order of the request table, which is a parameter.
- The `receptionTime`, `sequenceNumber` and `imageType` fields that the reports never print.
- Text.LowerAll: `toLowerCase()` uses the default locale. Under a Turkish locale `I` becomes U+0131 (dotless i), not `i`. The model lower-cases as every other locale does.
- Responses.ResponseTableFiled: states the keys of the response table, not which segment's values each entry carries. The values are stated per segment by the `Responses` scan lemmas.

## Findings

| source | as written | input that shows it | evidently intended | confidence | as-written member | corrected member |
|---|---|---|---|---|---|---|
| NetworkForensics/src/forensics/NetworkForensics.java:948-950 | The zero-size chunk looks up the response under the chunk key and sets its body length. The response is only filed at the end of the segment (line 1011). | A whole chunked response in one segment, e.g. `HTTP/1.1 200 OK`, `Transfer-Encoding: chunked`, blank line, `5`, `AAAAA`, `0`, for an acknowledgement number not filed before. The lookup yields `null` and the report ends with a `NullPointerException`. | Update the entry only when present. The end-of-segment filing then records the chunk total. | not executed; high | Responses.ChunkedOneSegmentAborts | Responses.ChunkedOneSegmentFiled |
| NetworkForensics/src/forensics/NetworkForensics.java:1571-1572 | `out.close()` is inside the loop over transactions. After the first transaction, writes go to a closed `PrintStream`, which drops them silently. | Two joined image transactions whose second body is non-empty: only the first body is written. | Write every body, in order, then close once. | not executed; high | Correlate.ImageBytesLosesSecond | Correlate.ImageReport |
| NetworkForensics/src/forensics/NetworkForensics.java:296-301 | The comparator returns `(int)` of a `long` difference of capture times or offsets. | Capture times 2147483648 and 0: the difference casts to a negative `int`, so the later transaction sorts first. | Compare the `long` values (for example with `Long.compare`). | not executed; low (needs capture times 2^31 seconds apart) | Correlate.JavaCompareWraps | Correlate.SortByTime |

For the first row, both behaviours are in the model: `Responses.Finalisation` selects between them, and every report takes it as a parameter. `IfPresent` gives the intended behaviour, and `Responses.ChunkedResponseTwoSegments` holds in both modes. For the second row, `Correlate.ImageReportAsWritten` is the report as written, built on `Correlate.ImageBytesAsWritten`. `Correlate.ImageReport` is the corrected report, built on `Correlate.ImageBytes`. For the third row, `Correlate.Correlated` sorts by the exact order.

=== FILE: base.dfy ===
/** Byte-level primitives shared by the frame decoder and the HTTP parsers:
    the byte type, an Option for outcomes that abort a report, Java's 32-bit
    narrowing, reads from the zero-padded capture buffer, Java's `substring`,
    and fixed-width integers assembled from bytes in either byte order. */
module Base {

  newtype byte = x: int | 0 <= x < 256

  /** `None` stands for a runtime exception of the source (a failed number
      parse, an out-of-range `substring`, a null dereference): it aborts the
      report being computed. */
  datatype Option<T> = None | Some(value: T)

  /** Size of the capture buffer the source allocates; bytes of the buffer
      past the end of the capture keep their initial value zero. */
  const MAX_CAPTURE_SIZE: nat := 30_000_000

  const TWO_TO_31: int := 0x8000_0000
  const TWO_TO_32: int := 0x1_0000_0000

  /** Java's narrowing of a wider integer to `int`: the low 32 bits, read as
      two's complement. */
  function Int32(x: int): (r: int)
    ensures -TWO_TO_31 <= r < TWO_TO_31
    ensures -TWO_TO_31 <= x < TWO_TO_31 ==> r == x
  {
    var m := x % TWO_TO_32;
    if m < TWO_TO_31 then m else m - TWO_TO_32
  }

  const TWO_TO_63: int := 0x8000_0000_0000_0000
  const TWO_TO_64: int := 0x1_0000_0000_0000_0000

  /** Java's `long` arithmetic: the low 64 bits, read as two's complement. */
  function Int64(x: int): (r: int)
    ensures -TWO_TO_63 <= r < TWO_TO_63
    ensures -TWO_TO_63 <= x < TWO_TO_63 ==> r == x
  {
    var m := x % TWO_TO_64;
    if m < TWO_TO_63 then m else m - TWO_TO_64
  }

  /** Byte `k` of the capture buffer: the capture itself, then zeros. */
  function At(cap: seq<byte>, k: nat): byte
  {
    if k < |cap| then cap[k] else 0
  }

  /** The `n` bytes of the capture buffer from offset `start`. */
  function Window(cap: seq<byte>, start: nat, n: nat): (r: seq<byte>)
    ensures |r| == n && forall k :: 0 <= k < n ==> r[k] == At(cap, start + k)
  {
    if start >= |cap| then Zeros(n)
    else if start + n <= |cap| then cap[start..start + n]
    else cap[start..] + Zeros(start + n - |cap|)
  }

  function Zeros(n: nat): (r: seq<byte>)
    ensures |r| == n && forall k :: 0 <= k < n ==> r[k] == 0
  {
    seq(n, _ => 0)
  }

  lemma AtInside(cap: seq<byte>, start: nat, part: seq<byte>, k: nat)
    requires start + |part| <= |cap| && cap[start..start + |part|] == part
    requires k < |part|
    ensures At(cap, start + k) == part[k]
  {
    assert cap[start..start + |part|][k] == cap[start + k];
  }

  /** Java's `String.substring(b, e)` on a line held as bytes; `None` where
      Java throws `StringIndexOutOfBoundsException`. */
  function Substring(s: seq<byte>, b: int, e: int): (r: Option<seq<byte>>)
    ensures r.Some? <==> 0 <= b <= e <= |s|
    ensures r.Some? ==> |r.value| == e - b && forall k :: 0 <= k < e - b ==> r.value[k] == s[b + k]
  {
    if 0 <= b <= e <= |s| then Some(s[b..e]) else None
  }

  /** Two bytes, most significant first (network order). */
  function BE16(hi: byte, lo: byte): nat
  {
    hi as nat * 0x100 + lo as nat
  }

  /** Four bytes, most significant first (network order). */
  function BE32(b0: byte, b1: byte, b2: byte, b3: byte): nat
  {
    ((b0 as nat * 0x100 + b1 as nat) * 0x100 + b2 as nat) * 0x100 + b3 as nat
  }

  /** Four bytes, least significant first (the capture file's own order). */
  function LE32(b0: byte, b1: byte, b2: byte, b3: byte): nat
  {
    BE32(b3, b2, b1, b0)
  }

  lemma BE16Bound(hi: byte, lo: byte)
    ensures BE16(hi, lo) < 0x1_0000
  {}

  lemma BE32Bound(b0: byte, b1: byte, b2: byte, b3: byte)
    ensures BE32(b0, b1, b2, b3) < TWO_TO_32
    ensures b0 < 0x80 ==> BE32(b0, b1, b2, b3) < TWO_TO_31
  {}

  /** The network-order encoding of a 16-bit value. */
  function EncodeBE16(v: nat): (r: seq<byte>)
    requires v < 0x1_0000
    ensures |r| == 2 && BE16(r[0], r[1]) == v
  {
    [(v / 0x100) as byte, (v % 0x100) as byte]
  }

  /** The network-order encoding of a 32-bit value. */
  function EncodeBE32(v: nat): (r: seq<byte>)
    requires v < TWO_TO_32
    ensures |r| == 4 && BE32(r[0], r[1], r[2], r[3]) == v
  {
    var hi := EncodeBE16(v / 0x1_0000);
    var lo := EncodeBE16(v % 0x1_0000);
    hi + lo
  }

  /** The capture-file-order encoding of a 32-bit value. */
  function EncodeLE32(v: nat): (r: seq<byte>)
    requires v < TWO_TO_32
    ensures |r| == 4 && LE32(r[0], r[1], r[2], r[3]) == v
  {
    var be := EncodeBE32(v);
    [be[3], be[2], be[1], be[0]]
  }

  /** Decoding then re-encoding gives back the same two bytes. */
  lemma EncodeBE16OfDecoded(hi: byte, lo: byte)
    ensures EncodeBE16(BE16(hi, lo)) == [hi, lo]
  {}

  /** Decoding then re-encoding gives back the same four bytes. */
  lemma EncodeBE32OfDecoded(b0: byte, b1: byte, b2: byte, b3: byte)
    ensures BE32(b0, b1, b2, b3) < TWO_TO_32
    ensures EncodeBE32(BE32(b0, b1, b2, b3)) == [b0, b1, b2, b3]
  {
    var v := BE32(b0, b1, b2, b3);
    assert v / 0x1_0000 == BE16(b0, b1);
    assert v % 0x1_0000 == BE16(b2, b3);
    EncodeBE16OfDecoded(b0, b1);
    EncodeBE16OfDecoded(b2, b3);
  }
}

=== FILE: connections.dfy ===
/** Connection identity: the two directions of a TCP connection. */
module Connections {
  import opened Decoder

  /** The tuple of the opposite direction: both addresses and both ports
      exchanged. */
  function Swap(t: ConnTuple): (r: ConnTuple)
    ensures r.sourceIp == t.destinationIp && r.destinationIp == t.sourceIp
    ensures r.sourcePort == t.destinationPort && r.destinationPort == t.sourcePort
  {
    ConnTuple(t.destinationIp, t.destinationPort, t.sourceIp, t.sourcePort)
  }

  /** The source's equality of two connection objects, field by field: the
      same orientation, or the two endpoints crossed over. */
  predicate SameConnection(a: ConnTuple, b: ConnTuple)
  {
    || (a.destinationIp == b.destinationIp && a.sourceIp == b.sourceIp
        && a.destinationPort == b.destinationPort && a.sourcePort == b.sourcePort)
    || (a.destinationIp == b.sourceIp && a.sourceIp == b.destinationIp
        && a.sourcePort == b.destinationPort && a.destinationPort == b.sourcePort)
  }

  /** Swapping twice gives the tuple back. */
  lemma SwapSwap(t: ConnTuple)
    ensures Swap(Swap(t)) == t
  {}

  /** Two tuples name the same connection exactly when they are equal or one
      is the other swapped; the relation is symmetric. */
  lemma SameConnectionIff(a: ConnTuple, b: ConnTuple)
    ensures SameConnection(a, b) <==> a == b || a == Swap(b)
    ensures SameConnection(a, b) <==> SameConnection(b, a)
  {}

  /** The relation is an equivalence: a tuple names its own connection, and
      two tuples of the same connection as a third name the same one. */
  lemma SameConnectionTransitive(a: ConnTuple, b: ConnTuple, c: ConnTuple)
    requires SameConnection(a, b) && SameConnection(b, c)
    ensures SameConnection(a, c)
    ensures SameConnection(a, a)
  {}
}

=== FILE: correlate.dfy ===
/** The last stage of the HTTP reports. The request table and the response
    table are joined on their numeric key (the sequence number a response
    acknowledges), the joined transactions are ordered by the capture time
    of their request, and each is written out: the transaction log writes
    one line per transaction, the image report writes the captured bodies. */
module Correlate {
  import opened Base
  import opened Text
  import opened Decoder
  import opened Flows
  import opened Requests
  import opened Responses

  /** A request together with the response filed under its key. */
  datatype Transaction = Transaction(request: Request, response: Response)

  // ---------------------------------------------------------------- joining

  predicate Distinct(s: seq<int>)
  {
    forall i, j :: 0 <= i < j < |s| ==> s[i] != s[j]
  }

  /** The walked keys that both tables hold, in walk order: each such key
      once when the walk lists each key once. */
  function MatchedKeys(requests: map<int, Request>, responses: map<int, Response>, keys: seq<int>): (r: seq<int>)
    ensures forall i :: 0 <= i < |r| ==> r[i] in keys && r[i] in requests && r[i] in responses
    ensures forall k :: k in keys && k in requests && k in responses ==> k in r
    ensures Distinct(keys) ==> Distinct(r)
  {
    if keys == [] then []
    else
      var front, k := keys[..|keys| - 1], keys[|keys| - 1];
      assert keys == front + [k];
      var mk := MatchedKeys(requests, responses, front);
      assert Distinct(keys) ==> Distinct(front) && k !in front;
      if k in requests && k in responses then mk + [k] else mk
  }

  /** The transactions of keys that both tables hold, in the keys' order. */
  function Joined(requests: map<int, Request>, responses: map<int, Response>, ks: seq<int>): (r: seq<Transaction>)
    requires forall i :: 0 <= i < |ks| ==> ks[i] in requests && ks[i] in responses
    ensures |r| == |ks|
  {
    seq(|ks|, i requires 0 <= i < |ks| => Transaction(requests[ks[i]], responses[ks[i]]))
  }

  /** A walk that lists every request key once meets every key held by both
      tables exactly once. */
  lemma MatchedKeysEnumerate(requests: map<int, Request>, responses: map<int, Response>, keys: seq<int>)
    requires Enumerates(keys, requests.Keys)
    ensures Enumerates(MatchedKeys(requests, responses, keys), requests.Keys * responses.Keys)
  {
    assert Distinct(keys);
  }

  /** The transactions of the request keys, walked in the given order, whose
      key the response table also holds: one per walked key both tables
      hold, in walk order. */
  function Matched(requests: map<int, Request>, responses: map<int, Response>, keys: seq<int>): (r: seq<Transaction>)
    ensures r == Joined(requests, responses, MatchedKeys(requests, responses, keys))
  {
    if keys == [] then []
    else
      var front, k := Matched(requests, responses, keys[..|keys| - 1]), keys[|keys| - 1];
      var mk := MatchedKeys(requests, responses, keys[..|keys| - 1]);
      if k in requests && k in responses then
        assert Joined(requests, responses, mk + [k]) == front + [Transaction(requests[k], responses[k])];
        front + [Transaction(requests[k], responses[k])]
      else front
  }

  /** A transaction is matched exactly when it joins a walked key held by
      both tables. */
  lemma {:induction false} MatchedExactly(requests: map<int, Request>, responses: map<int, Response>, keys: seq<int>)
    ensures forall k :: k in keys && k in requests && k in responses ==>
      Transaction(requests[k], responses[k]) in Matched(requests, responses, keys)
    ensures forall x :: x in Matched(requests, responses, keys) ==>
      exists k :: k in keys && k in requests && k in responses && x == Transaction(requests[k], responses[k])
  {
    if keys != [] {
      var front, last := keys[..|keys| - 1], keys[|keys| - 1];
      MatchedExactly(requests, responses, front);
      assert keys == front + [last];
      var m := Matched(requests, responses, keys);
      forall x | x in m
        ensures exists k :: k in keys && k in requests && k in responses && x == Transaction(requests[k], responses[k])
      {
        if x in Matched(requests, responses, front) {
          var k :| k in front && k in requests && k in responses && x == Transaction(requests[k], responses[k]);
          assert k in keys;
        } else {
          assert last in keys;
        }
      }
    }
  }

  /** A walked key missing from the response table contributes nothing, and
      each walked key contributes at most one transaction. */
  lemma {:induction false} MatchedCount(requests: map<int, Request>, responses: map<int, Response>, keys: seq<int>)
    ensures |Matched(requests, responses, keys)| <= |keys|
    ensures (forall i :: 0 <= i < |keys| ==> keys[i] in requests && keys[i] in responses) ==>
      |Matched(requests, responses, keys)| == |keys|
  {
    if keys != [] {
      var front := keys[..|keys| - 1];
      MatchedCount(requests, responses, front);
      if forall i :: 0 <= i < |keys| ==> keys[i] in requests && keys[i] in responses {
        assert forall i :: 0 <= i < |front| ==> front[i] == keys[i];
        assert keys[|keys| - 1] in requests && keys[|keys| - 1] in responses;
      }
    }
  }

  // ---------------------------------------------------------------- ordering

  /** `a` was captured no later than `b`: by capture time, then by the
      microsecond offset. */
  predicate NotLater(a: Transaction, b: Transaction)
  {
    || a.request.captureTime < b.request.captureTime
    || (a.request.captureTime == b.request.captureTime && a.request.microOffset <= b.request.microOffset)
  }

  predicate SortedByTime(xs: seq<Transaction>)
  {
    forall i, j :: 0 <= i < j < |xs| ==> NotLater(xs[i], xs[j])
  }

  /** `x` was captured no later than any of `ys`. */
  predicate FirstOf(x: Transaction, ys: seq<Transaction>)
  {
    forall j :: 0 <= j < |ys| ==> NotLater(x, ys[j])
  }

  lemma SortedCons(x: Transaction, ys: seq<Transaction>)
    requires SortedByTime(ys) && FirstOf(x, ys)
    ensures SortedByTime([x] + ys)
  {
    assert forall j :: 0 < j <= |ys| ==> ([x] + ys)[j] == ys[j - 1];
  }

  /** Inserts a transaction after every transaction captured no later. */
  function Insert(x: Transaction, xs: seq<Transaction>): (r: seq<Transaction>)
    ensures multiset(r) == multiset(xs) + multiset{x}
  {
    if xs == [] then [x]
    else if NotLater(xs[0], x) then
      assert xs == [xs[0]] + xs[1..];
      [xs[0]] + Insert(x, xs[1..])
    else [x] + xs
  }

  /** Insertion keeps a sequence sorted. */
  lemma {:induction false} InsertSorted(x: Transaction, xs: seq<Transaction>)
    requires SortedByTime(xs)
    ensures SortedByTime(Insert(x, xs))
  {
    if xs != [] {
      var head, tail := xs[0], xs[1..];
      assert forall j :: 0 <= j < |tail| ==> tail[j] == xs[j + 1];
      if NotLater(head, x) {
        InsertSorted(x, tail);
        var rest := Insert(x, tail);
        forall j | 0 <= j < |rest| ensures NotLater(head, rest[j]) {
          assert rest[j] in multiset(rest);
          if rest[j] != x {
            assert rest[j] in multiset(tail);
            var i :| 0 <= i < |tail| && tail[i] == rest[j];
          }
        }
        SortedCons(head, rest);
      } else {
        assert FirstOf(x, xs) by {
          forall j | 0 <= j < |xs| ensures NotLater(x, xs[j]) {
            if j > 0 {
              assert NotLater(head, xs[j]);
            }
          }
        }
        SortedCons(x, xs);
      }
    }
  }

  /** The transactions in capture order: a permutation of its input that is
      sorted by capture time. */
  function SortByTime(xs: seq<Transaction>): (r: seq<Transaction>)
    ensures SortedByTime(r)
    ensures multiset(r) == multiset(xs)
  {
    if xs == [] then []
    else
      var front, last := xs[..|xs| - 1], xs[|xs| - 1];
      assert xs == front + [last];
      var sorted := SortByTime(front);
      InsertSorted(last, sorted);
      Insert(last, sorted)
  }

  /** Sorting leaves a sorted sequence as it is. */
  lemma {:induction false} SortSorted(xs: seq<Transaction>)
    requires SortedByTime(xs)
    ensures SortByTime(xs) == xs
  {
    if xs != [] {
      var front, last := xs[..|xs| - 1], xs[|xs| - 1];
      SortedFront(xs, front, last);
      SortSorted(front);
      InsertLast(last, front);
      SortByTimeLast(xs);
    }
  }

  /** The front of a sorted sequence is sorted and its last element comes
      after all the others. */
  lemma SortedFront(xs: seq<Transaction>, front: seq<Transaction>, last: Transaction)
    requires SortedByTime(xs) && xs != [] && front == xs[..|xs| - 1] && last == xs[|xs| - 1]
    ensures SortedByTime(front)
    ensures forall j :: 0 <= j < |front| ==> NotLater(front[j], last)
    ensures front + [last] == xs
  {
    assert forall j :: 0 <= j < |front| ==> front[j] == xs[j];
  }

  lemma SortByTimeLast(xs: seq<Transaction>)
    requires xs != []
    ensures SortByTime(xs) == Insert(xs[|xs| - 1], SortByTime(xs[..|xs| - 1]))
  {
  }

  /** A transaction captured no earlier than every other goes last. */
  lemma {:induction false} InsertLast(x: Transaction, xs: seq<Transaction>)
    requires forall j :: 0 <= j < |xs| ==> NotLater(xs[j], x)
    ensures Insert(x, xs) == xs + [x]
  {
    if xs != [] {
      assert NotLater(xs[0], x);
      assert forall j :: 0 <= j < |xs[1..]| ==> xs[1..][j] == xs[j + 1];
      InsertLast(x, xs[1..]);
      assert [xs[0]] + (xs[1..] + [x]) == xs + [x];
    }
  }

  // ---------------------------------------------------------------- the source's comparator

  /** The source's comparator: the `long` difference of the capture times,
      or of the microsecond offsets when the times are equal, narrowed to
      `int`. Negative means "sorts first". */
  function JavaCompare(a: Transaction, b: Transaction): (r: int)
    ensures INT_MIN <= r <= INT_MAX
    ensures a.request.captureTime == b.request.captureTime && a.request.microOffset == b.request.microOffset ==> r == 0
  {
    var x, y := a.request, b.request;
    if x.captureTime == y.captureTime then Int32(Int64(x.microOffset - y.microOffset))
    else Int32(Int64(x.captureTime - y.captureTime))
  }

  /** While capture times and offsets stay below 2^31 the comparator's sign
      is the capture order. */
  lemma JavaCompareAgrees(a: Transaction, b: Transaction)
    requires a.request.captureTime < TWO_TO_31 && b.request.captureTime < TWO_TO_31
    requires a.request.microOffset < TWO_TO_31 && b.request.microOffset < TWO_TO_31
    ensures JavaCompare(a, b) <= 0 <==> NotLater(a, b)
    ensures JavaCompare(a, b) == 0 <==>
      a.request.captureTime == b.request.captureTime && a.request.microOffset == b.request.microOffset
  {
  }

  /** A capture time of 2^31 seconds (January 2038) or later against one
      before it: the difference narrows to a negative `int`, so the later
      transaction sorts first. */
  lemma JavaCompareWraps(a: Transaction, b: Transaction)
    requires a.request.captureTime == TWO_TO_31 && b.request.captureTime == 0
    ensures JavaCompare(a, b) < 0 && !NotLater(a, b)
  {
  }

  // ---------------------------------------------------------------- the transaction log

  /** One line of the transaction log, as bytes before the source's byte to
      character cast: URL and host lower-cased, code and body length in
      decimal, separated by spaces. */
  function LogBytes(x: Transaction): (r: seq<byte>)
    ensures |r| > 0 && r[|r| - 1] == LF
    ensures SP !in x.request.url ==> FirstWord(r) == Some(LowerAll(x.request.url))
  {
    var line := LowerAll(x.request.url) + [SP] + LowerAll(x.request.host) + [SP]
      + DecimalText(x.response.code) + [SP] + DecimalText(x.response.bodyLength) + [LF];
    if SP in x.request.url then line
    else
      LowerKeepsSpaces(x.request.url);
      FirstWordOf(LowerAll(x.request.url), line[|x.request.url| + 1..]);
      assert line == LowerAll(x.request.url) + [SP] + line[|x.request.url| + 1..];
      line
  }

  /** The first word of a text that starts with a space-free word. */
  lemma FirstWordOf(a: seq<byte>, rest: seq<byte>)
    requires SP !in a
    ensures FirstWord(a + [SP] + rest) == Some(a)
  {
    var s := a + [SP] + rest;
    IndexOfAt(s, SP, 0, |a|);
    assert s[..|a|] == a;
  }

  /** One line of the transaction log. */
  function LogLine(x: Transaction): (r: string)
  {
    JavaString(LogBytes(x))
  }

  /** The fields a reader of the log recovers from a line. */
  datatype LogFields = LogFields(url: seq<byte>, host: seq<byte>, code: int, bodyLength: int)

  /** The text before the first space and the text after it. */
  function SplitAtSpace(s: seq<byte>): (r: Option<(seq<byte>, seq<byte>)>)
  {
    var i := IndexOf(s, SP, 0);
    if i < 0 then None else Some((s[..i], s[i + 1..]))
  }

  lemma SplitAtSpaceOf(a: seq<byte>, b: seq<byte>)
    requires SP !in a
    ensures SplitAtSpace(a + [SP] + b) == Some((a, b))
  {
    var s := a + [SP] + b;
    IndexOfAt(s, SP, 0, |a|);
    assert s[..|a|] == a;
    assert s[|a| + 1..] == b;
  }

  /** Reads a log line back: three space-separated fields and a last one
      ended by the line feed. */
  function ParseLogBytes(line: seq<byte>): (r: Option<LogFields>)
  {
    match SplitAtSpace(line)
    case None => None
    case Some((url, r1)) =>
      match SplitAtSpace(r1)
      case None => None
      case Some((host, r2)) =>
        match SplitAtSpace(r2)
        case None => None
        case Some((code, r3)) =>
          if r3 == [] || r3[|r3| - 1] != LF then None
          else
            match (ParseDecimalInt(code), ParseDecimalLong(r3[..|r3| - 1]))
            case (Some(c), Some(n)) => Some(LogFields(url, host, c, n))
            case _ => None
  }

  lemma LowerKeepsSpaces(s: seq<byte>)
    ensures SP in LowerAll(s) <==> SP in s
  {
    if SP in s {
      var k :| 0 <= k < |s| && s[k] == SP;
      assert LowerAll(s)[k] == SP;
    }
  }

  /** Four fields without inner spaces, the last two numbers, read back
      from their line. */
  lemma ParseLogFields(u: seq<byte>, h: seq<byte>, c: seq<byte>, n: seq<byte>, code: int, length: int)
    requires SP !in u && SP !in h && Number(c, code) && ParseDecimalInt(c) == Some(code) && Number(n, length)
    ensures ParseLogBytes(u + [SP] + h + [SP] + c + [SP] + n + [LF]) == Some(LogFields(u, h, code, length))
  {
    var r3 := n + [LF];
    var r2 := c + [SP] + r3;
    var r1 := h + [SP] + r2;
    assert u + [SP] + h + [SP] + c + [SP] + n + [LF] == u + [SP] + r1;
    SplitAtSpaceOf(u, r1);
    SplitAtSpaceOf(h, r2);
    SplitAtSpaceOf(c, r3);
    assert r3[..|r3| - 1] == n;
  }

  /** A log line reads back as the lower-cased URL and host, the code and
      the body length, whenever URL and host hold no space (the URL never
      does: it is the text between the request line's first two spaces). */
  lemma LogLineRoundTrip(x: Transaction)
    requires SP !in x.request.url && SP !in x.request.host
    requires INT_MIN <= x.response.code <= INT_MAX && LONG_MIN <= x.response.bodyLength <= LONG_MAX
    ensures ParseLogBytes(LogBytes(x)) ==
      Some(LogFields(LowerAll(x.request.url), LowerAll(x.request.host), x.response.code, x.response.bodyLength))
  {
    LowerKeepsSpaces(x.request.url);
    LowerKeepsSpaces(x.request.host);
    NumberText(x.response.code);
    NumberText(x.response.bodyLength);
    ParseLogFields(LowerAll(x.request.url), LowerAll(x.request.host), DecimalText(x.response.code),
                   DecimalText(x.response.bodyLength), x.response.code, x.response.bodyLength);
  }

  /** The last element and the front of a concatenation. */
  lemma ConcatLast(a: seq<Transaction>, b: seq<Transaction>)
    requires b != []
    ensures (a + b)[..|a + b| - 1] == a + b[..|b| - 1] && (a + b)[|a + b| - 1] == b[|b| - 1]
  {
  }

  lemma Associative<T>(x: seq<T>, y: seq<T>, z: seq<T>)
    ensures (x + y) + z == x + (y + z)
  {
  }

  /** The transaction log: one line per transaction, in order. */
  function LogText(xs: seq<Transaction>): (r: string)
  {
    if xs == [] then [] else LogText(xs[..|xs| - 1]) + LogLine(xs[|xs| - 1])
  }

  /** The log of two runs of transactions is the two logs in turn. */
  lemma {:induction false} LogTextConcat(a: seq<Transaction>, b: seq<Transaction>)
    ensures LogText(a + b) == LogText(a) + LogText(b)
    decreases |b|
  {
    if b == [] {
      assert a + b == a;
    } else {
      ConcatLast(a, b);
      LogTextConcat(a, b[..|b| - 1]);
      Associative(LogText(a), LogText(b[..|b| - 1]), LogLine(b[|b| - 1]));
    }
  }

  // ---------------------------------------------------------------- the image output

  /** The image report's output as evidently intended: every captured body
      in turn. */
  function ImageBytes(xs: seq<Transaction>): (r: seq<byte>)
  {
    if xs == [] then [] else ImageBytes(xs[..|xs| - 1]) + xs[|xs| - 1].response.data
  }

  /** The output of two runs of transactions is the two outputs in turn. */
  lemma {:induction false} ImageBytesConcat(a: seq<Transaction>, b: seq<Transaction>)
    ensures ImageBytes(a + b) == ImageBytes(a) + ImageBytes(b)
    decreases |b|
  {
    if b == [] {
      assert a + b == a;
    } else {
      ConcatLast(a, b);
      ImageBytesConcat(a, b[..|b| - 1]);
      Associative(ImageBytes(a), ImageBytes(b[..|b| - 1]), b[|b| - 1].response.data);
    }
  }

  /** The image report's output as written: the stream is closed inside the
      loop, after the first transaction's body, and the later writes are
      lost (the print stream swallows their errors). */
  function ImageBytesAsWritten(xs: seq<Transaction>): (r: seq<byte>)
    ensures xs == [] ==> r == []
    ensures xs != [] ==> r == ImageBytes(xs[..1])
  {
    assert xs != [] ==> xs[..1][..0] == [];
    if xs == [] then [] else xs[0].response.data
  }

  /** The output as written is the first body only: a prefix of the
      intended output, equal to it exactly when every later body is
      empty. */
  lemma ImageBytesTruncated(xs: seq<Transaction>)
    ensures ImageBytesAsWritten(xs) <= ImageBytes(xs)
    ensures ImageBytesAsWritten(xs) == ImageBytes(xs) <==>
      forall i :: 1 <= i < |xs| ==> xs[i].response.data == []
  {
    if xs != [] {
      ImageBytesFirst(xs);
      LaterBodiesEmpty(xs);
      var a, b := ImageBytesAsWritten(xs), ImageBytes(xs[1..]);
      assert a == a + b <==> b == [] by {
        if a == a + b {
          assert |a + b| == |a| + |b|;
        }
      }
    }
  }

  /** The output of the transactions after the first is empty exactly when
      their bodies are. */
  lemma LaterBodiesEmpty(xs: seq<Transaction>)
    requires xs != []
    ensures ImageBytes(xs[1..]) == [] <==> forall i :: 1 <= i < |xs| ==> xs[i].response.data == []
  {
    var tail := xs[1..];
    ImageBytesEmpty(tail);
    assert forall i :: 1 <= i < |xs| ==> xs[i] == tail[i - 1];
  }

  /** The intended output is the first body, then the output of the
      rest. */
  lemma ImageBytesFirst(xs: seq<Transaction>)
    requires xs != []
    ensures ImageBytes(xs) == ImageBytesAsWritten(xs) + ImageBytes(xs[1..])
  {
    assert xs == xs[..1] + xs[1..];
    ImageBytesConcat(xs[..1], xs[1..]);
  }

  /** The output of transactions is empty exactly when every body is. */
  lemma {:induction false} ImageBytesEmpty(xs: seq<Transaction>)
    ensures ImageBytes(xs) == [] <==> forall i :: 0 <= i < |xs| ==> xs[i].response.data == []
  {
    if xs != [] {
      var front := xs[..|xs| - 1];
      ImageBytesEmpty(front);
      assert forall i :: 0 <= i < |front| ==> front[i] == xs[i];
    }
  }

  /** Two transactions with bodies: the output as written loses the
      second. */
  lemma ImageBytesLosesSecond(x: Transaction, y: Transaction)
    requires y.response.data != []
    ensures ImageBytesAsWritten([x, y]) != ImageBytes([x, y])
  {
    ImageBytesTruncated([x, y]);
  }

  // ---------------------------------------------------------------- the reports

  /** The joined transactions in capture order. */
  function Correlated(requests: map<int, Request>, responses: map<int, Response>, keys: seq<int>): (r: seq<Transaction>)
    ensures SortedByTime(r)
    ensures multiset(r) == multiset(Matched(requests, responses, keys))
  {
    SortByTime(Matched(requests, responses, keys))
  }

  /** The request and response tables of a capture, both filed walking the
      connection table in the given order; `None` when parsing aborts. */
  function Tables(report: Report, fin: Finalisation, cap: seq<byte>, order: seq<ConnTuple>)
    : (r: Option<(map<int, Request>, map<int, Response>)>)
    requires ScanFits(cap, FIRST_RECORD)
    requires Enumerates(order, FlowsOf(Capture(cap)).keys.Keys)
    ensures r.Some? <==>
      RequestTable(report, FlowsOf(Capture(cap)), order).Some? && ResponseTable(report, fin, FlowsOf(Capture(cap)), order).Some?
  {
    var t := FlowsOf(Capture(cap));
    match (RequestTable(report, t, order), ResponseTable(report, fin, t, order))
    case (Some(requests), Some(responses)) => Some((requests, responses))
    case _ => None
  }

  /** The transaction log of a capture: the joined transactions in capture
      order, one line each. `keys` is the order the request table is walked
      in, listing each key once; it only orders transactions captured at
      the same instant. Each request whose key the response table holds
      gives exactly one line. */
  function TransactionLogReport(fin: Finalisation, cap: seq<byte>, order: seq<ConnTuple>, keys: seq<int>): (r: Option<string>)
    requires ScanFits(cap, FIRST_RECORD)
    requires Enumerates(order, FlowsOf(Capture(cap)).keys.Keys)
    requires Tables(TransactionLog, fin, cap, order).Some? ==>
      Enumerates(keys, Tables(TransactionLog, fin, cap, order).value.0.Keys)
    ensures r.Some? <==> Tables(TransactionLog, fin, cap, order).Some?
    ensures r.Some? ==>
      var (requests, responses) := Tables(TransactionLog, fin, cap, order).value;
      exists ks, xs :: && Enumerates(ks, requests.Keys * responses.Keys) && SortedByTime(xs)
                       && multiset(xs) == multiset(Joined(requests, responses, ks)) && r.value == LogText(xs)
  {
    match Tables(TransactionLog, fin, cap, order)
    case None => None
    case Some((requests, responses)) =>
      MatchedKeysEnumerate(requests, responses, keys);
      var ks, xs := MatchedKeys(requests, responses, keys), Correlated(requests, responses, keys);
      assert multiset(xs) == multiset(Joined(requests, responses, ks));
      Some(LogText(xs))
  }

  /** The image report of a capture as evidently intended: the bodies of
      the joined image transactions in capture order, every one of them. */
  function ImageReport(fin: Finalisation, cap: seq<byte>, order: seq<ConnTuple>, keys: seq<int>): (r: Option<seq<byte>>)
    requires ScanFits(cap, FIRST_RECORD)
    requires Enumerates(order, FlowsOf(Capture(cap)).keys.Keys)
    requires Tables(ImageExtract, fin, cap, order).Some? ==>
      Enumerates(keys, Tables(ImageExtract, fin, cap, order).value.0.Keys)
    ensures r.Some? <==> Tables(ImageExtract, fin, cap, order).Some?
    ensures r.Some? ==>
      var (requests, responses) := Tables(ImageExtract, fin, cap, order).value;
      exists ks, xs :: && Enumerates(ks, requests.Keys * responses.Keys) && SortedByTime(xs)
                       && multiset(xs) == multiset(Joined(requests, responses, ks)) && r.value == ImageBytes(xs)
  {
    match Tables(ImageExtract, fin, cap, order)
    case None => None
    case Some((requests, responses)) =>
      MatchedKeysEnumerate(requests, responses, keys);
      var ks, xs := MatchedKeys(requests, responses, keys), Correlated(requests, responses, keys);
      assert multiset(xs) == multiset(Joined(requests, responses, ks));
      Some(ImageBytes(xs))
  }

  /** The image report of a capture as written: only the body of the
      earliest joined image transaction reaches the output, a prefix of the
      intended report. */
  function ImageReportAsWritten(fin: Finalisation, cap: seq<byte>, order: seq<ConnTuple>, keys: seq<int>): (r: Option<seq<byte>>)
    requires ScanFits(cap, FIRST_RECORD)
    requires Enumerates(order, FlowsOf(Capture(cap)).keys.Keys)
    requires Tables(ImageExtract, fin, cap, order).Some? ==>
      Enumerates(keys, Tables(ImageExtract, fin, cap, order).value.0.Keys)
    ensures r.Some? <==> Tables(ImageExtract, fin, cap, order).Some?
    ensures r.Some? ==>
      var (requests, responses) := Tables(ImageExtract, fin, cap, order).value;
      exists ks, xs :: && Enumerates(ks, requests.Keys * responses.Keys) && SortedByTime(xs)
                       && multiset(xs) == multiset(Joined(requests, responses, ks)) && r.value == ImageBytesAsWritten(xs)
    ensures r.Some? ==> ImageReport(fin, cap, order, keys).Some? && r.value <= ImageReport(fin, cap, order, keys).value
  {
    match Tables(ImageExtract, fin, cap, order)
    case None => None
    case Some((requests, responses)) =>
      MatchedKeysEnumerate(requests, responses, keys);
      var ks, xs := MatchedKeys(requests, responses, keys), Correlated(requests, responses, keys);
      assert multiset(xs) == multiset(Joined(requests, responses, ks));
      ImageBytesTruncated(xs);
      Some(ImageBytesAsWritten(xs))
  }
}

=== FILE: counters.dfy ===
/** The counters report: how many records, IPv4 packets, TCP segments and
    UDP datagrams a capture holds, and how many distinct TCP connections
    (a connection and its reverse direction counted once). */
module Counters {
  import opened Base
  import opened Text
  import opened Decoder
  import opened Connections

  datatype Counts = Counts(total: nat, ipv4: nat, tcp: nat, udp: nat, connections: nat)

  /** The counters together with the connection table: the tuples that
      opened a new connection, in the orientation first seen. */
  datatype Tally = Tally(counts: Counts, seen: set<ConnTuple>)

  /** Whether a tuple or its reverse is already in the table. */
  predicate Known(seen: set<ConnTuple>, t: ConnTuple)
  {
    t in seen || Swap(t) in seen
  }

  /** Counts one record's frame. */
  function CountFrame(y: Tally, f: Frame): (r: Tally)
    ensures r.counts.total == y.counts.total + 1
    ensures r.counts.ipv4 == y.counts.ipv4 + (if f.NotIpv4? then 0 else 1)
    ensures r.counts.tcp == y.counts.tcp + (if f.Tcp? then 1 else 0)
    ensures r.counts.udp == y.counts.udp + (if f.OtherIpv4? && f.protocol == PROTOCOL_UDP then 1 else 0)
    ensures r.counts.connections == y.counts.connections + (if f.Tcp? && !Known(y.seen, f.header.tuple) then 1 else 0)
    ensures f.Tcp? ==> Known(r.seen, f.header.tuple) && y.seen <= r.seen <= y.seen + {f.header.tuple}
    ensures !f.Tcp? ==> r.seen == y.seen
  {
    var c := y.counts;
    match f
    case NotIpv4 => Tally(c.(total := c.total + 1), y.seen)
    case OtherIpv4(protocol) =>
      Tally(c.(total := c.total + 1, ipv4 := c.ipv4 + 1,
               udp := c.udp + (if protocol == PROTOCOL_UDP then 1 else 0)), y.seen)
    case Tcp(h, _) =>
      var c' := c.(total := c.total + 1, ipv4 := c.ipv4 + 1, tcp := c.tcp + 1);
      if Known(y.seen, h.tuple) then Tally(c', y.seen)
      else Tally(c'.(connections := c.connections + 1), y.seen + {h.tuple})
  }

  /** Counts the records in order. */
  function CountAll(rs: seq<Record>): Tally
  {
    if rs == [] then Tally(Counts(0, 0, 0, 0, 0), {})
    else CountFrame(CountAll(rs[..|rs| - 1]), rs[|rs| - 1].frame)
  }

  /** The TCP tuples of the records. */
  function TcpTuples(rs: seq<Record>): set<ConnTuple>
  {
    set k | 0 <= k < |rs| && rs[k].frame.Tcp? :: rs[k].frame.header.tuple
  }

  /** The counters nest: every TCP or UDP packet is an IPv4 packet, every
      IPv4 packet a record, one record per scan step, and one connection per
      table entry. */
  lemma {:induction false} CountBounds(rs: seq<Record>)
    ensures var c := CountAll(rs).counts;
      c.tcp + c.udp <= c.ipv4 <= c.total == |rs| && c.connections == |CountAll(rs).seen|
  {
    if rs != [] {
      CountBounds(rs[..|rs| - 1]);
    }
  }

  lemma TcpTuplesSnoc(rs: seq<Record>)
    requires rs != []
    ensures var f := rs[|rs| - 1].frame;
      TcpTuples(rs) == TcpTuples(rs[..|rs| - 1]) + (if f.Tcp? then {f.header.tuple} else {})
  {
    var front := rs[..|rs| - 1];
    forall t | t in TcpTuples(rs)
      ensures t in TcpTuples(front) + (if rs[|rs| - 1].frame.Tcp? then {rs[|rs| - 1].frame.header.tuple} else {})
    {
      var k :| 0 <= k < |rs| && rs[k].frame.Tcp? && rs[k].frame.header.tuple == t;
      if k < |rs| - 1 {
        assert front[k] == rs[k];
      }
    }
    forall t | t in TcpTuples(front)
      ensures t in TcpTuples(rs)
    {
      var k :| 0 <= k < |front| && front[k].frame.Tcp? && front[k].frame.header.tuple == t;
      assert rs[k] == front[k];
    }
  }

  /** The table holds one tuple per distinct connection of the capture:
      every entry is a TCP tuple of some record, no two entries name the same
      connection, and every TCP tuple of the capture is known to the table. */
  lemma {:induction false} SeenIsConnections(rs: seq<Record>)
    ensures CountAll(rs).seen <= TcpTuples(rs)
    ensures forall a, b :: a in CountAll(rs).seen && b in CountAll(rs).seen && a != b ==> !SameConnection(a, b)
    ensures forall t :: t in TcpTuples(rs) ==> Known(CountAll(rs).seen, t)
  {
    if rs != [] {
      var front := rs[..|rs| - 1];
      SeenIsConnections(front);
      TcpTuplesSnoc(rs);
      var y := CountAll(front);
      var f := rs[|rs| - 1].frame;
      var seen := CountAll(rs).seen;
      if f.Tcp? && !Known(y.seen, f.header.tuple) {
        forall a, b | a in seen && b in seen && a != b
          ensures !SameConnection(a, b)
        {
          SameConnectionIff(a, b);
        }
      }
      forall t | t in TcpTuples(rs)
        ensures Known(seen, t)
      {
        assert t in TcpTuples(front) || (f.Tcp? && t == f.header.tuple);
      }
    }
  }

  /** A later packet of an already known connection, in either direction,
      leaves the connection counter unchanged. */
  lemma ReverseNeverCounts(rs: seq<Record>, j: nat)
    requires j < |rs| - 1 && rs[j].frame.Tcp? && rs[|rs| - 1].frame.Tcp?
    requires SameConnection(rs[|rs| - 1].frame.header.tuple, rs[j].frame.header.tuple)
    ensures CountAll(rs).counts.connections == CountAll(rs[..|rs| - 1]).counts.connections
  {
    var front := rs[..|rs| - 1];
    var t, u := rs[|rs| - 1].frame.header.tuple, rs[j].frame.header.tuple;
    assert front[j] == rs[j];
    assert u in TcpTuples(front);
    SeenIsConnections(front);
    SameConnectionIff(t, u);
    SwapSwap(u);
    SwapSwap(t);
  }

  /** The counters of a capture, as the report prints them. */
  function CountersReport(cap: seq<byte>): (r: Counts)
    requires ScanFits(cap, FIRST_RECORD)
    ensures r.total == |Records(cap, FIRST_RECORD)|
    ensures r.tcp + r.udp <= r.ipv4 <= r.total
  {
    CountBounds(Capture(cap));
    CountAll(Capture(cap)).counts
  }

  /** The report's single line: the five counters separated by spaces. */
  function CountersLine(c: Counts): (r: seq<byte>)
    ensures |r| > 0 && r[|r| - 1] == LF
  {
    DecimalText(c.total) + [SP] + DecimalText(c.ipv4) + [SP] + DecimalText(c.tcp) + [SP]
      + DecimalText(c.udp) + [SP] + DecimalText(c.connections) + [LF]
  }
}

=== FILE: decoder.dfy ===
/** The record scan over a capture and the decoding of one Ethernet II /
    IPv4 / TCP frame into typed fields and a payload.

    A capture is a 24-byte global header followed by records; a record is a
    16-byte header (seconds, microseconds, captured length, original length,
    each four bytes least significant first) and then the frame. The scan
    keeps an offset `i` pointing at a frame, so the original length sits at
    `i-4..i-1`, the seconds at `i-16..i-13` and the microseconds at
    `i-12..i-9`. Header fields follow section 3.1 of RFC 791 (IPv4) and
    section 3.1 of RFC 793 (TCP). */
module Decoder {
  import opened Base

  const PCAP_HEADER_LENGTH: nat := 24
  const PACKET_HEADER_LENGTH: nat := 16
  const ETHERNET_HEADER_LENGTH: nat := 14
  const FIRST_RECORD: nat := PCAP_HEADER_LENGTH + PACKET_HEADER_LENGTH
  const ETHERTYPE_IPV4: nat := 2048
  const PROTOCOL_TCP: byte := 6
  const PROTOCOL_UDP: byte := 17

  datatype IpAddress = IpAddress(first: byte, second: byte, third: byte, fourth: byte)

  /** The four header fields that name one direction of a TCP connection. */
  datatype ConnTuple = ConnTuple(sourceIp: IpAddress, sourcePort: nat, destinationIp: IpAddress, destinationPort: nat)

  datatype TcpHeader = TcpHeader(
    tuple: ConnTuple,
    sequenceNumber: nat,
    acknowledgementNumber: nat,
    ipHeaderLength: nat,
    ipTotalLength: nat,
    tcpHeaderLength: nat,
    payloadLength: int)

  /** A decoded frame. The payload holds the bytes the source copies: none
      when the computed payload length is not positive. */
  datatype Frame =
    | NotIpv4
    | OtherIpv4(protocol: byte)
    | Tcp(header: TcpHeader, payload: seq<byte>)

  /** One record of the scan: its capture time and the decoded frame. */
  datatype Record = Record(captureTime: nat, microOffset: nat, frame: Frame)

  // ---------------------------------------------------------------- scan

  /** The source's `totalPacketLength`: four bytes assembled into a Java
      `int`, so a top byte of 0x80 or more gives a negative length. */
  function RecordLength(cap: seq<byte>, i: nat): int
    requires i >= 4
  {
    Int32(LE32(At(cap, i - 4), At(cap, i - 3), At(cap, i - 2), At(cap, i - 1)))
  }

  function NextRecord(cap: seq<byte>, i: nat): int
    requires i >= 4
  {
    i + RecordLength(cap, i) + PACKET_HEADER_LENGTH
  }

  /** Every record the scan from offset `i` visits has a non-negative
      length (top byte below 0x80) and the next offset stays below 2^31, so
      the source's `int` arithmetic neither goes negative nor overflows and
      its loop moves forward at every record. */
  predicate ScanFits(cap: seq<byte>, i: nat)
    requires i >= PACKET_HEADER_LENGTH
    decreases |cap| - i
  {
    i >= |cap| ||
    (0 <= RecordLength(cap, i) && NextRecord(cap, i) < TWO_TO_31 && ScanFits(cap, NextRecord(cap, i)))
  }

  /** An offset the scan can stand at: a whole record header lies before it. */
  type FrameOffset = i: nat | i >= PACKET_HEADER_LENGTH witness PACKET_HEADER_LENGTH

  /** The frame offsets the scan visits from `i`, one per loop iteration. */
  function Records(cap: seq<byte>, i: FrameOffset): (r: seq<FrameOffset>)
    requires ScanFits(cap, i)
    decreases |cap| - i
    ensures |r| == 0 <==> i >= |cap|
    ensures |r| > 0 ==> r[0] == i
  {
    if i >= |cap| then []
    else [i] + Records(cap, NextRecord(cap, i))
  }

  /** Every visited offset lies inside the capture, each is the previous one
      plus its record length plus 16, and the step after the last one
      leaves the capture. */
  lemma {:induction false} RecordsSteps(cap: seq<byte>, i: FrameOffset)
    requires ScanFits(cap, i)
    decreases |cap| - i
    ensures var r := Records(cap, i);
      && (forall k :: 0 <= k < |r| ==> i <= r[k] < |cap|)
      && (forall k :: 0 <= k < |r| - 1 ==> r[k + 1] == NextRecord(cap, r[k]))
      && (|r| > 0 ==> NextRecord(cap, r[|r| - 1]) >= |cap|)
  {
    if i < |cap| {
      var next := NextRecord(cap, i);
      RecordsSteps(cap, next);
      var r, tail := Records(cap, i), Records(cap, next);
      assert r == [i] + tail;
      forall k | 0 <= k < |r| - 1
        ensures r[k + 1] == NextRecord(cap, r[k])
      {
        if k > 0 {
          assert r[k] == tail[k - 1];
        }
      }
    }
  }

  /** Inside a scan that fits, record lengths are the unsigned little-endian
      value of their four bytes (the narrowing to `int` changes nothing). */
  lemma RecordLengthUnsigned(cap: seq<byte>, i: nat)
    requires i >= PACKET_HEADER_LENGTH && ScanFits(cap, i) && i < |cap|
    ensures RecordLength(cap, i) >= 0
    ensures RecordLength(cap, i) == At(cap, i - 4) as int + 0x100 * At(cap, i - 3) as int
                                  + 0x1_0000 * At(cap, i - 2) as int + 0x100_0000 * At(cap, i - 1) as int
  {
    BE32Bound(At(cap, i - 1), At(cap, i - 2), At(cap, i - 3), At(cap, i - 4));
  }

  // ---------------------------------------------------------------- frames

  function EtherType(cap: seq<byte>, i: nat): nat
  {
    BE16(At(cap, i + 12), At(cap, i + 13))
  }

  /** IHL: the low nibble of the first IPv4 byte, in 32-bit words. */
  function IpHeaderLength(b: byte): (r: nat)
    ensures r % 4 == 0 && r <= 60
  {
    (b as nat % 16) * 4
  }

  /** Data Offset: the high nibble of TCP byte 12, in 32-bit words. */
  function TcpHeaderLength(b: byte): (r: nat)
    ensures r % 4 == 0 && r <= 60
  {
    (b as nat / 16) * 4
  }

  function IpAt(cap: seq<byte>, k: nat): IpAddress
  {
    IpAddress(At(cap, k), At(cap, k + 1), At(cap, k + 2), At(cap, k + 3))
  }

  /** Decodes the frame starting at offset `i`. */
  function Decode(cap: seq<byte>, i: nat): (r: Frame)
    ensures r.NotIpv4? <==> EtherType(cap, i) != ETHERTYPE_IPV4
    ensures r.Tcp? <==> EtherType(cap, i) == ETHERTYPE_IPV4 && At(cap, i + ETHERNET_HEADER_LENGTH + 9) == PROTOCOL_TCP
    ensures r.Tcp? ==>
      r.header.payloadLength == r.header.ipTotalLength - r.header.ipHeaderLength - r.header.tcpHeaderLength
    ensures r.Tcp? ==> |r.payload| == if r.header.payloadLength > 0 then r.header.payloadLength else 0
  {
    if EtherType(cap, i) != ETHERTYPE_IPV4 then NotIpv4
    else DecodeIpv4(cap, i + ETHERNET_HEADER_LENGTH)
  }

  /** Decodes the IPv4 packet starting at offset `ip`. */
  function DecodeIpv4(cap: seq<byte>, ip: nat): (r: Frame)
    ensures !r.NotIpv4?
    ensures r.Tcp? <==> At(cap, ip + 9) == PROTOCOL_TCP
  {
    var protocol := At(cap, ip + 9);
    if protocol != PROTOCOL_TCP then OtherIpv4(protocol)
    else DecodeTcp(cap, ip, IpHeaderLength(At(cap, ip)), BE16(At(cap, ip + 2), At(cap, ip + 3)))
  }

  /** Decodes the TCP segment after an IPv4 header of the given lengths. */
  function DecodeTcp(cap: seq<byte>, ip: nat, ipHeaderLength: nat, ipTotalLength: nat): (r: Frame)
    ensures r.Tcp? && r.header.ipHeaderLength == ipHeaderLength && r.header.ipTotalLength == ipTotalLength
    ensures r.header.payloadLength == ipTotalLength - ipHeaderLength - r.header.tcpHeaderLength
    ensures |r.payload| == if r.header.payloadLength > 0 then r.header.payloadLength else 0
  {
    var tcp := ip + ipHeaderLength;
    var tcpHeaderLength := TcpHeaderLength(At(cap, tcp + 12));
    var tuple := ConnTuple(IpAt(cap, ip + 12), BE16(At(cap, tcp), At(cap, tcp + 1)),
                           IpAt(cap, ip + 16), BE16(At(cap, tcp + 2), At(cap, tcp + 3)));
    var sequenceNumber := BE32(At(cap, tcp + 4), At(cap, tcp + 5), At(cap, tcp + 6), At(cap, tcp + 7));
    var acknowledgementNumber := BE32(At(cap, tcp + 8), At(cap, tcp + 9), At(cap, tcp + 10), At(cap, tcp + 11));
    var payloadLength := ipTotalLength - ipHeaderLength - tcpHeaderLength;
    var copied := if payloadLength > 0 then payloadLength else 0;
    Tcp(TcpHeader(tuple, sequenceNumber, acknowledgementNumber, ipHeaderLength, ipTotalLength,
                  tcpHeaderLength, payloadLength),
        Window(cap, tcp + tcpHeaderLength, copied))
  }

  /** The seconds field of the record header before offset `i`. */
  function CaptureTime(cap: seq<byte>, i: FrameOffset): nat
  {
    LE32(At(cap, i - 16), At(cap, i - 15), At(cap, i - 14), At(cap, i - 13))
  }

  /** The microseconds field of the record header before offset `i`. */
  function MicroOffset(cap: seq<byte>, i: FrameOffset): nat
  {
    LE32(At(cap, i - 12), At(cap, i - 11), At(cap, i - 10), At(cap, i - 9))
  }

  function DecodeRecord(cap: seq<byte>, i: FrameOffset): Record
  {
    Record(CaptureTime(cap, i), MicroOffset(cap, i), Decode(cap, i))
  }

  /** A TCP frame carries as many payload bytes as its positive payload
      length, and none otherwise. */
  predicate PayloadSized(f: Frame)
  {
    f.Tcp? ==> |f.payload| == if f.header.payloadLength > 0 then f.header.payloadLength else 0
  }

  /** Every record of a capture, in file order. */
  function Capture(cap: seq<byte>): (r: seq<Record>)
    requires ScanFits(cap, FIRST_RECORD)
    ensures |r| == |Records(cap, FIRST_RECORD)|
    ensures forall k :: 0 <= k < |r| ==> PayloadSized(r[k].frame)
  {
    var offsets := Records(cap, FIRST_RECORD);
    seq(|offsets|, k requires 0 <= k < |offsets| => DecodeRecord(cap, offsets[k]))
  }

  // ---------------------------------------------------------------- encoders

  function IpBytes(a: IpAddress): seq<byte>
  {
    [a.first, a.second, a.third, a.fourth]
  }

  /** The header fields a TCP/IPv4 frame is built from. */
  datatype TcpFields = TcpFields(tuple: ConnTuple, sequenceNumber: nat, acknowledgementNumber: nat,
                                 ipWords: nat, tcpWords: nat)

  predicate ValidFields(f: TcpFields, payloadSize: nat)
  {
    && f.tuple.sourcePort < 0x1_0000 && f.tuple.destinationPort < 0x1_0000
    && f.sequenceNumber < TWO_TO_32 && f.acknowledgementNumber < TWO_TO_32
    && 5 <= f.ipWords <= 15 && 5 <= f.tcpWords <= 15
    && 4 * f.ipWords + 4 * f.tcpWords + payloadSize < 0x1_0000
  }

  /** An IPv4 header (version 4, the given IHL, no options set) in the
      layout of section 3.1 of RFC 791. */
  function EncodeIpv4Header(f: TcpFields, totalLength: nat): (r: seq<byte>)
    requires 5 <= f.ipWords <= 15 && totalLength < 0x1_0000
    ensures |r| == 4 * f.ipWords
    ensures IpHeaderLength(r[0]) == 4 * f.ipWords
    ensures BE16(r[2], r[3]) == totalLength && r[9] == PROTOCOL_TCP
    ensures IpAddress(r[12], r[13], r[14], r[15]) == f.tuple.sourceIp
    ensures IpAddress(r[16], r[17], r[18], r[19]) == f.tuple.destinationIp
  {
    var tl, src, dst := EncodeBE16(totalLength), f.tuple.sourceIp, f.tuple.destinationIp;
    [(0x40 + f.ipWords) as byte, 0, tl[0], tl[1], 0, 0, 0, 0, 0, PROTOCOL_TCP, 0, 0,
     src.first, src.second, src.third, src.fourth, dst.first, dst.second, dst.third, dst.fourth]
      + Zeros(4 * f.ipWords - 20)
  }

  /** A TCP header (the given Data Offset, PSH and ACK set) in the layout of
      section 3.1 of RFC 793. */
  function EncodeTcpHeader(f: TcpFields): (r: seq<byte>)
    requires ValidFields(f, 0)
    ensures |r| == 4 * f.tcpWords
    ensures BE16(r[0], r[1]) == f.tuple.sourcePort && BE16(r[2], r[3]) == f.tuple.destinationPort
    ensures BE32(r[4], r[5], r[6], r[7]) == f.sequenceNumber
    ensures BE32(r[8], r[9], r[10], r[11]) == f.acknowledgementNumber
    ensures TcpHeaderLength(r[12]) == 4 * f.tcpWords
  {
    var fixed := TcpFixedPart(f);
    var r := fixed + Zeros(4 * f.tcpWords - 14);
    assert forall k :: 0 <= k < 14 ==> r[k] == fixed[k];
    r
  }

  /** The first fourteen bytes of the TCP header: ports, sequence and
      acknowledgement numbers, Data Offset, flags. */
  function TcpFixedPart(f: TcpFields): (r: seq<byte>)
    requires ValidFields(f, 0)
    ensures |r| == 14
    ensures BE16(r[0], r[1]) == f.tuple.sourcePort && BE16(r[2], r[3]) == f.tuple.destinationPort
    ensures BE32(r[4], r[5], r[6], r[7]) == f.sequenceNumber
    ensures BE32(r[8], r[9], r[10], r[11]) == f.acknowledgementNumber
    ensures TcpHeaderLength(r[12]) == 4 * f.tcpWords
  {
    var sp, dp := EncodeBE16(f.tuple.sourcePort), EncodeBE16(f.tuple.destinationPort);
    var sq, ak := EncodeBE32(f.sequenceNumber), EncodeBE32(f.acknowledgementNumber);
    [sp[0], sp[1], dp[0], dp[1], sq[0], sq[1], sq[2], sq[3], ak[0], ak[1], ak[2], ak[3],
     DataOffsetByte(f.tcpWords), 0x18]
  }

  /** The byte holding the Data Offset, in 32-bit words, in its high nibble. */
  function DataOffsetByte(words: nat): (b: byte)
    requires words < 16
    ensures TcpHeaderLength(b) == 4 * words
  {
    (words * 16) as byte
  }

  /** An Ethernet II header with zero MAC addresses and EtherType IPv4. */
  function EthernetHeader(): (r: seq<byte>)
    ensures |r| == ETHERNET_HEADER_LENGTH && BE16(r[12], r[13]) == ETHERTYPE_IPV4
  {
    Zeros(12) + [8, 0]
  }

  /** A whole Ethernet / IPv4 / TCP frame carrying `payload`. */
  function EncodeTcpFrame(f: TcpFields, payload: seq<byte>): (r: seq<byte>)
    requires ValidFields(f, |payload|)
    ensures |r| == ETHERNET_HEADER_LENGTH + 4 * f.ipWords + 4 * f.tcpWords + |payload|
  {
    var total := 4 * f.ipWords + 4 * f.tcpWords + |payload|;
    EthernetHeader() + EncodeIpv4Header(f, total) + EncodeTcpHeader(f) + payload
  }

  /** A part placed at offset `off` of a frame that sits at `i` in the
      capture is read back byte by byte. */
  lemma PartAt(cap: seq<byte>, i: nat, frame: seq<byte>, off: nat, part: seq<byte>)
    requires i + |frame| <= |cap| && cap[i..i + |frame|] == frame
    requires off + |part| <= |frame| && frame[off..off + |part|] == part
    ensures forall k :: 0 <= k < |part| ==> At(cap, i + off + k) == part[k]
  {
    forall k | 0 <= k < |part|
      ensures At(cap, i + off + k) == part[k]
    {
      assert frame[off..off + |part|][k] == frame[off + k];
      AtInside(cap, i, frame, off + k);
    }
  }

  /** The IPv4 header fields the decoder reads from a header `ip` placed at
      offset `at`. */
  lemma IpFieldsAt(cap: seq<byte>, at: nat, ip: seq<byte>)
    requires |ip| >= 20 && forall k :: 0 <= k < |ip| ==> At(cap, at + k) == ip[k]
    ensures IpHeaderLength(At(cap, at)) == IpHeaderLength(ip[0])
    ensures BE16(At(cap, at + 2), At(cap, at + 3)) == BE16(ip[2], ip[3])
    ensures At(cap, at + 9) == ip[9]
    ensures IpAt(cap, at + 12) == IpAddress(ip[12], ip[13], ip[14], ip[15])
    ensures IpAt(cap, at + 16) == IpAddress(ip[16], ip[17], ip[18], ip[19])
  {
    assert At(cap, at + 0) == ip[0];
  }

  /** The TCP header fields the decoder reads from a header `tcp` placed at
      offset `at`. */
  lemma TcpFieldsAt(cap: seq<byte>, at: nat, tcp: seq<byte>)
    requires |tcp| >= 13 && forall k :: 0 <= k < |tcp| ==> At(cap, at + k) == tcp[k]
    ensures TcpHeaderLength(At(cap, at + 12)) == TcpHeaderLength(tcp[12])
    ensures BE16(At(cap, at), At(cap, at + 1)) == BE16(tcp[0], tcp[1])
    ensures BE16(At(cap, at + 2), At(cap, at + 3)) == BE16(tcp[2], tcp[3])
    ensures BE32(At(cap, at + 4), At(cap, at + 5), At(cap, at + 6), At(cap, at + 7))
         == BE32(tcp[4], tcp[5], tcp[6], tcp[7])
    ensures BE32(At(cap, at + 8), At(cap, at + 9), At(cap, at + 10), At(cap, at + 11))
         == BE32(tcp[8], tcp[9], tcp[10], tcp[11])
  {
    assert At(cap, at + 0) == tcp[0];
  }

  /** A frame made of an Ethernet header with EtherType IPv4, an IPv4 header
      announcing TCP, a TCP header and a payload, with consistent lengths. */
  predicate WellFormedTcpFrame(ip: seq<byte>, tcp: seq<byte>, payload: seq<byte>)
  {
    && |ip| >= 20 && |tcp| >= 13
    && IpHeaderLength(ip[0]) == |ip| && TcpHeaderLength(tcp[12]) == |tcp|
    && ip[9] == PROTOCOL_TCP && BE16(ip[2], ip[3]) == |ip| + |tcp| + |payload|
  }

  /** Where the headers and the payload of a frame land in the capture. */
  lemma FrameLayout(cap: seq<byte>, i: nat, ip: seq<byte>, tcp: seq<byte>, payload: seq<byte>)
    requires var frame := EthernetHeader() + ip + tcp + payload;
      i + |frame| <= |cap| && cap[i..i + |frame|] == frame
    ensures EtherType(cap, i) == ETHERTYPE_IPV4
    ensures forall k :: 0 <= k < |ip| ==> At(cap, i + ETHERNET_HEADER_LENGTH + k) == ip[k]
    ensures forall k :: 0 <= k < |tcp| ==> At(cap, i + ETHERNET_HEADER_LENGTH + |ip| + k) == tcp[k]
    ensures forall k :: 0 <= k < |payload| ==>
      At(cap, i + ETHERNET_HEADER_LENGTH + |ip| + |tcp| + k) == payload[k]
  {
    var eth := EthernetHeader();
    var frame := eth + ip + tcp + payload;
    assert frame[0..|eth|] == eth;
    assert frame[|eth|..|eth| + |ip|] == ip;
    assert frame[|eth| + |ip|..|eth| + |ip| + |tcp|] == tcp;
    assert frame[|eth| + |ip| + |tcp|..|eth| + |ip| + |tcp| + |payload|] == payload;
    PartAt(cap, i, frame, 0, eth);
    PartAt(cap, i, frame, |eth|, ip);
    PartAt(cap, i, frame, |eth| + |ip|, tcp);
    PartAt(cap, i, frame, |eth| + |ip| + |tcp|, payload);
    assert At(cap, i + 0 + 12) == eth[12] && At(cap, i + 0 + 13) == eth[13];
  }

  /** A window over bytes that all match `part` is `part`. */
  lemma WindowOfPart(cap: seq<byte>, start: nat, part: seq<byte>)
    requires forall k :: 0 <= k < |part| ==> At(cap, start + k) == part[k]
    ensures Window(cap, start, |part|) == part
  {
    var w := Window(cap, start, |part|);
    forall k | 0 <= k < |part|
      ensures w[k] == part[k]
    {
    }
  }

  /** The segment a TCP header and payload placed after an IPv4 header
      decode to. */
  lemma DecodeTcpPlaced(cap: seq<byte>, ipAt: nat, ip: seq<byte>, tcp: seq<byte>, payload: seq<byte>)
    requires |ip| >= 20 && |tcp| >= 13 && TcpHeaderLength(tcp[12]) == |tcp|
    requires forall k :: 0 <= k < |ip| ==> At(cap, ipAt + k) == ip[k]
    requires forall k :: 0 <= k < |tcp| ==> At(cap, ipAt + |ip| + k) == tcp[k]
    requires forall k :: 0 <= k < |payload| ==> At(cap, ipAt + |ip| + |tcp| + k) == payload[k]
    ensures DecodeTcp(cap, ipAt, |ip|, |ip| + |tcp| + |payload|) ==
      Tcp(TcpHeader(ConnTuple(IpAddress(ip[12], ip[13], ip[14], ip[15]), BE16(tcp[0], tcp[1]),
                              IpAddress(ip[16], ip[17], ip[18], ip[19]), BE16(tcp[2], tcp[3])),
                    BE32(tcp[4], tcp[5], tcp[6], tcp[7]), BE32(tcp[8], tcp[9], tcp[10], tcp[11]),
                    |ip|, |ip| + |tcp| + |payload|, |tcp|, |payload|),
          payload)
  {
    IpFieldsAt(cap, ipAt, ip);
    TcpFieldsAt(cap, ipAt + |ip|, tcp);
    WindowOfPart(cap, ipAt + |ip| + |tcp|, payload);
  }

  /** Decoding a well-formed frame gives the fields its headers carry and
      exactly its payload. */
  lemma DecodeWellFormed(cap: seq<byte>, i: nat, ip: seq<byte>, tcp: seq<byte>, payload: seq<byte>)
    requires WellFormedTcpFrame(ip, tcp, payload)
    requires var frame := EthernetHeader() + ip + tcp + payload;
      i + |frame| <= |cap| && cap[i..i + |frame|] == frame
    ensures Decode(cap, i) ==
      Tcp(TcpHeader(ConnTuple(IpAddress(ip[12], ip[13], ip[14], ip[15]), BE16(tcp[0], tcp[1]),
                              IpAddress(ip[16], ip[17], ip[18], ip[19]), BE16(tcp[2], tcp[3])),
                    BE32(tcp[4], tcp[5], tcp[6], tcp[7]), BE32(tcp[8], tcp[9], tcp[10], tcp[11]),
                    |ip|, |ip| + |tcp| + |payload|, |tcp|, |payload|),
          payload)
  {
    var ipAt := i + ETHERNET_HEADER_LENGTH;
    FrameLayout(cap, i, ip, tcp, payload);
    IpFieldsAt(cap, ipAt, ip);
    assert Decode(cap, i) == DecodeTcp(cap, ipAt, |ip|, |ip| + |tcp| + |payload|);
    DecodeTcpPlaced(cap, ipAt, ip, tcp, payload);
  }

  /** Decoding a frame built from header fields and a payload gives back
      exactly those fields, header lengths and payload. */
  lemma DecodeEncodedFrame(cap: seq<byte>, i: nat, f: TcpFields, payload: seq<byte>)
    requires ValidFields(f, |payload|)
    requires i + |EncodeTcpFrame(f, payload)| <= |cap|
    requires cap[i..i + |EncodeTcpFrame(f, payload)|] == EncodeTcpFrame(f, payload)
    ensures Decode(cap, i) ==
      Tcp(TcpHeader(f.tuple, f.sequenceNumber, f.acknowledgementNumber, 4 * f.ipWords,
                    4 * f.ipWords + 4 * f.tcpWords + |payload|, 4 * f.tcpWords, |payload|),
          payload)
  {
    var ip := EncodeIpv4Header(f, 4 * f.ipWords + 4 * f.tcpWords + |payload|);
    var tcp := EncodeTcpHeader(f);
    DecodeWellFormed(cap, i, ip, tcp, payload);
  }

  /** One record as the capture file stores it. */
  datatype RawRecord = RawRecord(seconds: nat, micros: nat, frame: seq<byte>)

  predicate ValidRawRecord(r: RawRecord)
  {
    r.seconds < TWO_TO_32 && r.micros < TWO_TO_32 && 0 < |r.frame| < TWO_TO_31
  }

  function EncodeRecord(r: RawRecord): (e: seq<byte>)
    requires ValidRawRecord(r)
    ensures |e| == PACKET_HEADER_LENGTH + |r.frame|
  {
    EncodeLE32(r.seconds) + EncodeLE32(r.micros) + EncodeLE32(|r.frame|) + EncodeLE32(|r.frame|) + r.frame
  }

  function EncodeRecords(rs: seq<RawRecord>): seq<byte>
    requires forall k :: 0 <= k < |rs| ==> ValidRawRecord(rs[k])
  {
    if rs == [] then [] else EncodeRecord(rs[0]) + EncodeRecords(rs[1..])
  }

  /** The frame offsets a scan should find in `EncodeRecords(rs)` placed
      after `base` bytes. */
  function Offsets(base: nat, rs: seq<RawRecord>): (r: seq<FrameOffset>)
    decreases |rs|
    ensures |r| == |rs|
  {
    if rs == [] then [] else [base + PACKET_HEADER_LENGTH] + Offsets(base + PACKET_HEADER_LENGTH + |rs[0].frame|, rs[1..])
  }

  /** The record before offset `i` has the length, capture time and frame
      of `r`. */
  predicate HeaderAt(cap: seq<byte>, i: FrameOffset, r: RawRecord)
  {
    && 0 < |r.frame| && RecordLength(cap, i) == |r.frame|
    && CaptureTime(cap, i) == r.seconds && MicroOffset(cap, i) == r.micros
    && i + |r.frame| <= |cap| && cap[i..i + |r.frame|] == r.frame
  }

  /** `cap` holds, from offset `base` to its end, records with the frames
      and capture times of `rs`, one after the other, as the scan reads
      them. */
  predicate LaidOut(cap: seq<byte>, base: nat, rs: seq<RawRecord>)
    decreases |rs|
  {
    if rs == [] then base == |cap|
    else
      HeaderAt(cap, base + PACKET_HEADER_LENGTH, rs[0])
      && LaidOut(cap, base + PACKET_HEADER_LENGTH + |rs[0].frame|, rs[1..])
  }

  /** A slice of a part that sits in the capture sits there too. */
  lemma SubSlice(cap: seq<byte>, start: nat, end: nat, part: seq<byte>, x: nat, y: nat)
    requires end == start + |part| && end <= |cap| && cap[start..end] == part
    requires x <= y <= |part|
    ensures cap[start + x..start + y] == part[x..y]
  {
    forall k | 0 <= k < y - x
      ensures cap[start + x..start + y][k] == part[x..y][k]
    {
      assert cap[start..end][x + k] == cap[start + x + k];
    }
  }

  /** A four-byte field written in capture-file order reads back as its value. */
  lemma LE32At(cap: seq<byte>, pos: nat, v: nat)
    requires v < TWO_TO_32
    requires pos + 4 <= |cap| && cap[pos..pos + 4] == EncodeLE32(v)
    ensures LE32(At(cap, pos), At(cap, pos + 1), At(cap, pos + 2), At(cap, pos + 3)) == v
  {
    var b := EncodeLE32(v);
    AtInside(cap, pos, b, 0);
    AtInside(cap, pos, b, 1);
    AtInside(cap, pos, b, 2);
    AtInside(cap, pos, b, 3);
  }

  /** The parts of an encoded record, by offset within the record. */
  lemma EncodeRecordParts(r: RawRecord)
    requires ValidRawRecord(r)
    ensures var e := EncodeRecord(r);
      && e[0..4] == EncodeLE32(r.seconds) && e[4..8] == EncodeLE32(r.micros)
      && e[12..16] == EncodeLE32(|r.frame|) && e[PACKET_HEADER_LENGTH..] == r.frame
  {
    var sec, mic, len := EncodeLE32(r.seconds), EncodeLE32(r.micros), EncodeLE32(|r.frame|);
    var e := EncodeRecord(r);
    assert e == sec + mic + len + len + r.frame;
  }

  /** Reading back one record header written at offset `base`. */
  lemma EncodedRecordHeader(cap: seq<byte>, base: nat, r: RawRecord)
    requires ValidRawRecord(r)
    requires var next := base + PACKET_HEADER_LENGTH + |r.frame|;
      next <= |cap| && cap[base..next] == EncodeRecord(r)
    ensures HeaderAt(cap, base + PACKET_HEADER_LENGTH, r)
  {
    var next := base + PACKET_HEADER_LENGTH + |r.frame|;
    var e := EncodeRecord(r);
    EncodeRecordParts(r);
    SubSlice(cap, base, next, e, 0, 4);
    SubSlice(cap, base, next, e, 4, 8);
    SubSlice(cap, base, next, e, 12, 16);
    SubSlice(cap, base, next, e, PACKET_HEADER_LENGTH, |e|);
    LE32At(cap, base, r.seconds);
    LE32At(cap, base + 4, r.micros);
    LE32At(cap, base + 12, |r.frame|);
  }

  lemma SuffixOfConcat(a: seq<byte>, b: seq<byte>)
    ensures (a + b)[|a|..] == b
  {
  }

  /** The two parts of a suffix of `cap`, located in `cap`. */
  lemma SplitAt(cap: seq<byte>, base: nat, mid: nat, e: seq<byte>, rest: seq<byte>)
    requires base <= |cap| && cap[base..] == e + rest && mid == base + |e|
    ensures mid <= |cap| && cap[base..mid] == e && cap[mid..] == rest
  {
    assert cap[base..base + |e|] == cap[base..][..|e|];
    assert cap[base + |e|..] == cap[base..][|e|..];
  }

  lemma LaidOutCons(cap: seq<byte>, base: nat, rs: seq<RawRecord>)
    requires rs != [] && HeaderAt(cap, base + PACKET_HEADER_LENGTH, rs[0])
    requires LaidOut(cap, base + PACKET_HEADER_LENGTH + |rs[0].frame|, rs[1..])
    ensures LaidOut(cap, base, rs)
  {
  }

  /** The first of the records written from offset `base`, read back, and
      where the others start. */
  lemma FirstEncodedRecord(cap: seq<byte>, base: nat, rs: seq<RawRecord>)
    requires forall k :: 0 <= k < |rs| ==> ValidRawRecord(rs[k])
    requires rs != [] && base <= |cap| && cap[base..] == EncodeRecords(rs)
    ensures var next := base + PACKET_HEADER_LENGTH + |rs[0].frame|;
      && HeaderAt(cap, base + PACKET_HEADER_LENGTH, rs[0])
      && next <= |cap| && cap[next..] == EncodeRecords(rs[1..])
  {
    var next := base + PACKET_HEADER_LENGTH + |rs[0].frame|;
    SplitAt(cap, base, next, EncodeRecord(rs[0]), EncodeRecords(rs[1..]));
    EncodedRecordHeader(cap, base, rs[0]);
  }

  /** Records written from offset `base` to the end of the capture are
      laid out as the scan reads them. */
  lemma {:induction false} LaidOutEncoded(cap: seq<byte>, base: nat, rs: seq<RawRecord>)
    requires forall k :: 0 <= k < |rs| ==> ValidRawRecord(rs[k])
    requires base <= |cap| && cap[base..] == EncodeRecords(rs)
    ensures LaidOut(cap, base, rs)
    decreases |rs|
  {
    if rs == [] {
      assert |cap[base..]| == 0;
    } else {
      var next := base + PACKET_HEADER_LENGTH + |rs[0].frame|;
      FirstEncodedRecord(cap, base, rs);
      assert forall k :: 0 <= k < |rs[1..]| ==> rs[1..][k] == rs[k + 1];
      LaidOutEncoded(cap, next, rs[1..]);
      LaidOutCons(cap, base, rs);
    }
  }

  /** Scanning records laid out one after the other finds exactly one frame
      per record, at the offsets they were written to. */
  lemma {:induction false} ScanLaidOut(cap: seq<byte>, base: nat, rs: seq<RawRecord>)
    requires base >= PACKET_HEADER_LENGTH && LaidOut(cap, base, rs)
    requires |cap| + PACKET_HEADER_LENGTH < TWO_TO_31
    ensures ScanFits(cap, base + PACKET_HEADER_LENGTH)
    ensures Records(cap, base + PACKET_HEADER_LENGTH) == Offsets(base, rs)
    decreases |rs|
  {
    var i := base + PACKET_HEADER_LENGTH;
    if rs != [] {
      var next := i + |rs[0].frame|;
      ScanLaidOut(cap, next, rs[1..]);
      assert NextRecord(cap, i) == next + PACKET_HEADER_LENGTH;
      assert Records(cap, i) == [i] + Records(cap, next + PACKET_HEADER_LENGTH);
    }
  }

  /** The `k`-th record laid out from `base` carries its frame and capture
      time at the `k`-th offset. */
  lemma {:induction false} LaidOutAt(cap: seq<byte>, base: nat, rs: seq<RawRecord>, k: nat)
    requires LaidOut(cap, base, rs) && k < |rs|
    ensures var o := Offsets(base, rs)[k];
      && o + |rs[k].frame| <= |cap| && cap[o..o + |rs[k].frame|] == rs[k].frame
      && CaptureTime(cap, o) == rs[k].seconds
      && MicroOffset(cap, o) == rs[k].micros
    decreases k
  {
    if k > 0 {
      var next := base + PACKET_HEADER_LENGTH + |rs[0].frame|;
      LaidOutAt(cap, next, rs[1..], k - 1);
      assert Offsets(base, rs)[k] == Offsets(next, rs[1..])[k - 1];
    }
  }

  /** A whole capture file: a 24-byte global header, then the records. */
  function EncodeCapture(globalHeader: seq<byte>, rs: seq<RawRecord>): seq<byte>
    requires |globalHeader| == PCAP_HEADER_LENGTH
    requires forall k :: 0 <= k < |rs| ==> ValidRawRecord(rs[k])
  {
    globalHeader + EncodeRecords(rs)
  }

  /** The `k`-th decoded record of a capture whose records are laid out as
      `rs`. */
  lemma CaptureRecordAt(cap: seq<byte>, rs: seq<RawRecord>, k: nat)
    requires LaidOut(cap, PCAP_HEADER_LENGTH, rs) && k < |rs|
    requires ScanFits(cap, FIRST_RECORD) && Records(cap, FIRST_RECORD) == Offsets(PCAP_HEADER_LENGTH, rs)
    ensures var o := Offsets(PCAP_HEADER_LENGTH, rs)[k];
      && o + |rs[k].frame| <= |cap| && cap[o..o + |rs[k].frame|] == rs[k].frame
      && Capture(cap)[k] == Record(rs[k].seconds, rs[k].micros, Decode(cap, o))
  {
    LaidOutAt(cap, PCAP_HEADER_LENGTH, rs, k);
  }

  /** Decoding `cap` gives one record per element of `rs`, in order, each
      with its capture time and the frame found at its offset. */
  predicate DecodesAs(cap: seq<byte>, rs: seq<RawRecord>)
  {
    && ScanFits(cap, FIRST_RECORD)
    && |Capture(cap)| == |rs|
    && forall k :: 0 <= k < |rs| ==>
      var o := Offsets(PCAP_HEADER_LENGTH, rs)[k];
      && o + |rs[k].frame| <= |cap| && cap[o..o + |rs[k].frame|] == rs[k].frame
      && Capture(cap)[k] == Record(rs[k].seconds, rs[k].micros, Decode(cap, o))
  }

  /** Decoding a capture whose records are laid out as `rs` gives one record
      per element of `rs`, in order. */
  lemma CaptureOfLaidOut(cap: seq<byte>, rs: seq<RawRecord>)
    requires LaidOut(cap, PCAP_HEADER_LENGTH, rs)
    requires |cap| + PACKET_HEADER_LENGTH < TWO_TO_31
    ensures DecodesAs(cap, rs)
  {
    ScanLaidOut(cap, PCAP_HEADER_LENGTH, rs);
    forall k | 0 <= k < |rs|
      ensures var o := Offsets(PCAP_HEADER_LENGTH, rs)[k];
        && o + |rs[k].frame| <= |cap| && cap[o..o + |rs[k].frame|] == rs[k].frame
        && Capture(cap)[k] == Record(rs[k].seconds, rs[k].micros, Decode(cap, o))
    {
      CaptureRecordAt(cap, rs, k);
    }
  }

  /** Decoding a capture written from records gives one record per written
      record, in order, with its capture time and its decoded frame. */
  lemma CaptureOfEncoded(globalHeader: seq<byte>, rs: seq<RawRecord>, cap: seq<byte>)
    requires |globalHeader| == PCAP_HEADER_LENGTH
    requires forall k :: 0 <= k < |rs| ==> ValidRawRecord(rs[k])
    requires cap == EncodeCapture(globalHeader, rs)
    requires |cap| + PACKET_HEADER_LENGTH < TWO_TO_31
    ensures DecodesAs(cap, rs)
  {
    EncodedCaptureLaidOut(globalHeader, rs);
    CaptureOfLaidOut(cap, rs);
  }

  /** The records of a written capture sit right after its global header. */
  lemma EncodedCaptureLaidOut(globalHeader: seq<byte>, rs: seq<RawRecord>)
    requires |globalHeader| == PCAP_HEADER_LENGTH
    requires forall k :: 0 <= k < |rs| ==> ValidRawRecord(rs[k])
    ensures LaidOut(EncodeCapture(globalHeader, rs), PCAP_HEADER_LENGTH, rs)
  {
    SuffixOfConcat(globalHeader, EncodeRecords(rs));
    LaidOutEncoded(EncodeCapture(globalHeader, rs), PCAP_HEADER_LENGTH, rs);
  }
}

=== FILE: flows.dfy ===
/** The flow table the byte-dump, transaction-log and image reports build:
    every TCP segment to or from port 80 is filed under its connection,
    whichever direction it travels, and its payload is attributed to the
    upstream (towards port 80) or downstream (from port 80) side.

    The source's table maps connection tuples to mutable flow objects, and
    two keys can share one object. The model keeps that sharing explicit: a
    key maps to a handle, an index into the sequence of flows. */
module Flows {
  import opened Base
  import opened Text
  import opened Decoder
  import opened Connections

  const HTTP_PORT: nat := 80

  /** One segment kept for the HTTP parsers (the source's `Packet`). */
  datatype Segment = Segment(sequenceNumber: nat, acknowledgementNumber: nat,
                             captureTime: nat, microOffset: nat, data: seq<byte>)

  /** One connection: the payload bytes of each side, the byte counters the
      source keeps beside them, and the segments of each side. */
  datatype Flow = Flow(
    upstreamData: seq<byte>, downstreamData: seq<byte>,
    upDataLength: int, downDataLength: int,
    upstreamPackets: seq<Segment>, downstreamPackets: seq<Segment>)

  const EmptyFlow := Flow([], [], 0, 0, [], [])

  datatype FlowTable = FlowTable(keys: map<ConnTuple, nat>, flows: seq<Flow>)

  /** Every key names a flow of the table and is oriented towards port 80,
      and the two orientations of a connection, when both are keys, share
      one flow. */
  predicate Valid(t: FlowTable)
  {
    && (forall k :: k in t.keys ==> t.keys[k] < |t.flows| && k.destinationPort == HTTP_PORT)
    && (forall k :: k in t.keys && Swap(k) in t.keys ==> t.keys[k] == t.keys[Swap(k)])
  }

  /** The handle of a tuple's flow: the tuple itself first, then its
      reverse. */
  function Lookup(t: FlowTable, tuple: ConnTuple): (r: Option<nat>)
    ensures r.Some? <==> tuple in t.keys || Swap(tuple) in t.keys
    ensures tuple in t.keys ==> r == Some(t.keys[tuple])
    ensures tuple !in t.keys && Swap(tuple) in t.keys ==> r == Some(t.keys[Swap(tuple)])
  {
    if tuple in t.keys then Some(t.keys[tuple])
    else if Swap(tuple) in t.keys then Some(t.keys[Swap(tuple)])
    else None
  }

  predicate IsHttp(tuple: ConnTuple)
  {
    tuple.sourcePort == HTTP_PORT || tuple.destinationPort == HTTP_PORT
  }

  /** Whether a segment travels towards the server. A segment between two
      port-80 endpoints counts as upstream. */
  predicate Upstream(tuple: ConnTuple)
  {
    tuple.destinationPort == HTTP_PORT
  }

  /** A flow with one more segment on one side. */
  function AddSegment(f: Flow, up: bool, payloadLength: int, seg: Segment): (r: Flow)
    ensures up ==>
      && r.upstreamData == f.upstreamData + seg.data && r.upDataLength == f.upDataLength + payloadLength
      && r.upstreamPackets == f.upstreamPackets + [seg]
      && r.downstreamData == f.downstreamData && r.downDataLength == f.downDataLength
      && r.downstreamPackets == f.downstreamPackets
    ensures !up ==>
      && r.downstreamData == f.downstreamData + seg.data && r.downDataLength == f.downDataLength + payloadLength
      && r.downstreamPackets == f.downstreamPackets + [seg]
      && r.upstreamData == f.upstreamData && r.upDataLength == f.upDataLength
      && r.upstreamPackets == f.upstreamPackets
  {
    if up then
      f.(upstreamData := f.upstreamData + seg.data, upDataLength := f.upDataLength + payloadLength,
         upstreamPackets := f.upstreamPackets + [seg])
    else
      f.(downstreamData := f.downstreamData + seg.data, downDataLength := f.downDataLength + payloadLength,
         downstreamPackets := f.downstreamPackets + [seg])
  }

  /** The flow a segment of `tuple` updates, and its handle: the one found
      by `Lookup`, or a new empty flow at the end of the table. */
  function Target(t: FlowTable, tuple: ConnTuple): (r: (nat, Flow))
    requires Valid(t)
    ensures Lookup(t, tuple).Some? ==> r.0 == Lookup(t, tuple).value < |t.flows| && r.1 == t.flows[r.0]
    ensures Lookup(t, tuple).None? ==> r.0 == |t.flows| && r.1 == EmptyFlow
  {
    match Lookup(t, tuple)
    case Some(h) => (h, t.flows[h])
    case None => (|t.flows|, EmptyFlow)
  }

  /** Files one record. Only TCP segments with port 80 at one end change the
      table; the flow is stored under the tuple oriented towards port 80. */
  function Accumulate(t: FlowTable, r: Record): (t': FlowTable)
    requires Valid(t)
    ensures Valid(t')
    ensures !(r.frame.Tcp? && IsHttp(r.frame.header.tuple)) ==> t' == t
    ensures r.frame.Tcp? && IsHttp(r.frame.header.tuple) ==>
      var h, tuple := r.frame.header, r.frame.header.tuple;
      var (handle, f) := Target(t, tuple);
      var up := Upstream(tuple);
      var seg := Segment(h.sequenceNumber, h.acknowledgementNumber, r.captureTime, r.microOffset, r.frame.payload);
      && t'.flows == (if handle < |t.flows| then t.flows else t.flows + [EmptyFlow])[handle := AddSegment(f, up, h.payloadLength, seg)]
      && t'.keys == t.keys[(if up then tuple else Swap(tuple)) := handle]
  {
    if !(r.frame.Tcp? && IsHttp(r.frame.header.tuple)) then t
    else
      var h, tuple := r.frame.header, r.frame.header.tuple;
      var (handle, f) := Target(t, tuple);
      var up := Upstream(tuple);
      var seg := Segment(h.sequenceNumber, h.acknowledgementNumber, r.captureTime, r.microOffset, r.frame.payload);
      var flows := if handle < |t.flows| then t.flows else t.flows + [EmptyFlow];
      var key := if up then tuple else Swap(tuple);
      var t' := FlowTable(t.keys[key := handle], flows[handle := AddSegment(f, up, h.payloadLength, seg)]);
      assert Valid(t') by {
        forall k | k in t'.keys && Swap(k) in t'.keys
          ensures t'.keys[k] == t'.keys[Swap(k)]
        {
          SwapSwap(k);
          SwapSwap(tuple);
        }
      }
      t'
  }

  /** The table after filing the records in order. */
  function FlowsOf(rs: seq<Record>): (t: FlowTable)
    ensures Valid(t)
  {
    if rs == [] then FlowTable(map[], [])
    else Accumulate(FlowsOf(rs[..|rs| - 1]), rs[|rs| - 1])
  }

  // ---------------------------------------------------------------- invariants

  /** The concatenated data of a side's segments. */
  function Flatten(segs: seq<Segment>): (r: seq<byte>)
  {
    if segs == [] then [] else Flatten(segs[..|segs| - 1]) + segs[|segs| - 1].data
  }

  /** A side of a flow is consistent when its bytes are its segments' bytes
      and its counter never exceeds them; when `exact`, the counter equals
      the number of bytes. */
  predicate SideConsistent(data: seq<byte>, length: int, segs: seq<Segment>, exact: bool)
  {
    data == Flatten(segs) && length <= |data| && (exact ==> length == |data|)
  }

  predicate Consistent(f: Flow, exact: bool)
  {
    && SideConsistent(f.upstreamData, f.upDataLength, f.upstreamPackets, exact)
    && SideConsistent(f.downstreamData, f.downDataLength, f.downstreamPackets, exact)
  }

  /** No TCP segment of the records declares fewer bytes than its headers
      (the source's payload length is then never negative). */
  predicate NonNegativePayloads(rs: seq<Record>)
  {
    forall k :: 0 <= k < |rs| && rs[k].frame.Tcp? ==> rs[k].frame.header.payloadLength >= 0
  }

  lemma FlattenSnoc(segs: seq<Segment>, seg: Segment)
    ensures Flatten(segs + [seg]) == Flatten(segs) + seg.data
  {
    assert (segs + [seg])[..|segs|] == segs;
  }

  /** Adding a segment whose bytes number its positive payload length keeps
      a flow consistent. */
  lemma AddSegmentConsistent(f: Flow, up: bool, payloadLength: int, seg: Segment, exact: bool)
    requires Consistent(f, exact)
    requires |seg.data| == if payloadLength > 0 then payloadLength else 0
    requires exact ==> payloadLength >= 0
    ensures Consistent(AddSegment(f, up, payloadLength, seg), exact)
  {
    FlattenSnoc(f.upstreamPackets, seg);
    FlattenSnoc(f.downstreamPackets, seg);
  }

  /** Filing one record keeps every flow consistent. */
  lemma AccumulateConsistent(t: FlowTable, r: Record, exact: bool)
    requires Valid(t) && PayloadSized(r.frame)
    requires forall h :: 0 <= h < |t.flows| ==> Consistent(t.flows[h], exact)
    requires exact && r.frame.Tcp? ==> r.frame.header.payloadLength >= 0
    ensures forall h :: 0 <= h < |Accumulate(t, r).flows| ==> Consistent(Accumulate(t, r).flows[h], exact)
  {
    if r.frame.Tcp? && IsHttp(r.frame.header.tuple) {
      var (handle, f) := Target(t, r.frame.header.tuple);
      var seg := Segment(r.frame.header.sequenceNumber, r.frame.header.acknowledgementNumber,
                         r.captureTime, r.microOffset, r.frame.payload);
      AddSegmentConsistent(f, Upstream(r.frame.header.tuple), r.frame.header.payloadLength, seg, exact);
    }
  }

  lemma NonNegativeFront(rs: seq<Record>)
    requires rs != [] && NonNegativePayloads(rs)
    ensures NonNegativePayloads(rs[..|rs| - 1])
    ensures rs[|rs| - 1].frame.Tcp? ==> rs[|rs| - 1].frame.header.payloadLength >= 0
  {
    var front := rs[..|rs| - 1];
    forall k | 0 <= k < |front| && front[k].frame.Tcp?
      ensures front[k].frame.header.payloadLength >= 0
    {
      assert front[k] == rs[k];
    }
  }

  /** Every flow's counters track its bytes: a counter never exceeds the
      bytes collected, and equals it when no segment had a negative payload
      length (a negative length is added to the counter while no byte is
      copied). */
  lemma {:induction false} FlowsConsistent(rs: seq<Record>)
    requires forall k :: 0 <= k < |rs| ==> PayloadSized(rs[k].frame)
    ensures forall h :: 0 <= h < |FlowsOf(rs).flows| ==> Consistent(FlowsOf(rs).flows[h], NonNegativePayloads(rs))
  {
    if rs != [] {
      var front := rs[..|rs| - 1];
      assert forall k :: 0 <= k < |front| ==> front[k] == rs[k];
      FlowsConsistent(front);
      var exact := NonNegativePayloads(rs);
      if exact {
        NonNegativeFront(rs);
      }
      AccumulateConsistent(FlowsOf(front), rs[|rs| - 1], exact);
    }
  }

  /** The bytes of one side of a flow. */
  function Side(f: Flow, up: bool): seq<byte>
  {
    if up then f.upstreamData else f.downstreamData
  }

  /** The bytes held on one side, over all flows. */
  function Volume(fs: seq<Flow>, up: bool): nat
  {
    if fs == [] then 0 else Volume(fs[..|fs| - 1], up) + |Side(fs[|fs| - 1], up)|
  }

  /** The payload bytes of the records that travel on one side of an HTTP
      connection. */
  function Attributed(rs: seq<Record>, up: bool): nat
  {
    if rs == [] then 0
    else
      var r := rs[|rs| - 1];
      Attributed(rs[..|rs| - 1], up)
        + if r.frame.Tcp? && IsHttp(r.frame.header.tuple) && Upstream(r.frame.header.tuple) == up
          then |r.frame.payload| else 0
  }

  lemma {:induction false} VolumeUpdate(fs: seq<Flow>, h: nat, f: Flow, up: bool)
    requires h < |fs|
    ensures Volume(fs[h := f], up) == Volume(fs, up) - |Side(fs[h], up)| + |Side(f, up)|
    decreases |fs|
  {
    var last := |fs| - 1;
    if h < last {
      VolumeUpdate(fs[..last], h, f, up);
      assert fs[h := f][..last] == fs[..last][h := f];
    } else {
      assert fs[h := f][..last] == fs[..last];
    }
  }

  lemma VolumeAppend(fs: seq<Flow>, f: Flow, up: bool)
    ensures Volume(fs + [f], up) == Volume(fs, up) + |Side(f, up)|
  {
    assert (fs + [f])[..|fs|] == fs;
  }

  /** Filing one record adds its payload bytes to the side it travels on. */
  lemma AccumulateVolume(t: FlowTable, r: Record, up: bool)
    requires Valid(t)
    ensures Volume(Accumulate(t, r).flows, up) == Volume(t.flows, up)
      + if r.frame.Tcp? && IsHttp(r.frame.header.tuple) && Upstream(r.frame.header.tuple) == up
        then |r.frame.payload| else 0
  {
    if r.frame.Tcp? && IsHttp(r.frame.header.tuple) {
      var tuple := r.frame.header.tuple;
      var (handle, f) := Target(t, tuple);
      var seg := Segment(r.frame.header.sequenceNumber, r.frame.header.acknowledgementNumber,
                         r.captureTime, r.microOffset, r.frame.payload);
      var f' := AddSegment(f, Upstream(tuple), r.frame.header.payloadLength, seg);
      var flows := if handle < |t.flows| then t.flows else t.flows + [EmptyFlow];
      if handle == |t.flows| {
        VolumeAppend(t.flows, EmptyFlow, up);
      }
      VolumeUpdate(flows, handle, f', up);
    }
  }

  /** No byte is lost or counted twice: on each side, the flows together hold
      exactly the payload bytes of the segments travelling on that side. */
  lemma {:induction false} VolumeConserved(rs: seq<Record>, up: bool)
    ensures Volume(FlowsOf(rs).flows, up) == Attributed(rs, up)
  {
    if rs != [] {
      VolumeConserved(rs[..|rs| - 1], up);
      AccumulateVolume(FlowsOf(rs[..|rs| - 1]), rs[|rs| - 1], up);
    }
  }

  // ---------------------------------------------------------------- byte dump

  const DOT: byte := 46

  /** Dotted-decimal text of an address. */
  function IpText(a: IpAddress): (r: seq<byte>)
    ensures SP !in r && LF !in r
  {
    DecimalText(a.first as int) + [DOT] + DecimalText(a.second as int) + [DOT]
      + DecimalText(a.third as int) + [DOT] + DecimalText(a.fourth as int)
  }

  /** The dump line of one table entry: the key's endpoints, then the flow's
      two byte counters. */
  function FlowLine(k: ConnTuple, f: Flow): (r: seq<byte>)
    ensures |r| > 0 && r[|r| - 1] == LF && LF !in r[..|r| - 1]
  {
    var body := IpText(k.sourceIp) + [SP] + DecimalText(k.sourcePort) + [SP] + IpText(k.destinationIp) + [SP]
      + DecimalText(k.destinationPort) + [SP] + DecimalText(f.upDataLength) + [SP] + DecimalText(f.downDataLength);
    assert LF !in body;
    assert (body + [LF])[..|body|] == body;
    body + [LF]
  }

  /** The first `n` bytes, none when `n` is not positive. */
  function Prefix(s: seq<byte>, n: int): (r: seq<byte>)
    requires n <= |s|
    ensures |r| == (if n <= 0 then 0 else n) && r <= s
  {
    if n <= 0 then [] else s[..n]
  }

  /** The bytes the dump writes for one entry: as many upstream bytes as the
      upstream counter says, then as many downstream bytes. */
  function FlowBytes(f: Flow): seq<byte>
    requires f.upDataLength <= |f.upstreamData| && f.downDataLength <= |f.downstreamData|
  {
    Prefix(f.upstreamData, f.upDataLength) + Prefix(f.downstreamData, f.downDataLength)
  }

  /** `order` lists each key of the table once. */
  predicate Enumerates<K>(order: seq<K>, keys: set<K>)
  {
    && (forall i :: 0 <= i < |order| ==> order[i] in keys)
    && (forall k :: k in keys ==> k in order)
    && (forall i, j :: 0 <= i < j < |order| ==> order[i] != order[j])
  }

  predicate AllConsistent(t: FlowTable)
  {
    forall h :: 0 <= h < |t.flows| ==> Consistent(t.flows[h], false)
  }

  /** The dump lines of the entries, in the given order (the source sorts
      the keys by their text). */
  function DumpLines(t: FlowTable, order: seq<ConnTuple>): seq<byte>
    requires Valid(t)
    requires forall k :: k in order ==> k in t.keys
  {
    if order == [] then []
    else
      var k := order[|order| - 1];
      DumpLines(t, order[..|order| - 1]) + FlowLine(k, t.flows[t.keys[k]])
  }

  /** The bytes written after the dump lines, entry by entry in the same
      order. */
  function DumpBytes(t: FlowTable, order: seq<ConnTuple>): seq<byte>
    requires Valid(t) && AllConsistent(t)
    requires forall k :: k in order ==> k in t.keys
  {
    if order == [] then []
    else DumpBytes(t, order[..|order| - 1]) + FlowBytes(t.flows[t.keys[order[|order| - 1]]])
  }

  function CountLf(s: seq<byte>): nat
  {
    if s == [] then 0 else CountLf(s[..|s| - 1]) + if s[|s| - 1] == LF then 1 else 0
  }

  lemma {:induction false} CountLfConcat(a: seq<byte>, b: seq<byte>)
    ensures CountLf(a + b) == CountLf(a) + CountLf(b)
    decreases |b|
  {
    if b == [] {
      assert a + b == a;
    } else {
      assert (a + b)[..|a + b| - 1] == a + b[..|b| - 1];
      assert (a + b)[|a + b| - 1] == b[|b| - 1];
      CountLfConcat(a, b[..|b| - 1]);
    }
  }

  lemma {:induction false} CountLfNone(s: seq<byte>)
    requires LF !in s
    ensures CountLf(s) == 0
  {
    if s != [] {
      CountLfNone(s[..|s| - 1]);
    }
  }

  /** A line ending in its only line feed counts once. */
  lemma OneLf(line: seq<byte>)
    requires |line| > 0 && line[|line| - 1] == LF && LF !in line[..|line| - 1]
    ensures CountLf(line) == 1
  {
    CountLfNone(line[..|line| - 1]);
  }

  /** The dump prints one line per entry. */
  lemma {:induction false} FlowDumpLines(t: FlowTable, order: seq<ConnTuple>)
    requires Valid(t) && AllConsistent(t)
    requires forall k :: k in order ==> k in t.keys
    ensures CountLf(DumpLines(t, order)) == |order|
  {
    if order != [] {
      var front := order[..|order| - 1];
      FlowDumpLines(t, front);
      var k := order[|order| - 1];
      var line := FlowLine(k, t.flows[t.keys[k]]);
      CountLfConcat(DumpLines(t, front), line);
      OneLf(line);
    }
  }

  /** When every counter equals its bytes, the dump writes every entry's
      upstream bytes then downstream bytes in full. */
  lemma {:induction false} FlowDumpBytes(t: FlowTable, order: seq<ConnTuple>, exact: bool)
    requires Valid(t) && AllConsistent(t)
    requires forall k :: k in order ==> k in t.keys
    requires forall h :: 0 <= h < |t.flows| ==> Consistent(t.flows[h], exact)
    ensures exact ==> DumpBytes(t, order) == FullBytes(t, order)
  {
    if order != [] && exact {
      var front, k := order[..|order| - 1], order[|order| - 1];
      assert forall j :: j in front ==> j in order;
      FlowDumpBytes(t, front, exact);
      var h := t.keys[k];
      assert Consistent(t.flows[h], true);
      FlowBytesExact(t.flows[h]);
      LastEntryBytes(t, order);
    }
  }

  lemma FlowBytesExact(f: Flow)
    requires Consistent(f, true)
    ensures FlowBytes(f) == f.upstreamData + f.downstreamData
  {}

  /** The last entry's bytes close both the dump and the full bytes. */
  lemma LastEntryBytes(t: FlowTable, order: seq<ConnTuple>)
    requires Valid(t) && AllConsistent(t) && order != []
    requires forall k :: k in order ==> k in t.keys
    ensures var f := t.flows[t.keys[order[|order| - 1]]];
      && DumpBytes(t, order) == DumpBytes(t, order[..|order| - 1]) + FlowBytes(f)
      && FullBytes(t, order) == FullBytes(t, order[..|order| - 1]) + (f.upstreamData + f.downstreamData)
  {
  }

  /** Every entry's bytes, upstream then downstream, in key order. */
  function FullBytes(t: FlowTable, order: seq<ConnTuple>): seq<byte>
    requires Valid(t)
    requires forall k :: k in order ==> k in t.keys
  {
    if order == [] then []
    else
      var f := t.flows[t.keys[order[|order| - 1]]];
      FullBytes(t, order[..|order| - 1]) + f.upstreamData + f.downstreamData
  }

  /** The byte-dump report over decoded records: the dump lines and the
      bytes written after them. */
  function FlowDumpOf(rs: seq<Record>, order: seq<ConnTuple>): (r: (seq<byte>, seq<byte>))
    requires forall k :: 0 <= k < |rs| ==> PayloadSized(rs[k].frame)
    requires Enumerates(order, FlowsOf(rs).keys.Keys)
    ensures CountLf(r.0) == |order|
    ensures NonNegativePayloads(rs) ==> r.1 == FullBytes(FlowsOf(rs), order)
  {
    var t := FlowsOf(rs);
    FlowsConsistent(rs);
    FlowDumpLines(t, order);
    FlowDumpBytes(t, order, NonNegativePayloads(rs));
    (DumpLines(t, order), DumpBytes(t, order))
  }

  /** The byte-dump report of a capture. */
  function FlowReport(cap: seq<byte>, order: seq<ConnTuple>): (r: (seq<byte>, seq<byte>))
    requires ScanFits(cap, FIRST_RECORD)
    requires Enumerates(order, FlowsOf(Capture(cap)).keys.Keys)
    ensures CountLf(r.0) == |order|
    ensures NonNegativePayloads(Capture(cap)) ==> r.1 == FullBytes(FlowsOf(Capture(cap)), order)
  {
    FlowDumpOf(Capture(cap), order)
  }
}

=== FILE: lines.dfy ===
/** The line splitter both HTTP parsers run over a segment's payload.

    Bytes accumulate into the current line. A line feed right after a
    carriage return ends the line: a line holding only the two terminator
    bytes is blank and starts a new block; any other line is handed to the
    parser together with a flag saying whether it is the first line of its
    block. The splitter remembers the previous byte (starting from zero),
    as the source's `prevChar` does. */
module Lines {
  import opened Base
  import opened Text

  datatype Splitter = Splitter(line: seq<byte>, prev: byte, newBlock: bool)

  datatype Event = NoEvent | BlankLine | Line(text: seq<byte>, newBlock: bool)

  /** The splitter a segment starts with. */
  const Start := Splitter([], 0, true)

  /** The previous byte is the last byte of the pending line; after a line
      ends, it is the line feed. */
  predicate Ready(s: Splitter)
  {
    if s.line == [] then s.prev != CR else s.prev == s.line[|s.line| - 1]
  }

  /** A complete non-blank line: at least one byte, then CR LF. */
  predicate IsLine(text: seq<byte>)
  {
    |text| >= 3 && text[|text| - 2] == CR && text[|text| - 1] == LF
  }

  /** Feeds one byte. */
  function Feed(s: Splitter, b: byte): (r: (Splitter, Event))
    requires Ready(s)
    ensures Ready(r.0)
    ensures r.1.NoEvent? <==> !(s.prev == CR && b == LF)
    ensures r.1.NoEvent? ==> r.0 == Splitter(s.line + [b], b, s.newBlock)
    ensures r.1.BlankLine? <==> s.line == [CR] && b == LF
    ensures r.1.BlankLine? ==> r.0 == Splitter([], LF, true)
    ensures r.1.Line? ==>
      && IsLine(r.1.text) && r.1.text == s.line + [b] && r.1.newBlock == s.newBlock
      && r.0 == Splitter([], LF, false)
  {
    var line := s.line + [b];
    if s.prev == CR && b == LF && |line| == 2 then (Splitter([], b, true), BlankLine)
    else if s.prev == CR && b == LF then (Splitter([], b, false), Line(line, s.newBlock))
    else (Splitter(line, b, s.newBlock), NoEvent)
  }

  /** Feeds a sequence of bytes, collecting the events that are not
      `NoEvent`. */
  function FeedAll(s: Splitter, data: seq<byte>): (r: (Splitter, seq<Event>))
    requires Ready(s)
    ensures Ready(r.0)
    ensures forall k :: 0 <= k < |r.1| ==> !r.1[k].NoEvent?
  {
    if data == [] then (s, [])
    else
      var (s', events) := FeedAll(s, data[..|data| - 1]);
      var (s'', e) := Feed(s', data[|data| - 1]);
      (s'', if e.NoEvent? then events else events + [e])
  }

  /** The bytes of lines, each followed by CR LF. */
  function Join(lines: seq<seq<byte>>): seq<byte>
  {
    if lines == [] then [] else Join(lines[..|lines| - 1]) + lines[|lines| - 1] + [CR, LF]
  }

  /** The event the splitter reports for one line of `Join`. */
  function LineEvent(lines: seq<seq<byte>>, k: nat): Event
    requires k < |lines|
  {
    if lines[k] == [] then BlankLine
    else Line(lines[k] + [CR, LF], k == 0 || lines[k - 1] == [])
  }

  predicate NoCr(line: seq<byte>)
  {
    CR !in line
  }

  lemma {:induction false} FeedAllConcat(s: Splitter, a: seq<byte>, b: seq<byte>)
    requires Ready(s)
    ensures var (s1, e1) := FeedAll(s, a); var (s2, e2) := FeedAll(s1, b);
      FeedAll(s, a + b) == (s2, e1 + e2)
    decreases |b|
  {
    if b == [] {
      assert a + b == a;
      assert FeedAll(s, a).1 + [] == FeedAll(s, a).1;
    } else {
      var b' := b[..|b| - 1];
      assert (a + b)[..|a + b| - 1] == a + b';
      assert (a + b)[|a + b| - 1] == b[|b| - 1];
      FeedAllConcat(s, a, b');
      var (s1, e1) := FeedAll(s, a);
      var (s2, e2) := FeedAll(s1, b');
      var (s3, e) := Feed(s2, b[|b| - 1]);
      if !e.NoEvent? {
        assert e1 + e2 + [e] == e1 + (e2 + [e]);
      }
    }
  }

  /** Bytes without CR, fed after a line end, only extend the pending
      line. */
  lemma {:induction false} FeedPlain(s: Splitter, data: seq<byte>)
    requires Ready(s) && s.line == [] && NoCr(data)
    ensures FeedAll(s, data) == (if data == [] then s else Splitter(data, data[|data| - 1], s.newBlock), [])
  {
    if data != [] {
      var front := data[..|data| - 1];
      assert CR !in front by {
        assert forall k :: 0 <= k < |front| ==> front[k] == data[k];
      }
      FeedPlain(s, front);
      assert front + [data[|data| - 1]] == data;
    }
  }

  lemma FeedLineCr(s: Splitter, line: seq<byte>)
    requires Ready(s) && s.line == [] && NoCr(line)
    ensures FeedAll(s, line + [CR]) == (Splitter(line + [CR], CR, s.newBlock), [])
  {
    FeedPlain(s, line);
    assert (line + [CR])[..|line|] == line;
  }

  /** One line (without CR) and its terminator, fed after a line end, give
      that line's event and leave the splitter at a line end. */
  lemma FeedOneLine(s: Splitter, line: seq<byte>)
    requires Ready(s) && s.line == [] && NoCr(line)
    ensures FeedAll(s, line + [CR, LF]) ==
      (Splitter([], LF, line == []),
       [if line == [] then BlankLine else Line(line + [CR, LF], s.newBlock)])
  {
    var x := line + [CR, LF];
    assert x[..|x| - 1] == line + [CR];
    FeedLineCr(s, line);
    var st := Splitter(line + [CR], CR, s.newBlock);
    var (s', e) := Feed(st, LF);
    assert FeedAll(s, x) == (s', [] + [e]);
    assert [] + [e] == [e];
    if line == [] {
      assert st.line == [CR];
      assert e == BlankLine;
    } else {
      assert |st.line| > 1;
      assert line + [CR] + [LF] == x;
      assert e == Line(x, s.newBlock);
    }
  }

  lemma LineEventFront(lines: seq<seq<byte>>, k: nat)
    requires k < |lines| - 1
    ensures LineEvent(lines[..|lines| - 1], k) == LineEvent(lines, k)
  {}

  /** What the splitter reports for the joined lines, as `SplitJoin`
      states it. */
  predicate SplitsInto(lines: seq<seq<byte>>)
  {
    var r := FeedAll(Start, Join(lines));
    && r.0.line == [] && r.0.newBlock == (lines == [] || lines[|lines| - 1] == [])
    && |r.1| == |lines|
    && forall k :: 0 <= k < |lines| ==> r.1[k] == LineEvent(lines, k)
  }

  /** Feeding one more line after a line end appends that line's event. */
  lemma FeedAppendLine(x: seq<byte>, line: seq<byte>)
    requires NoCr(line) && FeedAll(Start, x).0.line == []
    ensures var r, r' := FeedAll(Start, x), FeedAll(Start, x + (line + [CR, LF]));
      && r'.0 == Splitter([], LF, line == [])
      && r'.1 == r.1 + [if line == [] then BlankLine else Line(line + [CR, LF], r.0.newBlock)]
  {
    FeedAllConcat(Start, x, line + [CR, LF]);
    FeedOneLine(FeedAll(Start, x).0, line);
  }

  lemma EventsSnoc(lines: seq<seq<byte>>, front: seq<Event>, events: seq<Event>)
    requires lines != [] && |front| == |lines| - 1
    requires forall k :: 0 <= k < |front| ==> front[k] == LineEvent(lines[..|lines| - 1], k)
    requires events == front + [LineEvent(lines, |lines| - 1)]
    ensures forall k :: 0 <= k < |lines| ==> events[k] == LineEvent(lines, k)
  {
    forall k | 0 <= k < |lines|
      ensures events[k] == LineEvent(lines, k)
    {
      if k < |front| {
        LineEventFront(lines, k);
      }
    }
  }

  lemma SplitJoinStep(lines: seq<seq<byte>>)
    requires lines != [] && NoCr(lines[|lines| - 1])
    requires SplitsInto(lines[..|lines| - 1])
    ensures SplitsInto(lines)
  {
    var front := lines[..|lines| - 1];
    var last := lines[|lines| - 1];
    assert Join(lines) == Join(front) + (last + [CR, LF]);
    FeedAppendLine(Join(front), last);
    EventsSnoc(lines, FeedAll(Start, Join(front)).1, FeedAll(Start, Join(lines)).1);
  }

  /** The splitter recovers the lines a text was joined from: feeding the
      joined lines reports each line in order, as blank or as a line with
      its terminator and whether it opens a block. */
  lemma {:induction false} SplitJoin(lines: seq<seq<byte>>)
    requires forall k :: 0 <= k < |lines| ==> NoCr(lines[k])
    ensures SplitsInto(lines)
  {
    if lines != [] {
      var front := lines[..|lines| - 1];
      assert forall k :: 0 <= k < |front| ==> front[k] == lines[k];
      SplitJoin(front);
      SplitJoinStep(lines);
    }
  }

  /** Joining is compatible with concatenation of line lists. */
  lemma {:induction false} JoinConcat(a: seq<seq<byte>>, b: seq<seq<byte>>)
    ensures Join(a + b) == Join(a) + Join(b)
    decreases |b|
  {
    if b == [] {
      assert a + b == a;
    } else {
      var b' := b[..|b| - 1];
      assert (a + b)[..|a + b| - 1] == a + b';
      assert (a + b)[|a + b| - 1] == b[|b| - 1];
      JoinConcat(a, b');
    }
  }

  lemma JoinOne(line: seq<byte>)
    ensures Join([line]) == line + [CR, LF]
  {
    assert [line][..0] == [];
  }
}

=== FILE: requests.dfy ===
/** The request half of the HTTP reports: each upstream segment's payload is
    scanned line by line for a request line (method, URL, version) opening a
    block and for a `Host:` header; a request found is filed under the
    sequence number the response will acknowledge, the segment's sequence
    number plus its payload size. */
module Requests {
  import opened Base
  import opened Text
  import opened Lines
  import opened Decoder
  import opened Flows

  /** The two reports that parse HTTP: the transaction log, and the image
      extraction, which keeps only requests for images and also collects
      response bodies. */
  datatype Report = TransactionLog | ImageExtract

  datatype Request = Request(url: seq<byte>, host: seq<byte>, captureTime: nat, microOffset: nat)

  /** The parser's state within one segment. `url` and `host` start empty,
      as the source's fields do. */
  datatype RequestScan = RequestScan(split: Splitter, url: seq<byte>, host: seq<byte>, store: bool)

  const StartRequest := RequestScan(Start, [], [], false)

  /** `HEAD` */
  const HEAD: seq<byte> := [72, 69, 65, 68]

  /** `GET` */
  const GET: seq<byte> := [71, 69, 84]

  /** `POST` */
  const POST: seq<byte> := [80, 79, 83, 84]

  /** `PUT` */
  const PUT: seq<byte> := [80, 85, 84]

  /** `DELETE` */
  const DELETE: seq<byte> := [68, 69, 76, 69, 84, 69]

  /** `.jpeg` */
  const JPEG_EXT: seq<byte> := [46, 106, 112, 101, 103]

  /** `.webp` */
  const WEBP_EXT: seq<byte> := [46, 119, 101, 98, 112]

  /** `.jpg` */
  const JPG_EXT: seq<byte> := [46, 106, 112, 103]

  /** `.png` */
  const PNG_EXT: seq<byte> := [46, 112, 110, 103]

  /** `.gif` */
  const GIF_EXT: seq<byte> := [46, 103, 105, 102]

  /** `Host:` */
  const HOST: seq<byte> := [72, 111, 115, 116, 58]

  /** The request methods, compared ignoring case. */
  predicate IsMethod(w: seq<byte>)
  {
    || EqualsIgnoreCase(w, HEAD) || EqualsIgnoreCase(w, GET)
    || EqualsIgnoreCase(w, POST) || EqualsIgnoreCase(w, PUT)
    || EqualsIgnoreCase(w, DELETE)
  }

  /** The last `n` bytes, when the text is longer than `n`. */
  predicate EndsWith(url: seq<byte>, n: nat, ext: seq<byte>)
  {
    |url| > n && EqualsIgnoreCase(url[|url| - n..], ext)
  }

  /** A URL the image report keeps: ending, ignoring case, in `.jpeg` or
      `.webp` (URL longer than five bytes) or in `.jpg`, `.png` or `.gif`
      (URL longer than four bytes). */
  predicate IsImageUrl(url: seq<byte>)
  {
    || EndsWith(url, 5, JPEG_EXT) || EndsWith(url, 5, WEBP_EXT)
    || EndsWith(url, 4, JPG_EXT) || EndsWith(url, 4, PNG_EXT) || EndsWith(url, 4, GIF_EXT)
  }

  predicate Keeps(report: Report, url: seq<byte>)
  {
    report == TransactionLog || IsImageUrl(url)
  }

  /** The text between the first space and the next space at least two
      bytes further on; `None` when there is no such space (the source's
      `substring` then throws). */
  function SecondField(text: seq<byte>, w: seq<byte>): (r: Option<seq<byte>>)
    requires |w| < |text|
    ensures r.None? <==> IndexOf(text, SP, |w| + 2) < 0
    ensures r.Some? ==> var e := IndexOf(text, SP, |w| + 2);
      r.value == text[|w| + 1..e] && SP == text[e]
  {
    var e := IndexOf(text, SP, |w| + 2);
    if e < 0 then None else Some(text[|w| + 1..e])
  }

  /** The text after the first space, without the line terminator. */
  function HeaderValue(text: seq<byte>, w: seq<byte>): (r: seq<byte>)
    requires IsLine(text) && |w| < |text| && text[|w|] == SP
    ensures |r| == |text| - |w| - 3 && r == text[|w| + 1..|text| - 2]
  {
    text[|w| + 1..|text| - 2]
  }

  /** Handles one complete line. Only the first line of a block is tried as
      a request line; a `Host:` line elsewhere sets the host. */
  function OnRequestLine(report: Report, s: RequestScan, text: seq<byte>, newBlock: bool): (r: Option<RequestScan>)
    requires IsLine(text)
    ensures r.None? <==> newBlock && FirstWord(text).Some? && IsMethod(FirstWord(text).value)
                         && SecondField(text, FirstWord(text).value).None?
    ensures r.Some? ==> r.value.split == s.split
    ensures r.Some? && newBlock && FirstWord(text).Some? && IsMethod(FirstWord(text).value) ==>
      var url := SecondField(text, FirstWord(text).value).value;
      r.value == s.(url := url, store := s.store || Keeps(report, url))
    ensures r.Some? && !newBlock && FirstWord(text).Some? && EqualsIgnoreCase(FirstWord(text).value, HOST) ==>
      r.value == s.(host := HeaderValue(text, FirstWord(text).value))
    ensures r.Some? && (FirstWord(text).None?
                        || (newBlock && !IsMethod(FirstWord(text).value))
                        || (!newBlock && !EqualsIgnoreCase(FirstWord(text).value, HOST))) ==>
      r.value == s
  {
    match FirstWord(text)
    case None => Some(s)
    case Some(w) =>
      if newBlock then
        if !IsMethod(w) then Some(s)
        else
          match SecondField(text, w)
          case None => None
          case Some(url) => Some(s.(url := url, store := s.store || Keeps(report, url)))
      else if EqualsIgnoreCase(w, HOST) then
        Some(s.(host := HeaderValue(text, w)))
      else Some(s)
  }

  /** Feeds one payload byte. Only a byte that ends a line can change the
      URL, the host or the filing mark, and only a request line without a
      second space aborts; a segment once marked for filing stays marked. */
  function RequestStep(report: Report, s: RequestScan, b: byte): (r: Option<RequestScan>)
    requires Ready(s.split)
    ensures r.Some? ==> Ready(r.value.split) && r.value.split == Feed(s.split, b).0
    ensures !Feed(s.split, b).1.Line? ==> r == Some(s.(split := Feed(s.split, b).0))
    ensures r.None? <==>
      var e := Feed(s.split, b).1;
      && e.Line? && e.newBlock && FirstWord(e.text).Some? && IsMethod(FirstWord(e.text).value)
      && SecondField(e.text, FirstWord(e.text).value).None?
    ensures r.Some? && s.store ==> r.value.store
  {
    var (split, e) := Feed(s.split, b);
    var s' := s.(split := split);
    match e
    case Line(text, newBlock) => OnRequestLine(report, s', text, newBlock)
    case _ => Some(s')
  }

  /** Feeds a payload, stopping at the first failure. */
  function ScanRequest(report: Report, s: RequestScan, data: seq<byte>): (r: Option<RequestScan>)
    requires Ready(s.split)
    ensures r.Some? ==> Ready(r.value.split)
  {
    FeedRequest(report, s, data)
  }

  /** The fold behind `ScanRequest`: an empty payload changes nothing, a
      non-empty one is its last byte fed after the others. */
  function FeedRequest(report: Report, s: RequestScan, data: seq<byte>): (r: Option<RequestScan>)
    requires Ready(s.split)
    ensures r.Some? ==> Ready(r.value.split)
    decreases |data|, 1
  {
    if data == [] then Some(s) else FeedLastRequestByte(report, s, data)
  }

  function FeedLastRequestByte(report: Report, s: RequestScan, data: seq<byte>): (r: Option<RequestScan>)
    requires Ready(s.split) && data != []
    ensures r.Some? ==> Ready(r.value.split)
    decreases |data|, 0
  {
    match FeedRequest(report, s, data[..|data| - 1])
    case None => None
    case Some(s') => RequestStep(report, s', data[|data| - 1])
  }

  /** The request a segment carries: `None` when parsing fails (which
      aborts the report), `Some(None)` when nothing is to be filed. */
  function ParseRequest(report: Report, seg: Segment): (r: Option<Option<Request>>)
    ensures r.Some? && r.value.Some? ==>
      r.value.value.captureTime == seg.captureTime && r.value.value.microOffset == seg.microOffset
  {
    match ScanRequest(report, StartRequest, seg.data)
    case None => None
    case Some(s) =>
      Some(if s.store then Some(Request(s.url, s.host, seg.captureTime, seg.microOffset)) else None)
  }

  /** The number a response to this segment acknowledges. */
  function RequestKey(seg: Segment): int
  {
    seg.sequenceNumber + |seg.data|
  }

  /** Files the requests of a flow's upstream segments, in order, into the
      shared table; a later request under the same key replaces an earlier
      one. */
  function FileRequests(report: Report, table: map<int, Request>, segs: seq<Segment>): (r: Option<map<int, Request>>)
    ensures r.Some? ==> table.Keys <= r.value.Keys
    ensures r.Some? ==> forall k :: k in r.value && (k !in table || r.value[k] != table[k]) ==>
      FiledBy(report, segs, k, r.value[k])
    ensures r.Some? ==> forall k, req :: FiledBy(report, segs, k, req) ==> k in r.value
  {
    if segs == [] then Some(table)
    else
      match FileRequests(report, table, segs[..|segs| - 1])
      case None => None
      case Some(t) =>
        var seg := segs[|segs| - 1];
        FiledByLast(report, segs);
        match ParseRequest(report, seg)
        case None => None
        case Some(None) => Some(t)
        case Some(Some(req)) => Some(t[RequestKey(seg) := req])
  }

  /** What some of `segs` file is filed by all but the last of them or by
      the last. */
  lemma FiledByLast(report: Report, segs: seq<Segment>)
    requires segs != []
    ensures forall k, req :: FiledBy(report, segs, k, req) ==>
      || FiledBy(report, segs[..|segs| - 1], k, req)
      || (RequestKey(segs[|segs| - 1]) == k && ParseRequest(report, segs[|segs| - 1]) == Some(Some(req)))
    ensures forall k, req :: FiledBy(report, segs[..|segs| - 1], k, req) ==> FiledBy(report, segs, k, req)
  {
    var front := segs[..|segs| - 1];
    forall k, req | FiledBy(report, segs, k, req)
      ensures || FiledBy(report, front, k, req)
              || (RequestKey(segs[|segs| - 1]) == k && ParseRequest(report, segs[|segs| - 1]) == Some(Some(req)))
    {
      var j :| 0 <= j < |segs| && RequestKey(segs[j]) == k && ParseRequest(report, segs[j]) == Some(Some(req));
      if j < |front| {
        assert front[j] == segs[j];
      }
    }
    forall k, req | FiledBy(report, front, k, req)
      ensures FiledBy(report, segs, k, req)
    {
      var j :| 0 <= j < |front| && RequestKey(front[j]) == k && ParseRequest(report, front[j]) == Some(Some(req));
      assert segs[j] == front[j];
    }
  }

  /** `req` is what one of `segs` files under `key`. */
  ghost predicate FiledBy(report: Report, segs: seq<Segment>, key: int, req: Request)
  {
    exists j :: 0 <= j < |segs| && RequestKey(segs[j]) == key && ParseRequest(report, segs[j]) == Some(Some(req))
  }

  /** `req` is what an upstream segment of one of the listed flows files
      under `key`. */
  ghost predicate Filed(report: Report, t: FlowTable, order: seq<ConnTuple>, key: int, req: Request)
    requires Valid(t)
    requires forall k :: k in order ==> k in t.keys
  {
    exists i :: 0 <= i < |order| && FiledBy(report, t.flows[t.keys[order[i]]].upstreamPackets, key, req)
  }

  /** Files the requests of every table entry, entries in the given order
      (the source walks its hash table). An entry whose flow is also filed
      under the reverse key is walked twice. */
  function RequestTable(report: Report, t: FlowTable, order: seq<ConnTuple>): (r: Option<map<int, Request>>)
    requires Valid(t)
    requires forall k :: k in order ==> k in t.keys
    ensures r.Some? ==> forall key, req :: Filed(report, t, order, key, req) ==> key in r.value
  {
    if order == [] then Some(map[])
    else
      match RequestTable(report, t, order[..|order| - 1])
      case None => None
      case Some(table) =>
        FiledSplit(report, t, order);
        FileRequests(report, table, t.flows[t.keys[order[|order| - 1]]].upstreamPackets)
  }

  /** What the upstream segments of some walked flows file is filed by the
      flows walked before the last, or by the last. */
  lemma FiledSplit(report: Report, t: FlowTable, order: seq<ConnTuple>)
    requires Valid(t) && order != []
    requires forall k :: k in order ==> k in t.keys
    ensures forall key, req :: Filed(report, t, order, key, req) ==>
      || Filed(report, t, order[..|order| - 1], key, req)
      || FiledBy(report, t.flows[t.keys[order[|order| - 1]]].upstreamPackets, key, req)
  {
    var front := order[..|order| - 1];
    forall key, req | Filed(report, t, order, key, req)
      ensures || Filed(report, t, front, key, req)
              || FiledBy(report, t.flows[t.keys[order[|order| - 1]]].upstreamPackets, key, req)
    {
      var i :| 0 <= i < |order| && FiledBy(report, t.flows[t.keys[order[i]]].upstreamPackets, key, req);
      if i < |front| {
        assert front[i] == order[i];
      }
    }
  }

  lemma FiledFront(report: Report, t: FlowTable, order: seq<ConnTuple>, key: int, req: Request)
    requires Valid(t) && order != []
    requires forall k :: k in order ==> k in t.keys
    ensures Filed(report, t, order[..|order| - 1], key, req) ==> Filed(report, t, order, key, req)
    ensures FiledBy(report, t.flows[t.keys[order[|order| - 1]]].upstreamPackets, key, req) ==> Filed(report, t, order, key, req)
  {
    var front := order[..|order| - 1];
    if Filed(report, t, front, key, req) {
      var i :| 0 <= i < |front| && FiledBy(report, t.flows[t.keys[front[i]]].upstreamPackets, key, req);
      assert order[i] == front[i];
    }
  }

  /** Every request in the table is one that an upstream segment of a
      walked flow filed under its key. */
  lemma {:induction false} RequestTableFiled(report: Report, t: FlowTable, order: seq<ConnTuple>)
    requires Valid(t)
    requires forall k :: k in order ==> k in t.keys
    ensures var r := RequestTable(report, t, order);
      r.Some? ==> forall key :: key in r.value ==> Filed(report, t, order, key, r.value[key])
  {
    var r := RequestTable(report, t, order);
    if order != [] && r.Some? {
      var front := order[..|order| - 1];
      assert forall k :: k in front ==> k in order;
      RequestTableFiled(report, t, front);
      assert RequestTable(report, t, front).Some?;
      var table := RequestTable(report, t, front).value;
      forall key | key in r.value
        ensures Filed(report, t, order, key, r.value[key])
      {
        FiledFront(report, t, order, key, r.value[key]);
      }
    }
  }

  // ---------------------------------------------------------------- round trip

  /** A request head: the request line, a `Host:` header, and the blank line
      that ends the head. */
  function RequestHead(verb: seq<byte>, url: seq<byte>, version: seq<byte>, host: seq<byte>): seq<byte>
  {
    Join([verb + [SP] + url + [SP] + version, HOST + [SP] + host, []])
  }

  /** Feeding one more byte is one more step. */
  lemma ScanRequestSnoc(report: Report, s: RequestScan, data: seq<byte>, b: byte)
    requires Ready(s.split)
    ensures ScanRequest(report, s, data + [b]) ==
      match ScanRequest(report, s, data)
      case None => None
      case Some(s') => RequestStep(report, s', b)
  {
    var x := data + [b];
    assert x[..|x| - 1] == data;
    assert FeedRequest(report, s, x) == FeedLastRequestByte(report, s, x);
  }

  lemma ScanRequestEmpty(report: Report, s: RequestScan)
    requires Ready(s.split)
    ensures ScanRequest(report, s, []) == Some(s)
  {
    assert FeedRequest(report, s, []) == Some(s);
  }

  lemma {:induction false} ScanRequestConcat(report: Report, s: RequestScan, a: seq<byte>, b: seq<byte>)
    requires Ready(s.split)
    ensures ScanRequest(report, s, a + b) ==
      match ScanRequest(report, s, a)
      case None => None
      case Some(s') => ScanRequest(report, s', b)
    decreases |b|
  {
    if b == [] {
      assert a + b == a;
      if ScanRequest(report, s, a).Some? {
        ScanRequestEmpty(report, ScanRequest(report, s, a).value);
      }
    } else {
      var b' := b[..|b| - 1];
      var last := b[|b| - 1];
      assert a + b == (a + b') + [last];
      assert b == b' + [last];
      ScanRequestConcat(report, s, a, b');
      ScanRequestSnoc(report, s, a + b', last);
      if ScanRequest(report, s, a).Some? {
        ScanRequestSnoc(report, ScanRequest(report, s, a).value, b', last);
      }
    }
  }

  /** Bytes that end no line change nothing but the splitter. */
  lemma {:induction false} ScanRequestQuiet(report: Report, s: RequestScan, data: seq<byte>)
    requires Ready(s.split) && FeedAll(s.split, data).1 == []
    ensures ScanRequest(report, s, data) == Some(s.(split := FeedAll(s.split, data).0))
  {
    if data == [] {
      ScanRequestEmpty(report, s);
    } else {
      var front := data[..|data| - 1];
      assert data == front + [data[|data| - 1]];
      ScanRequestQuiet(report, s, front);
      ScanRequestSnoc(report, s, front, data[|data| - 1]);
    }
  }

  /** One line and its terminator, fed after a line end. */
  lemma ScanRequestLine(report: Report, s: RequestScan, line: seq<byte>)
    requires Ready(s.split) && s.split.line == [] && NoCr(line)
    ensures ScanRequest(report, s, line + [CR, LF]) ==
      if line == [] then Some(s.(split := Splitter([], LF, true)))
      else OnRequestLine(report, s.(split := Splitter([], LF, false)), line + [CR, LF], s.split.newBlock)
  {
    FeedLineCr(s.split, line);
    ScanRequestQuiet(report, s, line + [CR]);
    assert line + [CR] + [LF] == line + [CR, LF];
    ScanRequestSnoc(report, s, line + [CR], LF);
    if line == [] {
      assert line + [CR] == [CR];
    } else {
      assert |line + [CR]| > 1;
    }
  }

  /** `IndexOf` finds the first occurrence at or after its start. */
  lemma IndexOfAt(s: seq<byte>, c: byte, from: nat, p: nat)
    requires from <= p < |s| && s[p] == c
    requires forall k :: from <= k < p ==> s[k] != c
    ensures IndexOf(s, c, from) == p
  {}

  /** The request line yields its verb as first word and its URL as
      second field. */
  lemma RequestLineFields(verb: seq<byte>, url: seq<byte>, version: seq<byte>)
    requires |verb| > 0 && SP !in verb && |url| > 0 && SP !in url
    ensures var text := verb + [SP] + url + [SP] + version + [CR, LF];
      && FirstWord(text) == Some(verb)
      && SecondField(text, verb) == Some(url)
  {
    var text := verb + [SP] + url + [SP] + version + [CR, LF];
    IndexOfAt(text, SP, 0, |verb|);
    IndexOfAt(text, SP, |verb| + 2, |verb| + 1 + |url|);
    assert text[..|verb|] == verb;
    assert text[|verb| + 1..|verb| + 1 + |url|] == url;
  }

  /** A header line yields its name as first word and the rest as value. */
  lemma HeaderLineFields(name: seq<byte>, value: seq<byte>)
    requires |name| > 0 && SP !in name
    ensures var text := name + [SP] + value + [CR, LF];
      && FirstWord(text) == Some(name)
      && HeaderValue(text, name) == value
  {
    var text := name + [SP] + value + [CR, LF];
    IndexOfAt(text, SP, 0, |name|);
    assert text[..|name|] == name;
    assert text[|name| + 1..|text| - 2] == value;
  }

  /** Parsing a request head recovers its URL and host: a segment carrying
      a head whose method is a request method and whose URL is non-empty
      and free of spaces is filed exactly when the report keeps its URL. */
  lemma ParseRequestHead(report: Report, verb: seq<byte>, url: seq<byte>, version: seq<byte>,
                         host: seq<byte>, seg: Segment)
    requires IsMethod(verb) && SP !in verb && NoCr(verb)
    requires |url| > 0 && SP !in url && NoCr(url) && NoCr(version) && NoCr(host)
    requires seg.data == RequestHead(verb, url, version, host)
    ensures ParseRequest(report, seg) ==
      Some(if Keeps(report, url) then Some(Request(url, host, seg.captureTime, seg.microOffset)) else None)
  {
    var l1 := verb + [SP] + url + [SP] + version;
    var l2 := HOST + [SP] + host;
    assert NoCr(l1) && NoCr(l2);
    assert RequestHead(verb, url, version, host) == (l1 + [CR, LF]) + (l2 + [CR, LF]) + ([] + [CR, LF]) by {
      assert [l1, l2, []][..2] == [l1, l2];
      assert [l1, l2][..1] == [l1];
      assert [l1][..0] == [];
      assert Join([l1]) == l1 + [CR, LF];
      assert Join([l1, l2]) == (l1 + [CR, LF]) + (l2 + [CR, LF]);
    }
    RequestLineFields(verb, url, version);
    HeaderLineFields(HOST, host);
    var s0 := StartRequest;
    ScanRequestLine(report, s0, l1);
    var s1 := s0.(split := Splitter([], LF, false), url := url, store := Keeps(report, url));
    assert ScanRequest(report, s0, l1 + [CR, LF]) == Some(s1);
    ScanRequestLine(report, s1, l2);
    var s2 := s1.(host := host);
    assert ScanRequest(report, s1, l2 + [CR, LF]) == Some(s2);
    ScanRequestLine(report, s2, []);
    ScanRequestConcat(report, s0, l1 + [CR, LF], l2 + [CR, LF]);
    ScanRequestConcat(report, s0, (l1 + [CR, LF]) + (l2 + [CR, LF]), [] + [CR, LF]);
  }
}

=== FILE: responses.dfy ===
/** The response half of the HTTP reports. Each downstream segment's payload
    is scanned line by line: a status line marks the segment as a response
    to be filed under its acknowledgement number, with the body length taken
    from `Content-Length:` or, for chunked transfer, from the sum of the
    chunk sizes. Chunk sizes are followed across segments by a byte
    countdown kept per flow. The image report also captures the bytes of a
    fixed-length body, starting at the first line end of a block after the
    header that announced its length. */
module Responses {
  import opened Base
  import opened Text
  import opened Lines
  import opened Decoder
  import opened Flows
  import opened Requests

  /** A filed response: status code, body length, and (image report only)
      the captured body. */
  datatype Response = Response(code: int, bodyLength: int, data: seq<byte>)

  /** Chunked-transfer state of a flow: the running total of chunk sizes,
      the countdown through the current chunk, whether a chunked body is
      being followed, and the number its response is filed under. */
  datatype Chunk = Chunk(length: int, counter: int, active: bool, key: int)

  const NoChunk := Chunk(0, 0, false, 0)

  /** Fixed-length body capture of a flow (image report): waiting for the
      header to end, capturing, the key and code to file under, the bytes
      counted against the announced length, and the bytes captured. */
  datatype Content = Content(headerEndWait: bool, active: bool, key: int, counter: int,
                             length: int, code: int, data: seq<byte>)

  const NoContent := Content(false, false, 0, 0, 0, 0, [])

  /** What the parser keeps across the segments of a flow, and the response
      table shared by all flows. */
  datatype Parser = Parser(chunk: Chunk, content: Content, table: map<int, Response>)

  /** What the parser keeps within one segment: the line splitter, whether
      a status line was seen, whether the header announced chunked transfer,
      the announced length, and the status code. */
  datatype Head = Head(split: Splitter, store: bool, chunked: bool, contentLength: int, code: int)

  const StartHead := Head(Start, false, false, 0, 0)

  datatype PacketScan = PacketScan(parser: Parser, head: Head)

  /** `HTTP/1.1` */
  const HTTP_1_1: seq<byte> := [72, 84, 84, 80, 47, 49, 46, 49]

  /** `Content-Length:` */
  const CONTENT_LENGTH: seq<byte> := [67, 111, 110, 116, 101, 110, 116, 45, 76, 101, 110, 103, 116, 104, 58]

  /** `Transfer-Encoding:` */
  const TRANSFER_ENCODING: seq<byte> := [84, 114, 97, 110, 115, 102, 101, 114, 45, 69, 110, 99, 111, 100, 105, 110, 103, 58]

  /** `chunked` */
  const CHUNKED: seq<byte> := [99, 104, 117, 110, 107, 101, 100]

  /** What a zero-size chunk does to a response that was never filed: the
      source dereferences the missing entry and aborts (`AsWritten`); the
      evidently intended behaviour updates the entry only when present. */
  datatype Finalisation = AsWritten | IfPresent

  /** The body length a chunk total gives a filed response. */
  function Finalise(fin: Finalisation, table: map<int, Response>, key: int, length: int): (r: Option<map<int, Response>>)
    ensures r.None? <==> fin == AsWritten && key !in table
    ensures r.Some? ==> r.value.Keys == table.Keys
    ensures r.Some? ==> forall k :: k in table ==>
      r.value[k] == if k == key then table[k].(bodyLength := length) else table[k]
  {
    if key in table then Some(table[key := table[key].(bodyLength := length)])
    else if fin == AsWritten then None
    else Some(table)
  }

  /** Counts one byte of a body being captured; the byte that reaches the
      announced length files the body and resets the capture. */
  function CaptureByte(p: Parser, b: byte): (r: Parser)
    requires p.content.active
    ensures r.chunk == p.chunk
    ensures r.content.key == p.content.key && !r.content.headerEndWait == !p.content.headerEndWait
    ensures p.content.counter + 1 < p.content.length ==>
      && r.content.active && r.table == p.table
      && r.content.data == p.content.data + [b] && r.content.counter == p.content.counter + 1
    ensures p.content.counter + 1 >= p.content.length ==>
      && r.content == p.content.(active := false, counter := 0, length := 0, code := 0, data := [])
      && r.table == p.table[p.content.key := Response(p.content.code, p.content.length, p.content.data + [b])]
  {
    var c := p.content;
    var data := c.data + [b];
    if c.counter + 1 >= c.length then
      p.(content := c.(active := false, counter := 0, length := 0, code := 0, data := []),
         table := p.table[c.key := Response(c.code, c.length, data)])
    else
      p.(content := c.(counter := c.counter + 1, data := data))
  }

  /** The chunk-size line: the line without its terminator, in hex. */
  function ChunkSize(text: seq<byte>): Option<int>
    requires IsLine(text)
  {
    ParseHexLong(text[..|text| - 2])
  }

  /** A line ending while a chunk's bytes and their terminator have been
      counted down is the next chunk-size line; size zero ends the body and
      gives the filed response its total. */
  function OnChunkLine(fin: Finalisation, p: Parser, text: seq<byte>): (r: Option<Parser>)
    requires IsLine(text)
    ensures !(p.chunk.active && p.chunk.counter < -2) ==> r == Some(p)
    ensures r.Some? ==> r.value.content == p.content && r.value.chunk.key == p.chunk.key
    ensures p.chunk.active && p.chunk.counter < -2 ==>
      (r.None? <==> ChunkSize(text).None? || (ChunkSize(text) == Some(0) && fin == AsWritten && p.chunk.key !in p.table))
    ensures p.chunk.active && p.chunk.counter < -2 && r.Some? ==>
      var v := ChunkSize(text).value;
      && r.value.chunk.counter == v && r.value.chunk.length == Int64(p.chunk.length + v)
      && (r.value.chunk.active <==> v != 0)
      && r.value.table == (if v == 0 then Finalise(fin, p.table, p.chunk.key, r.value.chunk.length).value else p.table)
  {
    if !(p.chunk.active && p.chunk.counter < -2) then Some(p)
    else
      match ChunkSize(text)
      case None => None
      case Some(v) =>
        var length := Int64(p.chunk.length + v);
        if v != 0 then Some(p.(chunk := p.chunk.(counter := v, length := length, active := true)))
        else
          match Finalise(fin, p.table, p.chunk.key, length)
          case None => None
          case Some(table) => Some(Parser(p.chunk.(counter := v, length := length, active := false), p.content, table))
  }

  /** The header lines of a segment: a status line (`HTTP/1.1`, ignoring
      case) gives the code and marks the segment for filing;
      `Content-Length:` gives the length (and, in the image report, arms the
      body capture); `Transfer-Encoding: chunked` marks chunked transfer;
      the first line of a block without a space in a chunked segment starts
      a chunked body with its first size. */
  function OnHeaderLine(report: Report, ack: int, p: Parser, h: Head, text: seq<byte>, newBlock: bool): (r: Option<PacketScan>)
    requires IsLine(text)
    ensures r.Some? ==> r.value.head.split == h.split && r.value.parser.table == p.table
    ensures r.Some? ==> r.value.parser.content.active == p.content.active
    ensures r.Some? ==> r.value.parser.content.key in {p.content.key, ack}
  {
    match FirstWord(text)
    case Some(w) =>
      if EqualsIgnoreCase(w, HTTP_1_1) then
        match SecondField(text, w)
        case None => None
        case Some(field) =>
          match ParseDecimalInt(field)
          case None => None
          case Some(code) => Some(PacketScan(p, h.(code := code, store := true)))
      else if EqualsIgnoreCase(w, CONTENT_LENGTH) then
        match ParseDecimalLong(HeaderValue(text, w))
        case None => None
        case Some(n) =>
          var p' := if report == ImageExtract
                    then p.(content := p.content.(headerEndWait := true, length := n, key := ack, code := h.code))
                    else p;
          Some(PacketScan(p', h.(contentLength := n)))
      else if EqualsIgnoreCase(w, TRANSFER_ENCODING) then
        Some(PacketScan(p, if HeaderValue(text, w) == CHUNKED then h.(chunked := true) else h))
      else Some(PacketScan(p, h))
    case None =>
      if newBlock && h.chunked then
        match ChunkSize(text)
        case None => None
        case Some(v) => Some(PacketScan(p.(chunk := Chunk(v, v, true, ack)), h))
      else Some(PacketScan(p, h))
  }

  /** A complete line: in the image report, the first line end of a block
      after an announced length starts the capture (filed under this
      segment's acknowledgement number); then the chunk countdown, then the
      header lines. */
  function OnResponseLine(report: Report, fin: Finalisation, ack: int, s: PacketScan, text: seq<byte>, newBlock: bool): (r: Option<PacketScan>)
    requires IsLine(text)
    ensures r.Some? ==> r.value.head.split == s.head.split
  {
    var p := if report == ImageExtract && s.parser.content.headerEndWait && newBlock
             then s.parser.(content := s.parser.content.(active := true, data := [], key := ack, headerEndWait := false))
             else s.parser;
    match OnChunkLine(fin, p, text)
    case None => None
    case Some(p') => OnHeaderLine(report, ack, p', s.head, text, newBlock)
  }

  /** A handled line files nothing new except, on a zero-size chunk, the
      body length of an entry already present; a capture it starts is keyed
      by the segment. */
  lemma OnResponseLineFiled(report: Report, fin: Finalisation, ack: int, s: PacketScan, text: seq<byte>, newBlock: bool)
    requires IsLine(text)
    ensures var r := OnResponseLine(report, fin, ack, s, text, newBlock);
      r.Some? ==> FiledWithin(s.parser, {ack}, r.value.parser)
  {
    var p := if report == ImageExtract && s.parser.content.headerEndWait && newBlock
             then s.parser.(content := s.parser.content.(active := true, data := [], key := ack, headerEndWait := false))
             else s.parser;
    assert FiledWithin(s.parser, {ack}, p);
    var c := OnChunkLine(fin, p, text);
    if c.Some? {
      assert c.value.table.Keys == p.table.Keys;
      assert FiledWithin(p, {}, c.value);
    }
  }

  /** Capturing a byte files, if anything, under the key of the capture
      under way. */
  lemma CaptureByteFiled(report: Report, p: Parser, b: byte, ack: int)
    ensures FiledWithin(p, {ack}, if report == ImageExtract && p.content.active then CaptureByte(p, b) else p)
  {}

  /** Counts one byte of the current chunk. */
  function CountDown(s: PacketScan): (r: PacketScan)
    ensures r.head == s.head && r.parser.table == s.parser.table && r.parser.content == s.parser.content
    ensures var c, c' := s.parser.chunk, r.parser.chunk;
      && c'.length == c.length && c'.key == c.key && c'.active == c.active
      && c'.counter == if c.active then Int64(c.counter - 1) else c.counter
  {
    if s.parser.chunk.active
    then s.(parser := s.parser.(chunk := s.parser.chunk.(counter := Int64(s.parser.chunk.counter - 1))))
    else s
  }

  /** Feeds one payload byte: the body capture sees it first, then the line
      splitter, then the chunk countdown. */
  function ResponseStep(report: Report, fin: Finalisation, ack: int, s: PacketScan, b: byte): (r: Option<PacketScan>)
    requires Ready(s.head.split)
    ensures r.Some? ==> Ready(r.value.head.split) && r.value.head.split == Feed(s.head.split, b).0
    ensures !Feed(s.head.split, b).1.Line? ==> r.Some?
    ensures r.Some? ==> FiledWithin(s.parser, {ack}, r.value.parser)
  {
    var p := if report == ImageExtract && s.parser.content.active then CaptureByte(s.parser, b) else s.parser;
    CaptureByteFiled(report, s.parser, b, ack);
    var (split, e) := Feed(s.head.split, b);
    var s' := PacketScan(p, s.head.(split := split));
    var r := if e.Line? then OnResponseLineFiled(report, fin, ack, s', e.text, e.newBlock); OnResponseLine(report, fin, ack, s', e.text, e.newBlock)
             else Some(s');
    match r
    case None => None
    case Some(t) =>
      FiledWithinTransitive(s.parser, {ack}, p, {ack}, t.parser);
      assert {ack} + {ack} == {ack};
      Some(CountDown(t))
  }

  /** Feeds a payload, stopping at the first failure. */
  function ScanResponse(report: Report, fin: Finalisation, ack: int, s: PacketScan, data: seq<byte>): (r: Option<PacketScan>)
    requires Ready(s.head.split)
    ensures r.Some? ==> Ready(r.value.head.split)
  {
    FeedResponse(report, fin, ack, s, data)
  }

  /** The fold behind `ScanResponse`: an empty payload changes nothing,
      a non-empty one is its last byte fed after the others. */
  function FeedResponse(report: Report, fin: Finalisation, ack: int, s: PacketScan, data: seq<byte>): (r: Option<PacketScan>)
    requires Ready(s.head.split)
    ensures r.Some? ==> Ready(r.value.head.split)
    decreases |data|, 1
  {
    if data == [] then Some(s) else FeedLastResponseByte(report, fin, ack, s, data)
  }

  function FeedLastResponseByte(report: Report, fin: Finalisation, ack: int, s: PacketScan, data: seq<byte>): (r: Option<PacketScan>)
    requires Ready(s.head.split) && data != []
    ensures r.Some? ==> Ready(r.value.head.split)
    decreases |data|, 0
  {
    match FeedResponse(report, fin, ack, s, data[..|data| - 1])
    case None => None
    case Some(s') => ResponseStep(report, fin, ack, s', data[|data| - 1])
  }

  /** `p` keeps every key of `p0`'s table and adds only keys in `acks` or
      the key of a capture under way in `p0`; a capture under way in `p`
      is to be filed under such a key too. */
  predicate FiledWithin(p0: Parser, acks: set<int>, p: Parser)
  {
    && p0.table.Keys <= p.table.Keys
    && (forall k :: k in p.table ==> k in p0.table || k in acks || (p0.content.active && k == p0.content.key))
    && (p.content.active ==> p.content.key in acks || (p0.content.active && p.content.key == p0.content.key))
  }

  lemma FiledWithinTransitive(p0: Parser, a: set<int>, p1: Parser, b: set<int>, p2: Parser)
    requires FiledWithin(p0, a, p1) && FiledWithin(p1, b, p2)
    ensures FiledWithin(p0, a + b, p2)
  {}

  /** A payload files only under the segment's acknowledgement number or
      the key of a capture already under way, and removes no entry. */
  lemma {:induction false} ScanResponseFiled(report: Report, fin: Finalisation, ack: int, s: PacketScan, data: seq<byte>)
    requires Ready(s.head.split)
    ensures var r := ScanResponse(report, fin, ack, s, data);
      r.Some? ==> FiledWithin(s.parser, {ack}, r.value.parser)
  {
    if data == [] {
      ScanResponseEmpty(report, fin, ack, s);
    } else {
      var front := data[..|data| - 1];
      assert data == front + [data[|data| - 1]];
      ScanResponseFiled(report, fin, ack, s, front);
      ScanResponseSnoc(report, fin, ack, s, front, data[|data| - 1]);
      var r := ScanResponse(report, fin, ack, s, data);
      if r.Some? {
        var mid := ScanResponse(report, fin, ack, s, front).value;
        FiledWithinTransitive(s.parser, {ack}, mid.parser, {ack}, r.value.parser);
        assert {ack} + {ack} == {ack};
      }
    }
  }

  /** The response a segment with a status line files under its
      acknowledgement number: its code, and the chunk total or the announced
      length. */
  function Filing(p: Parser, h: Head): Response
  {
    Response(h.code, if h.chunked then p.chunk.length else h.contentLength, [])
  }

  /** Scans one segment and files its response: a segment with a status
      line is filed under its acknowledgement number with the status code
      and, if it announced chunked transfer, the flow's chunk total, else
      its announced length; every other entry is as the scan left it. */
  function ScanSegment(report: Report, fin: Finalisation, p: Parser, seg: Segment): (r: Option<Parser>)
    ensures r.Some? ==> FiledWithin(p, {seg.acknowledgementNumber}, r.value)
    ensures var s := ScanResponse(report, fin, seg.acknowledgementNumber, PacketScan(p, StartHead), seg.data);
      (r.Some? <==> s.Some?) && (s.Some? && s.value.head.store ==> seg.acknowledgementNumber in r.value.table)
    ensures var ack, s := seg.acknowledgementNumber, ScanResponse(report, fin, seg.acknowledgementNumber, PacketScan(p, StartHead), seg.data);
      s.Some? && s.value.head.store ==>
        var h, q := s.value.head, s.value.parser;
        && r.value.table[ack].code == h.code
        && r.value.table[ack].bodyLength == (if h.chunked then q.chunk.length else h.contentLength)
        && r.value.table[ack].data == []
        && r.value.chunk == q.chunk && r.value.content == q.content
        && r.value.table.Keys == q.table.Keys + {ack}
        && forall k :: k in q.table && k != ack ==> r.value.table[k] == q.table[k]
    ensures var s := ScanResponse(report, fin, seg.acknowledgementNumber, PacketScan(p, StartHead), seg.data);
      s.Some? && !s.value.head.store ==> r == Some(s.value.parser)
  {
    var ack := seg.acknowledgementNumber;
    ScanResponseFiled(report, fin, ack, PacketScan(p, StartHead), seg.data);
    match ScanResponse(report, fin, ack, PacketScan(p, StartHead), seg.data)
    case None => None
    case Some(s) =>
      Some(if s.head.store then s.parser.(table := s.parser.table[ack := Filing(s.parser, s.head)]) else s.parser)
  }

  /** The acknowledgement numbers of some segments. */
  function Acks(segs: seq<Segment>): (r: set<int>)
    ensures forall j :: 0 <= j < |segs| ==> segs[j].acknowledgementNumber in r
    ensures forall k :: k in r ==> exists j :: 0 <= j < |segs| && segs[j].acknowledgementNumber == k
  {
    set j | 0 <= j < |segs| :: segs[j].acknowledgementNumber
  }

  lemma AcksFront(segs: seq<Segment>)
    requires segs != []
    ensures Acks(segs[..|segs| - 1]) + {segs[|segs| - 1].acknowledgementNumber} == Acks(segs)
  {
    var front := segs[..|segs| - 1];
    assert forall j :: 0 <= j < |front| ==> front[j] == segs[j];
  }

  /** Scans a flow's downstream segments in order. The table keeps its
      entries and gains only entries under the segments' acknowledgement
      numbers or the key of a capture under way at the start. */
  function ScanSegments(report: Report, fin: Finalisation, p: Parser, segs: seq<Segment>): (r: Option<Parser>)
    ensures r.Some? ==> FiledWithin(p, Acks(segs), r.value)
  {
    if segs == [] then Some(p)
    else
      match ScanSegments(report, fin, p, segs[..|segs| - 1])
      case None => None
      case Some(p') =>
        var r := ScanSegment(report, fin, p', segs[|segs| - 1]);
        AcksFront(segs);
        if r.Some? then
          FiledWithinTransitive(p, Acks(segs[..|segs| - 1]), p', {segs[|segs| - 1].acknowledgementNumber}, r.value);
          r
        else r
  }

  /** Files the responses of one flow into the shared table; the chunk and
      capture state start afresh for each flow. Entries already filed stay,
      and new ones are filed under the acknowledgement number of one of the
      flow's segments. */
  function FileResponses(report: Report, fin: Finalisation, table: map<int, Response>, segs: seq<Segment>): (r: Option<map<int, Response>>)
    ensures r.Some? ==> table.Keys <= r.value.Keys
    ensures r.Some? ==> forall k :: k in r.value ==> k in table || k in Acks(segs)
  {
    match ScanSegments(report, fin, Parser(NoChunk, NoContent, table), segs)
    case None => None
    case Some(p) => Some(p.table)
  }

  /** `key` is the acknowledgement number of a downstream segment of one of
      the listed flows. */
  ghost predicate Acknowledged(t: FlowTable, order: seq<ConnTuple>, key: int)
    requires Valid(t)
    requires forall k :: k in order ==> k in t.keys
  {
    exists i :: 0 <= i < |order| && key in Acks(t.flows[t.keys[order[i]]].downstreamPackets)
  }

  /** Files the responses of every table entry, entries in the given order;
      every response is filed under the acknowledgement number of a
      downstream segment of a walked flow. */
  function ResponseTable(report: Report, fin: Finalisation, t: FlowTable, order: seq<ConnTuple>): (r: Option<map<int, Response>>)
    requires Valid(t)
    requires forall k :: k in order ==> k in t.keys
    ensures r.Some? ==> forall key :: key in r.value ==> Acknowledged(t, order, key)
  {
    if order == [] then Some(map[])
    else
      match ResponseTable(report, fin, t, order[..|order| - 1])
      case None => None
      case Some(table) =>
        AcknowledgedGrow(t, order);
        FileResponses(report, fin, table, t.flows[t.keys[order[|order| - 1]]].downstreamPackets)
  }

  /** A key acknowledged by the flows walked before the last, or by the
      last, is acknowledged by the walk. */
  lemma AcknowledgedGrow(t: FlowTable, order: seq<ConnTuple>)
    requires Valid(t) && order != []
    requires forall k :: k in order ==> k in t.keys
    ensures forall key :: Acknowledged(t, order[..|order| - 1], key) || key in Acks(t.flows[t.keys[order[|order| - 1]]].downstreamPackets) ==>
      Acknowledged(t, order, key)
  {
    forall key | Acknowledged(t, order[..|order| - 1], key) || key in Acks(t.flows[t.keys[order[|order| - 1]]].downstreamPackets)
      ensures Acknowledged(t, order, key)
    {
      AcknowledgedFront(t, order, key);
    }
  }

  lemma AcknowledgedFront(t: FlowTable, order: seq<ConnTuple>, key: int)
    requires Valid(t) && order != []
    requires forall k :: k in order ==> k in t.keys
    ensures Acknowledged(t, order[..|order| - 1], key) ==> Acknowledged(t, order, key)
    ensures key in Acks(t.flows[t.keys[order[|order| - 1]]].downstreamPackets) ==> Acknowledged(t, order, key)
  {
    var front := order[..|order| - 1];
    if Acknowledged(t, front, key) {
      var i :| 0 <= i < |front| && key in Acks(t.flows[t.keys[front[i]]].downstreamPackets);
      assert order[i] == front[i];
    }
  }

  /** Every response in the table is filed under the acknowledgement number
      of a downstream segment of a walked flow, and the table of fewer
      flows is part of it. */
  lemma {:induction false} ResponseTableFiled(report: Report, fin: Finalisation, t: FlowTable, order: seq<ConnTuple>)
    requires Valid(t)
    requires forall k :: k in order ==> k in t.keys
    ensures var r := ResponseTable(report, fin, t, order);
      r.Some? ==> forall key :: key in r.value ==> Acknowledged(t, order, key)
    ensures order != [] && ResponseTable(report, fin, t, order).Some? ==>
      && ResponseTable(report, fin, t, order[..|order| - 1]).Some?
      && ResponseTable(report, fin, t, order[..|order| - 1]).value.Keys <= ResponseTable(report, fin, t, order).value.Keys
  {
    var r := ResponseTable(report, fin, t, order);
    if order != [] && r.Some? {
      var front := order[..|order| - 1];
      assert forall k :: k in front ==> k in order;
      ResponseTableFiled(report, fin, t, front);
      var table := ResponseTable(report, fin, t, front).value;
      var segs := t.flows[t.keys[order[|order| - 1]]].downstreamPackets;
      assert r == FileResponses(report, fin, table, segs);
      forall key | key in r.value
        ensures Acknowledged(t, order, key)
      {
        AcknowledgedFront(t, order, key);
      }
    }
  }

  /** The scan of `seg` from parser `p` sees a status line, so the segment
      is filed under its acknowledgement number. */
  predicate Stores(report: Report, fin: Finalisation, p: Parser, seg: Segment)
  {
    var s := ScanResponse(report, fin, seg.acknowledgementNumber, PacketScan(p, StartHead), seg.data);
    s.Some? && s.value.head.store
  }

  /** A segment of a flow that is filed from the state the segments before
      it leave keeps its acknowledgement number as a key to the end of the
      flow. */
  lemma {:induction false} ScanSegmentsStored(report: Report, fin: Finalisation, p: Parser, segs: seq<Segment>, j: nat, q: Parser)
    requires j < |segs| && ScanSegments(report, fin, p, segs).Some?
    requires ScanSegments(report, fin, p, segs[..j]) == Some(q) && Stores(report, fin, q, segs[j])
    ensures segs[j].acknowledgementNumber in ScanSegments(report, fin, p, segs).value.table
    decreases |segs|
  {
    var front, last := segs[..|segs| - 1], segs[|segs| - 1];
    var p' := ScanSegments(report, fin, p, front).value;
    var r := ScanSegment(report, fin, p', last);
    assert ScanSegments(report, fin, p, segs) == r;
    if j < |front| {
      assert front[..j] == segs[..j];
      assert front[j] == segs[j];
      ScanSegmentsStored(report, fin, p, front, j, q);
      assert FiledWithin(p', {last.acknowledgementNumber}, r.value);
    } else {
      assert segs[..j] == front;
    }
  }

  /** The state segment `j` of the `i`-th walked flow is scanned from: the
      table the flows before it leave, and the chunk and capture state the
      flow's earlier segments leave. */
  ghost function ParserBefore(report: Report, fin: Finalisation, t: FlowTable, order: seq<ConnTuple>, i: nat, j: nat): Option<Parser>
    requires Valid(t)
    requires forall k :: k in order ==> k in t.keys
    requires i < |order| && j <= |t.flows[t.keys[order[i]]].downstreamPackets|
  {
    match ResponseTable(report, fin, t, order[..i])
    case None => None
    case Some(table) => ScanSegments(report, fin, Parser(NoChunk, NoContent, table), t.flows[t.keys[order[i]]].downstreamPackets[..j])
  }

  /** A flow whose scan does not abort does not abort on any of its first
      segments. */
  lemma {:induction false} ScanSegmentsPrefix(report: Report, fin: Finalisation, p: Parser, segs: seq<Segment>, j: nat)
    requires j <= |segs| && ScanSegments(report, fin, p, segs).Some?
    ensures ScanSegments(report, fin, p, segs[..j]).Some?
    decreases |segs|
  {
    if j < |segs| {
      var front := segs[..|segs| - 1];
      assert front[..j] == segs[..j];
      ScanSegmentsPrefix(report, fin, p, front, j);
    } else {
      assert segs[..j] == segs;
    }
  }

  /** When the response table is built, every segment of every walked flow
      is reached: the state it is scanned from exists. */
  lemma ParserBeforeDefined(report: Report, fin: Finalisation, t: FlowTable, order: seq<ConnTuple>, i: nat, j: nat)
    requires Valid(t)
    requires forall k :: k in order ==> k in t.keys
    requires i < |order| && j <= |t.flows[t.keys[order[i]]].downstreamPackets|
    requires ResponseTable(report, fin, t, order).Some?
    ensures ParserBefore(report, fin, t, order, i, j).Some?
  {
    var segs := t.flows[t.keys[order[i]]].downstreamPackets;
    var upto := order[..i + 1];
    assert forall k :: k in upto ==> k in order;
    ResponseTablePrefix(report, fin, t, order, i + 1);
    assert upto[..i] == order[..i];
    assert upto[i] == order[i];
    var table := ResponseTable(report, fin, t, order[..i]).value;
    assert ResponseTable(report, fin, t, upto) == FileResponses(report, fin, table, segs);
    ScanSegmentsPrefix(report, fin, Parser(NoChunk, NoContent, table), segs, j);
  }

  /** The table of the first `i` walked flows is part of the table of all. */
  lemma {:induction false} ResponseTablePrefix(report: Report, fin: Finalisation, t: FlowTable, order: seq<ConnTuple>, i: nat)
    requires Valid(t)
    requires forall k :: k in order ==> k in t.keys
    requires i <= |order| && ResponseTable(report, fin, t, order).Some?
    ensures ResponseTable(report, fin, t, order[..i]).Some?
    ensures ResponseTable(report, fin, t, order[..i]).value.Keys <= ResponseTable(report, fin, t, order).value.Keys
    decreases |order|
  {
    if i < |order| {
      var front := order[..|order| - 1];
      assert forall k :: k in front ==> k in order;
      ResponseTableFiled(report, fin, t, order);
      assert front[..i] == order[..i];
      ResponseTablePrefix(report, fin, t, front, i);
    } else {
      assert order[..i] == order;
    }
  }

  /** Every downstream segment of a walked flow whose scan sees a status
      line leaves its acknowledgement number as a key of the response
      table: the converse of `ResponseTable`'s contract. */
  lemma ResponseTableStored(report: Report, fin: Finalisation, t: FlowTable, order: seq<ConnTuple>, i: nat, j: nat, q: Parser)
    requires Valid(t)
    requires forall k :: k in order ==> k in t.keys
    requires i < |order| && j < |t.flows[t.keys[order[i]]].downstreamPackets|
    requires ResponseTable(report, fin, t, order).Some?
    requires ParserBefore(report, fin, t, order, i, j) == Some(q)
    requires Stores(report, fin, q, t.flows[t.keys[order[i]]].downstreamPackets[j])
    ensures t.flows[t.keys[order[i]]].downstreamPackets[j].acknowledgementNumber in ResponseTable(report, fin, t, order).value
  {
    var segs := t.flows[t.keys[order[i]]].downstreamPackets;
    var upto := order[..i + 1];
    assert forall k :: k in upto ==> k in order;
    ResponseTablePrefix(report, fin, t, order, i + 1);
    assert upto[..i] == order[..i];
    assert upto[i] == order[i];
    var table := ResponseTable(report, fin, t, order[..i]).value;
    var p := Parser(NoChunk, NoContent, table);
    assert ResponseTable(report, fin, t, upto) == FileResponses(report, fin, table, segs);
    ScanSegmentsStored(report, fin, p, segs, j, q);
  }

  // ---------------------------------------------------------------- scanning lines

  /** The state after `n` bytes that end no line: the splitter moved on and
      an active chunk counted down. */
  function Counted(s: PacketScan, split: Splitter, n: nat): PacketScan
  {
    var c := s.parser.chunk;
    PacketScan(s.parser.(chunk := if c.active then c.(counter := c.counter - n) else c), s.head.(split := split))
  }

  /** The chunk countdown stays within `long` for `n` more bytes. */
  predicate CountFits(s: PacketScan, n: nat)
  {
    s.parser.chunk.active ==> -TWO_TO_63 <= s.parser.chunk.counter - n && s.parser.chunk.counter < TWO_TO_63
  }

  /** Neither a body capture nor the wait for one is under way. */
  predicate NotCapturing(p: Parser)
  {
    !p.content.active && !p.content.headerEndWait
  }

  /** Feeding one more byte is one more step. */
  lemma ScanResponseSnoc(report: Report, fin: Finalisation, ack: int, s: PacketScan, data: seq<byte>, b: byte)
    requires Ready(s.head.split)
    ensures ScanResponse(report, fin, ack, s, data + [b]) ==
      match ScanResponse(report, fin, ack, s, data)
      case None => None
      case Some(s') => ResponseStep(report, fin, ack, s', b)
  {
    var x := data + [b];
    assert x[..|x| - 1] == data;
    assert FeedResponse(report, fin, ack, s, x) == FeedLastResponseByte(report, fin, ack, s, x);
  }

  lemma ScanResponseEmpty(report: Report, fin: Finalisation, ack: int, s: PacketScan)
    requires Ready(s.head.split)
    ensures ScanResponse(report, fin, ack, s, []) == Some(s)
  {
    assert FeedResponse(report, fin, ack, s, []) == Some(s);
  }

  lemma {:induction false} ScanResponseConcat(report: Report, fin: Finalisation, ack: int, s: PacketScan,
                                              a: seq<byte>, b: seq<byte>)
    requires Ready(s.head.split)
    ensures ScanResponse(report, fin, ack, s, a + b) ==
      match ScanResponse(report, fin, ack, s, a)
      case None => None
      case Some(s') => ScanResponse(report, fin, ack, s', b)
    decreases |b|
  {
    if b == [] {
      assert a + b == a;
      if ScanResponse(report, fin, ack, s, a).Some? {
        ScanResponseEmpty(report, fin, ack, ScanResponse(report, fin, ack, s, a).value);
      }
    } else {
      var b' := b[..|b| - 1];
      var last := b[|b| - 1];
      assert a + b == (a + b') + [last];
      assert b == b' + [last];
      ScanResponseConcat(report, fin, ack, s, a, b');
      ScanResponseSnoc(report, fin, ack, s, a + b', last);
      if ScanResponse(report, fin, ack, s, a).Some? {
        ScanResponseSnoc(report, fin, ack, ScanResponse(report, fin, ack, s, a).value, b', last);
      }
    }
  }

  /** Bytes that end no line only move the splitter and count down. */
  lemma {:induction false} ScanResponseQuiet(report: Report, fin: Finalisation, ack: int, s: PacketScan, data: seq<byte>)
    requires Ready(s.head.split) && FeedAll(s.head.split, data).1 == []
    requires !s.parser.content.active && CountFits(s, |data|)
    ensures ScanResponse(report, fin, ack, s, data) == Some(Counted(s, FeedAll(s.head.split, data).0, |data|))
  {
    if data == [] {
      ScanResponseEmpty(report, fin, ack, s);
    } else {
      var front := data[..|data| - 1];
      assert data == front + [data[|data| - 1]];
      ScanResponseQuiet(report, fin, ack, s, front);
      ScanResponseSnoc(report, fin, ack, s, front, data[|data| - 1]);
    }
  }

  /** A blank line fed after a line end starts a block. */
  lemma ScanResponseBlank(report: Report, fin: Finalisation, ack: int, s: PacketScan)
    requires Ready(s.head.split) && s.head.split.line == []
    requires !s.parser.content.active && CountFits(s, 2)
    ensures ScanResponse(report, fin, ack, s, [CR, LF]) == Some(Counted(s, Splitter([], LF, true), 2))
  {
    ScanResponseEmpty(report, fin, ack, s);
    assert [CR] == [] + [CR];
    ScanResponseSnoc(report, fin, ack, s, [], CR);
    var s1 := Counted(s, Splitter([CR], CR, s.head.split.newBlock), 1);
    assert ScanResponse(report, fin, ack, s, [CR]) == Some(s1);
    assert [CR, LF] == [CR] + [LF];
    ScanResponseSnoc(report, fin, ack, s, [CR], LF);
  }

  /** A non-blank line fed after a line end: its bytes up to the CR count
      down, then the line is handled and its LF counted down. */
  lemma ScanResponseLine(report: Report, fin: Finalisation, ack: int, s: PacketScan, line: seq<byte>)
    requires Ready(s.head.split) && s.head.split.line == [] && NoCr(line) && line != []
    requires !s.parser.content.active && CountFits(s, |line| + 1)
    ensures IsLine(line + [CR, LF])
    ensures ScanResponse(report, fin, ack, s, line + [CR, LF]) ==
      match OnResponseLine(report, fin, ack, Counted(s, Splitter([], LF, false), |line| + 1), line + [CR, LF], s.head.split.newBlock)
      case None => None
      case Some(t) => Some(CountDown(t))
  {
    var x := line + [CR, LF];
    FeedLineCr(s.head.split, line);
    ScanResponseQuiet(report, fin, ack, s, line + [CR]);
    assert line + [CR] + [LF] == x;
    assert |line + [CR]| > 1;
    ScanResponseSnoc(report, fin, ack, s, line + [CR], LF);
  }

  // ---------------------------------------------------------------- line cases

  /** With no capture to start and no chunk size due, a line is handled by
      the header branches alone. */
  lemma OnLineHeaderOnly(report: Report, fin: Finalisation, ack: int, s: PacketScan, text: seq<byte>, newBlock: bool)
    requires IsLine(text) && NotCapturing(s.parser) && !(s.parser.chunk.active && s.parser.chunk.counter < -2)
    ensures OnResponseLine(report, fin, ack, s, text, newBlock) == OnHeaderLine(report, ack, s.parser, s.head, text, newBlock)
  {}

  lemma OnStatus(report: Report, ack: int, p: Parser, h: Head, text: seq<byte>, newBlock: bool, field: seq<byte>, code: int)
    requires IsLine(text) && FirstWord(text) == Some(HTTP_1_1)
    requires SecondField(text, HTTP_1_1) == Some(field) && ParseDecimalInt(field) == Some(code)
    ensures OnHeaderLine(report, ack, p, h, text, newBlock) == Some(PacketScan(p, h.(code := code, store := true)))
  {
    EqualsIgnoreCaseReflexive(HTTP_1_1);
  }

  lemma OnLength(report: Report, ack: int, p: Parser, h: Head, text: seq<byte>, newBlock: bool, n: int)
    requires IsLine(text) && FirstWord(text) == Some(CONTENT_LENGTH)
    requires ParseDecimalLong(HeaderValue(text, CONTENT_LENGTH)) == Some(n)
    ensures OnHeaderLine(report, ack, p, h, text, newBlock) ==
      Some(PacketScan(
        if report == ImageExtract then p.(content := p.content.(headerEndWait := true, length := n, key := ack, code := h.code)) else p,
        h.(contentLength := n)))
  {
    EqualsIgnoreCaseReflexive(CONTENT_LENGTH);
  }

  lemma OnChunked(report: Report, ack: int, p: Parser, h: Head, text: seq<byte>, newBlock: bool)
    requires IsLine(text) && FirstWord(text) == Some(TRANSFER_ENCODING)
    requires HeaderValue(text, TRANSFER_ENCODING) == CHUNKED
    ensures OnHeaderLine(report, ack, p, h, text, newBlock) == Some(PacketScan(p, h.(chunked := true)))
  {
    EqualsIgnoreCaseReflexive(TRANSFER_ENCODING);
  }

  /** A line without a space is no header: outside the first line of a
      block in a chunked segment it changes nothing. */
  lemma OnNoSpace(report: Report, ack: int, p: Parser, h: Head, text: seq<byte>, newBlock: bool)
    requires IsLine(text) && FirstWord(text).None? && !(newBlock && h.chunked)
    ensures OnHeaderLine(report, ack, p, h, text, newBlock) == Some(PacketScan(p, h))
  {}

  lemma OnFirstSize(report: Report, ack: int, p: Parser, h: Head, text: seq<byte>, v: int)
    requires IsLine(text) && FirstWord(text).None? && h.chunked && ChunkSize(text) == Some(v)
    ensures OnHeaderLine(report, ack, p, h, text, true) == Some(PacketScan(p.(chunk := Chunk(v, v, true, ack)), h))
  {}

  /** A header line whose first word is, ignoring case, none of the three
      keywords (a `Date:`, `Server:` or `Content-Type:` line) changes
      nothing. */
  lemma OnOtherHeader(report: Report, ack: int, p: Parser, h: Head, text: seq<byte>, newBlock: bool, w: seq<byte>)
    requires IsLine(text) && FirstWord(text) == Some(w)
    requires !EqualsIgnoreCase(w, HTTP_1_1) && !EqualsIgnoreCase(w, CONTENT_LENGTH) && !EqualsIgnoreCase(w, TRANSFER_ENCODING)
    ensures OnHeaderLine(report, ack, p, h, text, newBlock) == Some(PacketScan(p, h))
  {}

  // ---------------------------------------------------------------- header lines

  /** A line that starts no capture and is due no chunk size does what its
      header branch does. */
  lemma HeaderLineStep(report: Report, fin: Finalisation, ack: int, s: PacketScan, line: seq<byte>, t: PacketScan)
    requires Ready(s.head.split) && s.head.split.line == [] && NoCr(line) && line != []
    requires !s.parser.chunk.active && NotCapturing(s.parser)
    requires OnHeaderLine(report, ack, s.parser, s.head.(split := Splitter([], LF, false)), line + [CR, LF], s.head.split.newBlock) == Some(t)
    requires !t.parser.chunk.active
    ensures ScanResponse(report, fin, ack, s, line + [CR, LF]) == Some(t)
  {
    ScanResponseLine(report, fin, ack, s, line);
    var s' := Counted(s, Splitter([], LF, false), |line| + 1);
    OnLineHeaderOnly(report, fin, ack, s', line + [CR, LF], s.head.split.newBlock);
  }

  /** Text that parses as a `long`/`int` and can stand between spaces. */
  predicate Number(field: seq<byte>, v: int)
  {
    field != [] && NoCr(field) && SP !in field && ParseDecimalLong(field) == Some(v)
  }

  function StatusLine(field: seq<byte>, reason: seq<byte>): seq<byte>
  {
    HTTP_1_1 + [SP] + field + [SP] + reason
  }

  function LengthLine(field: seq<byte>): seq<byte>
  {
    CONTENT_LENGTH + [SP] + field
  }

  function ChunkedLine(): seq<byte>
  {
    TRANSFER_ENCODING + [SP] + CHUNKED
  }

  lemma NumberText(v: int)
    requires LONG_MIN <= v <= LONG_MAX
    ensures Number(DecimalText(v), v)
    ensures INT_MIN <= v <= INT_MAX ==> ParseDecimalInt(DecimalText(v)) == Some(v)
  {
    ParseDecimalText(v);
  }

  /** A status line sets the code and marks the segment for filing. */
  lemma StatusLineStep(report: Report, fin: Finalisation, ack: int, s: PacketScan, field: seq<byte>, code: int, reason: seq<byte>)
    requires Ready(s.head.split) && s.head.split.line == [] && NoCr(reason)
    requires !s.parser.chunk.active && NotCapturing(s.parser)
    requires Number(field, code) && ParseDecimalInt(field) == Some(code)
    ensures NoCr(StatusLine(field, reason))
    ensures ScanResponse(report, fin, ack, s, StatusLine(field, reason) + [CR, LF]) ==
      Some(s.(head := s.head.(split := Splitter([], LF, false), code := code, store := true)))
  {
    var line := StatusLine(field, reason);
    assert NoCr(line);
    RequestLineFields(HTTP_1_1, field, reason);
    var h := s.head.(split := Splitter([], LF, false));
    OnStatus(report, ack, s.parser, h, line + [CR, LF], s.head.split.newBlock, field, code);
    HeaderLineStep(report, fin, ack, s, line, PacketScan(s.parser, h.(code := code, store := true)));
  }

  /** `Content-Length:` sets the announced length and, in the image report,
      arms the capture with this segment's key and code. */
  lemma LengthLineStep(report: Report, fin: Finalisation, ack: int, s: PacketScan, field: seq<byte>, n: int)
    requires Ready(s.head.split) && s.head.split.line == []
    requires !s.parser.chunk.active && NotCapturing(s.parser)
    requires Number(field, n)
    ensures NoCr(LengthLine(field))
    ensures ScanResponse(report, fin, ack, s, LengthLine(field) + [CR, LF]) ==
      Some(PacketScan(
        if report == ImageExtract
        then s.parser.(content := s.parser.content.(headerEndWait := true, length := n, key := ack, code := s.head.code))
        else s.parser,
        s.head.(split := Splitter([], LF, false), contentLength := n)))
  {
    var line := LengthLine(field);
    assert NoCr(line);
    HeaderLineFields(CONTENT_LENGTH, field);
    var h := s.head.(split := Splitter([], LF, false));
    OnLength(report, ack, s.parser, h, line + [CR, LF], s.head.split.newBlock, n);
    var p := s.parser;
    var p' := if report == ImageExtract then p.(content := p.content.(headerEndWait := true, length := n, key := ack, code := h.code)) else p;
    HeaderLineStep(report, fin, ack, s, line, PacketScan(p', h.(contentLength := n)));
  }

  /** `Transfer-Encoding: chunked` marks the segment as chunked. */
  lemma ChunkedLineStep(report: Report, fin: Finalisation, ack: int, s: PacketScan)
    requires Ready(s.head.split) && s.head.split.line == []
    requires !s.parser.chunk.active && NotCapturing(s.parser)
    ensures NoCr(ChunkedLine())
    ensures ScanResponse(report, fin, ack, s, ChunkedLine() + [CR, LF]) ==
      Some(s.(head := s.head.(split := Splitter([], LF, false), chunked := true)))
  {
    var line := ChunkedLine();
    assert NoCr(line);
    HeaderLineFields(TRANSFER_ENCODING, CHUNKED);
    var h := s.head.(split := Splitter([], LF, false));
    OnChunked(report, ack, s.parser, h, line + [CR, LF], s.head.split.newBlock);
    HeaderLineStep(report, fin, ack, s, line, PacketScan(s.parser, h.(chunked := true)));
  }

  /** A header line the parser reads nothing from: no CR, and a first word
      that is, ignoring case, none of the three keywords. */
  predicate OtherHeader(line: seq<byte>)
  {
    && line != [] && NoCr(line)
    && match FirstWord(line + [CR, LF])
       case None => false
       case Some(w) =>
         !EqualsIgnoreCase(w, HTTP_1_1) && !EqualsIgnoreCase(w, CONTENT_LENGTH) && !EqualsIgnoreCase(w, TRANSFER_ENCODING)
  }

  predicate OtherHeaders(lines: seq<seq<byte>>)
  {
    forall i :: 0 <= i < |lines| ==> OtherHeader(lines[i])
  }

  /** A header whose name differs in length from all three keywords (as
      `Date:`, `Server:` and `Content-Type:` do) is another header. */
  lemma OtherHeaderByLength(name: seq<byte>, value: seq<byte>)
    requires name != [] && SP !in name && NoCr(name) && NoCr(value)
    requires |name| != |HTTP_1_1| && |name| != |CONTENT_LENGTH| && |name| != |TRANSFER_ENCODING|
    ensures OtherHeader(name + [SP] + value)
  {
    HeaderLineFields(name, value);
    assert NoCr(name + [SP] + value);
  }

  /** After a line end, another header line leaves the state as it was,
      as long as no chunk is being followed and no capture is running. */
  lemma OtherLineStep(report: Report, fin: Finalisation, ack: int, s: PacketScan, line: seq<byte>)
    requires s.head.split == Splitter([], LF, false) && !s.parser.chunk.active && !s.parser.content.active
    requires OtherHeader(line)
    ensures ScanResponse(report, fin, ack, s, line + [CR, LF]) == Some(s)
  {
    ScanResponseLine(report, fin, ack, s, line);
    assert Counted(s, Splitter([], LF, false), |line| + 1) == s;
    OnOtherHeader(report, ack, s.parser, s.head, line + [CR, LF], false, FirstWord(line + [CR, LF]).value);
  }

  /** Any number of other header lines leave the state as it was. */
  lemma {:induction false} OtherLinesStep(report: Report, fin: Finalisation, ack: int, s: PacketScan, lines: seq<seq<byte>>)
    requires s.head.split == Splitter([], LF, false) && !s.parser.chunk.active && !s.parser.content.active
    requires OtherHeaders(lines)
    ensures ScanResponse(report, fin, ack, s, Join(lines)) == Some(s)
    decreases |lines|
  {
    if lines == [] {
      ScanResponseEmpty(report, fin, ack, s);
    } else {
      var front, last := lines[..|lines| - 1], lines[|lines| - 1];
      assert OtherHeaders(front) by {
        forall i | 0 <= i < |front| ensures OtherHeader(front[i]) {
          assert front[i] == lines[i];
        }
      }
      OtherLinesStep(report, fin, ack, s, front);
      OtherLineStep(report, fin, ack, s, last);
      ScanResponseConcat(report, fin, ack, s, Join(front), last + [CR, LF]);
      assert Join(lines) == Join(front) + (last + [CR, LF]);
    }
  }

  /** Scanning two payloads one after the other. */
  lemma ScanThen(report: Report, fin: Finalisation, ack: int, s: PacketScan, a: seq<byte>, t: PacketScan, b: seq<byte>, u: PacketScan)
    requires Ready(s.head.split)
    requires ScanResponse(report, fin, ack, s, a) == Some(t) && ScanResponse(report, fin, ack, t, b) == Some(u)
    ensures ScanResponse(report, fin, ack, s, a + b) == Some(u)
  {
    ScanResponseConcat(report, fin, ack, s, a, b);
  }

  // ---------------------------------------------------------------- chunk lines

  /** A chunk: non-empty, with no CR and no space, so that its bytes end
      no line and its line is taken for no header. */
  predicate PlainChunk(c: seq<byte>)
  {
    c != [] && NoCr(c) && SP !in c
  }

  /** Text of at most sixteen digits that parses as the hex size `v`. */
  predicate HexSize(digits: seq<byte>, v: int)
  {
    digits != [] && NoCr(digits) && SP !in digits && |digits| <= 16 && ParseHexLong(digits) == Some(v)
  }

  lemma SizeText(v: nat)
    requires v <= LONG_MAX
    ensures HexSize(Digits(v, 16), v)
  {
    LongHexDigits(v);
    ParseDigits(v, 16, LONG_MIN, LONG_MAX);
    DigitsArePlain(Digits(v, 16), 16);
  }

  lemma SizeLine(digits: seq<byte>, v: int)
    requires HexSize(digits, v)
    ensures IsLine(digits + [CR, LF]) && ChunkSize(digits + [CR, LF]) == Some(v)
    ensures FirstWord(digits + [CR, LF]).None?
  {
    var x := digits + [CR, LF];
    assert x[..|x| - 2] == digits;
    assert SP !in x;
  }

  /** The first size line of a block in a chunked segment starts a chunked
      body filed under this segment's key. */
  lemma FirstSizeStep(report: Report, fin: Finalisation, ack: int, s: PacketScan, digits: seq<byte>, v: int)
    requires Ready(s.head.split) && s.head.split.line == [] && s.head.split.newBlock && s.head.chunked
    requires !s.parser.chunk.active && NotCapturing(s.parser)
    requires HexSize(digits, v)
    ensures ScanResponse(report, fin, ack, s, digits + [CR, LF]) ==
      Some(PacketScan(s.parser.(chunk := Chunk(v, Int64(v - 1), true, ack)), s.head.(split := Splitter([], LF, false))))
  {
    SizeLine(digits, v);
    var text := digits + [CR, LF];
    ScanResponseLine(report, fin, ack, s, digits);
    var s' := Counted(s, Splitter([], LF, false), |text| - 1);
    OnLineHeaderOnly(report, fin, ack, s', text, true);
    OnFirstSize(report, ack, s'.parser, s'.head, text, v);
  }

  /** The bytes of a chunk and their terminator count the chunk down to
      its end. */
  lemma ChunkDataStep(report: Report, fin: Finalisation, ack: int, s: PacketScan, c: seq<byte>)
    requires Ready(s.head.split) && s.head.split.line == [] && !(s.head.split.newBlock && s.head.chunked)
    requires NotCapturing(s.parser) && PlainChunk(c) && |c| <= LONG_MAX
    requires s.parser.chunk.active && s.parser.chunk.counter == |c| - 1
    ensures ScanResponse(report, fin, ack, s, c + [CR, LF]) ==
      Some(PacketScan(s.parser.(chunk := s.parser.chunk.(counter := -3)), s.head.(split := Splitter([], LF, false))))
  {
    var text := c + [CR, LF];
    ScanResponseLine(report, fin, ack, s, c);
    var s' := Counted(s, Splitter([], LF, false), |c| + 1);
    assert s'.parser.chunk.counter == -2;
    assert SP !in text;
    OnLineHeaderOnly(report, fin, ack, s', text, s.head.split.newBlock);
    OnNoSpace(report, ack, s'.parser, s'.head, text, s.head.split.newBlock);
  }

  /** A size line after a counted-down chunk: a non-zero size is added to
      the total, size zero ends the body and gives the filed response the
      total. */
  lemma SizeStep(report: Report, fin: Finalisation, ack: int, s: PacketScan, digits: seq<byte>, v: int)
    requires Ready(s.head.split) && s.head.split.line == [] && !(s.head.split.newBlock && s.head.chunked)
    requires NotCapturing(s.parser)
    requires s.parser.chunk.active && s.parser.chunk.counter == -3
    requires HexSize(digits, v)
    ensures var c := s.parser.chunk;
      var length := Int64(c.length + v);
      ScanResponse(report, fin, ack, s, digits + [CR, LF]) ==
      if v != 0 then
        Some(PacketScan(s.parser.(chunk := c.(counter := Int64(v - 1), length := length)),
                        s.head.(split := Splitter([], LF, false))))
      else
        match Finalise(fin, s.parser.table, c.key, length)
        case None => None
        case Some(t) =>
          Some(PacketScan(s.parser.(chunk := c.(counter := 0, length := length, active := false), table := t),
                          s.head.(split := Splitter([], LF, false))))
  {
    SizeLine(digits, v);
    var text := digits + [CR, LF];
    ScanResponseLine(report, fin, ack, s, digits);
    var s' := Counted(s, Splitter([], LF, false), |text| - 1);
    var r := OnChunkLine(fin, s'.parser, text);
    if r.Some? {
      OnNoSpace(report, ack, r.value, s'.head, text, false);
    }
  }

  // ---------------------------------------------------------------- fixed-length responses

  /** A response head announcing a fixed-length body: the status line,
      other header lines, the `Content-Length:` line, more other header
      lines, and the blank line. */
  function ResponseHead(code: seq<byte>, reason: seq<byte>, before: seq<seq<byte>>, length: seq<byte>, after: seq<seq<byte>>): seq<byte>
  {
    Join([StatusLine(code, reason)] + before + [LengthLine(length)] + after + [[]])
  }

  /** Neither a chunked body nor a body capture is being followed. */
  predicate Idle(p: Parser)
  {
    !p.chunk.active && NotCapturing(p)
  }

  /** The bytes of a head: the status line, lines, the line that
      announces the body, lines, and the blank line. */
  lemma JoinHead(l1: seq<byte>, before: seq<seq<byte>>, l2: seq<byte>, after: seq<seq<byte>>)
    ensures Join([l1] + before + [l2] + after + [[]]) ==
      (l1 + [CR, LF]) + Join(before) + (l2 + [CR, LF]) + Join(after) + [CR, LF]
  {
    JoinConcat([l1] + before + [l2] + after, [[]]);
    JoinConcat([l1] + before + [l2], after);
    JoinConcat([l1] + before, [l2]);
    JoinConcat([l1], before);
    JoinOne(l1);
    JoinOne(l2);
    JoinOne([]);
  }

  /** The head of a response with a fixed-length body: the status code and
      the announced length are kept for filing, the image report arms the
      body capture with them, and a block begins. */
  lemma ResponseHeadStep(report: Report, fin: Finalisation, ack: int, p: Parser, code: int, reason: seq<byte>,
                         before: seq<seq<byte>>, n: int, after: seq<seq<byte>>)
    requires Idle(p) && NoCr(reason) && OtherHeaders(before) && OtherHeaders(after)
    requires INT_MIN <= code <= INT_MAX && LONG_MIN <= n <= LONG_MAX
    ensures ScanResponse(report, fin, ack, PacketScan(p, StartHead), ResponseHead(DecimalText(code), reason, before, DecimalText(n), after)) ==
      Some(PacketScan(if report == ImageExtract then p.(content := p.content.(headerEndWait := true, length := n, key := ack, code := code)) else p,
                      Head(Splitter([], LF, true), true, false, n, code)))
  {
    var l1, l2 := StatusLine(DecimalText(code), reason), LengthLine(DecimalText(n));
    NumberText(code);
    NumberText(n);
    JoinHead(l1, before, l2, after);
    var a1 := l1 + [CR, LF];
    var a2 := a1 + Join(before);
    var a3 := a2 + (l2 + [CR, LF]);
    var a4 := a3 + Join(after);
    var s0 := PacketScan(p, StartHead);
    StatusLineStep(report, fin, ack, s0, DecimalText(code), code, reason);
    var s1 := s0.(head := s0.head.(split := Splitter([], LF, false), code := code, store := true));
    OtherLinesStep(report, fin, ack, s1, before);
    ScanThen(report, fin, ack, s0, a1, s1, Join(before), s1);
    LengthLineStep(report, fin, ack, s1, DecimalText(n), n);
    var p2 := if report == ImageExtract then p.(content := p.content.(headerEndWait := true, length := n, key := ack, code := code)) else p;
    var s2 := PacketScan(p2, s1.head.(contentLength := n));
    ScanThen(report, fin, ack, s0, a2, s1, l2 + [CR, LF], s2);
    OtherLinesStep(report, fin, ack, s2, after);
    ScanThen(report, fin, ack, s0, a3, s2, Join(after), s2);
    ScanResponseBlank(report, fin, ack, s2);
    ScanThen(report, fin, ack, s0, a4, s2, [CR, LF], Counted(s2, Splitter([], LF, true), 2));
  }

  /** The head of a response with a fixed-length body, in one segment:
      the response is filed under the segment's acknowledgement number
      with the status code and the announced length; the image report
      also arms the body capture with them. */
  lemma ParseResponseHead(report: Report, fin: Finalisation, p: Parser, seg: Segment, code: int, reason: seq<byte>,
                          before: seq<seq<byte>>, n: int, after: seq<seq<byte>>)
    requires Idle(p) && NoCr(reason) && OtherHeaders(before) && OtherHeaders(after)
    requires INT_MIN <= code <= INT_MAX && LONG_MIN <= n <= LONG_MAX
    requires seg.data == ResponseHead(DecimalText(code), reason, before, DecimalText(n), after)
    ensures var ack := seg.acknowledgementNumber;
      ScanSegment(report, fin, p, seg) ==
      Some(Parser(p.chunk,
                  if report == ImageExtract then p.content.(headerEndWait := true, length := n, key := ack, code := code)
                  else p.content,
                  p.table[ack := Response(code, n, [])]))
  {
    ResponseHeadStep(report, fin, seg.acknowledgementNumber, p, code, reason, before, n, after);
  }

  // ---------------------------------------------------------------- chunked responses

  /** The sum of the chunk sizes. */
  function TotalSize(chunks: seq<seq<byte>>): nat
  {
    if chunks == [] then 0 else |chunks[0]| + TotalSize(chunks[1..])
  }

  /** Each chunk's line preceded by its size line in hex, then the zero
      size line and the blank line that end the body. */
  function ChunkedRest(chunks: seq<seq<byte>>): seq<byte>
  {
    if chunks == [] then LastChunkLines() else ChunkLines(chunks[0]) + ChunkedRest(chunks[1..])
  }

  /** A chunk's size line and its data line. */
  function ChunkLines(chunk: seq<byte>): seq<byte>
  {
    (Digits(|chunk|, 16) + [CR, LF]) + (chunk + [CR, LF])
  }

  /** The zero size line and the blank line. */
  function LastChunkLines(): seq<byte>
  {
    (Digits(0, 16) + [CR, LF]) + [CR, LF]
  }

  predicate PlainChunks(chunks: seq<seq<byte>>)
  {
    forall i :: 0 <= i < |chunks| ==> PlainChunk(chunks[i])
  }

  /** The zero size and the blank line end a chunked body. */
  lemma ChunkedEnd(report: Report, fin: Finalisation, ack: int, s: PacketScan, digits: seq<byte>)
    requires Ready(s.head.split) && s.head.split.line == [] && !s.head.split.newBlock
    requires NotCapturing(s.parser) && s.parser.chunk.active && s.parser.chunk.counter == -3
    requires 0 <= s.parser.chunk.length <= LONG_MAX && HexSize(digits, 0)
    ensures var c := s.parser.chunk;
      ScanResponse(report, fin, ack, s, (digits + [CR, LF]) + [CR, LF]) ==
      match Finalise(fin, s.parser.table, c.key, c.length)
      case None => None
      case Some(t) =>
        Some(PacketScan(s.parser.(chunk := c.(counter := 0, active := false), table := t),
                        s.head.(split := Splitter([], LF, true))))
  {
    var c := s.parser.chunk;
    SizeStep(report, fin, ack, s, digits, 0);
    ScanResponseConcat(report, fin, ack, s, digits + [CR, LF], [CR, LF]);
    var r := Finalise(fin, s.parser.table, c.key, c.length);
    if r.Some? {
      var s1 := PacketScan(s.parser.(chunk := c.(counter := 0, active := false), table := r.value),
                           s.head.(split := Splitter([], LF, false)));
      assert ScanResponse(report, fin, ack, s, digits + [CR, LF]) == Some(s1);
      ScanResponseBlank(report, fin, ack, s1);
    }
  }

  /** A size line and its chunk add the size to the total and count the
      chunk down. */
  lemma ChunkedOne(report: Report, fin: Finalisation, ack: int, s: PacketScan, digits: seq<byte>, chunk: seq<byte>)
    requires Ready(s.head.split) && s.head.split.line == [] && !s.head.split.newBlock
    requires NotCapturing(s.parser) && s.parser.chunk.active && s.parser.chunk.counter == -3
    requires PlainChunk(chunk) && HexSize(digits, |chunk|)
    requires 0 <= s.parser.chunk.length && s.parser.chunk.length + |chunk| <= LONG_MAX
    ensures var c := s.parser.chunk;
      ScanResponse(report, fin, ack, s, (digits + [CR, LF]) + (chunk + [CR, LF])) ==
      Some(PacketScan(s.parser.(chunk := c.(counter := -3, length := c.length + |chunk|)),
                      s.head.(split := Splitter([], LF, false))))
  {
    var c := s.parser.chunk;
    var v := |chunk|;
    SizeStep(report, fin, ack, s, digits, v);
    var s1 := PacketScan(s.parser.(chunk := c.(counter := v - 1, length := c.length + v)),
                         s.head.(split := Splitter([], LF, false)));
    assert ScanResponse(report, fin, ack, s, digits + [CR, LF]) == Some(s1);
    ChunkDataStep(report, fin, ack, s1, chunk);
    ScanResponseConcat(report, fin, ack, s, digits + [CR, LF], chunk + [CR, LF]);
  }

  lemma ChunkLinesStep(report: Report, fin: Finalisation, ack: int, s: PacketScan, chunk: seq<byte>)
    requires Ready(s.head.split) && s.head.split.line == [] && !s.head.split.newBlock
    requires NotCapturing(s.parser) && s.parser.chunk.active && s.parser.chunk.counter == -3
    requires PlainChunk(chunk) && 0 <= s.parser.chunk.length && s.parser.chunk.length + |chunk| <= LONG_MAX
    ensures var c := s.parser.chunk;
      ScanResponse(report, fin, ack, s, ChunkLines(chunk)) ==
      Some(PacketScan(s.parser.(chunk := c.(counter := -3, length := c.length + |chunk|)),
                      s.head.(split := Splitter([], LF, false))))
  {
    SizeText(|chunk|);
    ChunkedOne(report, fin, ack, s, Digits(|chunk|, 16), chunk);
  }

  lemma LastChunkLinesStep(report: Report, fin: Finalisation, ack: int, s: PacketScan)
    requires Ready(s.head.split) && s.head.split.line == [] && !s.head.split.newBlock
    requires NotCapturing(s.parser) && s.parser.chunk.active && s.parser.chunk.counter == -3
    requires 0 <= s.parser.chunk.length <= LONG_MAX
    ensures var c := s.parser.chunk;
      ScanResponse(report, fin, ack, s, LastChunkLines()) ==
      match Finalise(fin, s.parser.table, c.key, c.length)
      case None => None
      case Some(t) =>
        Some(PacketScan(s.parser.(chunk := c.(counter := 0, active := false), table := t),
                        s.head.(split := Splitter([], LF, true))))
  {
    SizeText(0);
    ChunkedEnd(report, fin, ack, s, Digits(0, 16));
  }

  /** The rest of a chunked body, after a counted-down chunk: each size is
      added to the total, and the zero size gives the filed response the
      total (or, as written, aborts when it was never filed). */
  lemma {:induction false} ScanChunkedRest(report: Report, fin: Finalisation, ack: int, s: PacketScan, chunks: seq<seq<byte>>)
    requires Ready(s.head.split) && s.head.split.line == [] && !s.head.split.newBlock
    requires NotCapturing(s.parser) && s.parser.chunk.active && s.parser.chunk.counter == -3
    requires 0 <= s.parser.chunk.length && s.parser.chunk.length + TotalSize(chunks) <= LONG_MAX
    requires PlainChunks(chunks)
    ensures var c := s.parser.chunk;
      var total := c.length + TotalSize(chunks);
      ScanResponse(report, fin, ack, s, ChunkedRest(chunks)) ==
      match Finalise(fin, s.parser.table, c.key, total)
      case None => None
      case Some(t) =>
        Some(PacketScan(s.parser.(chunk := c.(counter := 0, length := total, active := false), table := t),
                        s.head.(split := Splitter([], LF, true))))
    decreases |chunks|
  {
    var c := s.parser.chunk;
    if chunks == [] {
      LastChunkLinesStep(report, fin, ack, s);
    } else {
      var first := chunks[0];
      assert PlainChunk(first);
      ChunkLinesStep(report, fin, ack, s, first);
      var s2 := PacketScan(s.parser.(chunk := c.(counter := -3, length := c.length + |first|)),
                           s.head.(split := Splitter([], LF, false)));
      assert PlainChunks(chunks[1..]) by {
        forall i | 0 <= i < |chunks[1..]| ensures PlainChunk(chunks[1..][i]) {
          assert chunks[1..][i] == chunks[i + 1];
        }
      }
      ScanChunkedRest(report, fin, ack, s2, chunks[1..]);
      ScanResponseConcat(report, fin, ack, s, ChunkLines(first), ChunkedRest(chunks[1..]));
    }
  }

  // ---------------------------------------------------------------- chunked responses in segments

  /** A response head announcing a chunked body: the status line, other
      header lines, `Transfer-Encoding: chunked`, more other header lines,
      and the blank line. */
  function ChunkedResponseHead(code: seq<byte>, reason: seq<byte>, before: seq<seq<byte>>, after: seq<seq<byte>>): seq<byte>
  {
    Join([StatusLine(code, reason)] + before + [ChunkedLine()] + after + [[]])
  }

  /** The head of a chunked response keeps the status code for filing,
      marks the segment chunked, and starts a block. */
  lemma ChunkedHeadStep(report: Report, fin: Finalisation, ack: int, p: Parser, code: int, reason: seq<byte>,
                        before: seq<seq<byte>>, after: seq<seq<byte>>)
    requires Idle(p) && NoCr(reason) && INT_MIN <= code <= INT_MAX && OtherHeaders(before) && OtherHeaders(after)
    ensures ScanResponse(report, fin, ack, PacketScan(p, StartHead), ChunkedResponseHead(DecimalText(code), reason, before, after)) ==
      Some(PacketScan(p, Head(Splitter([], LF, true), true, true, 0, code)))
  {
    var l1, l2 := StatusLine(DecimalText(code), reason), ChunkedLine();
    NumberText(code);
    JoinHead(l1, before, l2, after);
    var a1 := l1 + [CR, LF];
    var a2 := a1 + Join(before);
    var a3 := a2 + (l2 + [CR, LF]);
    var a4 := a3 + Join(after);
    var s0 := PacketScan(p, StartHead);
    StatusLineStep(report, fin, ack, s0, DecimalText(code), code, reason);
    var s1 := s0.(head := s0.head.(split := Splitter([], LF, false), code := code, store := true));
    OtherLinesStep(report, fin, ack, s1, before);
    ScanThen(report, fin, ack, s0, a1, s1, Join(before), s1);
    ChunkedLineStep(report, fin, ack, s1);
    var s2 := s1.(head := s1.head.(chunked := true));
    ScanThen(report, fin, ack, s0, a2, s1, l2 + [CR, LF], s2);
    OtherLinesStep(report, fin, ack, s2, after);
    ScanThen(report, fin, ack, s0, a3, s2, Join(after), s2);
    ScanResponseBlank(report, fin, ack, s2);
    ScanThen(report, fin, ack, s0, a4, s2, [CR, LF], Counted(s2, Splitter([], LF, true), 2));
  }

  /** The first chunk after a chunked head starts the chunked body under
      this segment's key and counts the chunk down. */
  lemma FirstChunkStep(report: Report, fin: Finalisation, ack: int, s: PacketScan, first: seq<byte>)
    requires s.head.split == Splitter([], LF, true) && s.head.chunked && Idle(s.parser)
    requires PlainChunk(first) && |first| <= LONG_MAX
    ensures ScanResponse(report, fin, ack, s, ChunkLines(first)) ==
      Some(PacketScan(s.parser.(chunk := Chunk(|first|, -3, true, ack)), s.head.(split := Splitter([], LF, false))))
  {
    var v := |first|;
    var d := Digits(v, 16);
    SizeText(v);
    FirstSizeStep(report, fin, ack, s, d, v);
    var s1 := PacketScan(s.parser.(chunk := Chunk(v, v - 1, true, ack)), s.head.(split := Splitter([], LF, false)));
    assert ScanResponse(report, fin, ack, s, d + [CR, LF]) == Some(s1);
    ChunkDataStep(report, fin, ack, s1, first);
    ScanResponseConcat(report, fin, ack, s, d + [CR, LF], first + [CR, LF]);
  }

  /** A whole chunked body after a chunked head: the zero size gives the
      response filed under this segment's key the sum of the chunk sizes. */
  lemma ScanChunkedBody(report: Report, fin: Finalisation, ack: int, s: PacketScan, chunks: seq<seq<byte>>)
    requires s.head.split == Splitter([], LF, true) && s.head.chunked && Idle(s.parser)
    requires chunks != [] && PlainChunks(chunks) && TotalSize(chunks) <= LONG_MAX
    ensures var total := TotalSize(chunks);
      ScanResponse(report, fin, ack, s, ChunkedRest(chunks)) ==
      match Finalise(fin, s.parser.table, ack, total)
      case None => None
      case Some(t) => Some(PacketScan(s.parser.(chunk := Chunk(total, 0, false, ack), table := t), s.head))
  {
    var first, rest := chunks[0], chunks[1..];
    assert PlainChunk(first);
    FirstChunkStep(report, fin, ack, s, first);
    var s2 := PacketScan(s.parser.(chunk := Chunk(|first|, -3, true, ack)), s.head.(split := Splitter([], LF, false)));
    assert PlainChunks(rest) by {
      forall i | 0 <= i < |rest| ensures PlainChunk(rest[i]) {
        assert rest[i] == chunks[i + 1];
      }
    }
    ScanChunkedRest(report, fin, ack, s2, rest);
    ScanResponseConcat(report, fin, ack, s, ChunkLines(first), ChunkedRest(rest));
  }

  /** A chunked response whole in one segment. */
  function ChunkedResponse(code: int, reason: seq<byte>, before: seq<seq<byte>>, after: seq<seq<byte>>, chunks: seq<seq<byte>>): seq<byte>
  {
    ChunkedResponseHead(DecimalText(code), reason, before, after) + ChunkedRest(chunks)
  }

  /** Finalising an entry and then filing over it is filing over it; only
      the source's abort on a missing entry remains. */
  lemma FinaliseThenFile(fin: Finalisation, table: map<int, Response>, key: int, length: int, filed: Response)
    ensures Finalise(fin, table, key, length).None? <==> fin == AsWritten && key !in table
    ensures Finalise(fin, table, key, length).Some? ==> Finalise(fin, table, key, length).value[key := filed] == table[key := filed]
  {
    if key in table {
      assert table[key := table[key].(bodyLength := length)][key := filed] == table[key := filed];
    }
  }

  /** A chunked response whole in one segment: its zero size reaches the
      table before the response itself is filed at the end of the
      segment. As written the source then aborts unless an earlier segment
      filed a response under the same key; with the update made only when
      the entry is present, the response is filed with the sum of the chunk
      sizes. */
  lemma ParseChunkedResponse(report: Report, fin: Finalisation, p: Parser, seg: Segment, code: int, reason: seq<byte>,
                             before: seq<seq<byte>>, after: seq<seq<byte>>, chunks: seq<seq<byte>>)
    requires Idle(p) && NoCr(reason) && INT_MIN <= code <= INT_MAX && OtherHeaders(before) && OtherHeaders(after)
    requires chunks != [] && PlainChunks(chunks) && TotalSize(chunks) <= LONG_MAX
    requires seg.data == ChunkedResponse(code, reason, before, after, chunks)
    ensures var ack, total := seg.acknowledgementNumber, TotalSize(chunks);
      ScanSegment(report, fin, p, seg) ==
      if fin == AsWritten && ack !in p.table then None
      else Some(Parser(Chunk(total, 0, false, ack), p.content, p.table[ack := Response(code, total, [])]))
  {
    var ack, total := seg.acknowledgementNumber, TotalSize(chunks);
    var s0 := PacketScan(p, StartHead);
    var head := ChunkedResponseHead(DecimalText(code), reason, before, after);
    ChunkedHeadStep(report, fin, ack, p, code, reason, before, after);
    var s1 := PacketScan(p, Head(Splitter([], LF, true), true, true, 0, code));
    ScanChunkedBody(report, fin, ack, s1, chunks);
    ScanResponseConcat(report, fin, ack, s0, head, ChunkedRest(chunks));
    FinaliseThenFile(fin, p.table, ack, total, Response(code, total, []));
  }

  /** As written: a chunked response in one segment, not preceded by a
      response under the same key, aborts the report. */
  lemma ChunkedOneSegmentAborts(report: Report, p: Parser, seg: Segment, code: int, reason: seq<byte>,
                                before: seq<seq<byte>>, after: seq<seq<byte>>, chunks: seq<seq<byte>>)
    requires Idle(p) && NoCr(reason) && INT_MIN <= code <= INT_MAX && OtherHeaders(before) && OtherHeaders(after)
    requires chunks != [] && PlainChunks(chunks) && TotalSize(chunks) <= LONG_MAX
    requires seg.data == ChunkedResponse(code, reason, before, after, chunks) && seg.acknowledgementNumber !in p.table
    ensures ScanSegment(report, AsWritten, p, seg).None?
  {
    ParseChunkedResponse(report, AsWritten, p, seg, code, reason, before, after, chunks);
  }

  /** Corrected: a chunked response in one segment is filed with its status
      code and the sum of its chunk sizes. */
  lemma ChunkedOneSegmentFiled(report: Report, p: Parser, seg: Segment, code: int, reason: seq<byte>,
                               before: seq<seq<byte>>, after: seq<seq<byte>>, chunks: seq<seq<byte>>)
    requires Idle(p) && NoCr(reason) && INT_MIN <= code <= INT_MAX && OtherHeaders(before) && OtherHeaders(after)
    requires chunks != [] && PlainChunks(chunks) && TotalSize(chunks) <= LONG_MAX
    requires seg.data == ChunkedResponse(code, reason, before, after, chunks)
    ensures ScanSegment(report, IfPresent, p, seg) ==
      Some(Parser(Chunk(TotalSize(chunks), 0, false, seg.acknowledgementNumber), p.content,
                  p.table[seg.acknowledgementNumber := Response(code, TotalSize(chunks), [])]))
  {
    ParseChunkedResponse(report, IfPresent, p, seg, code, reason, before, after, chunks);
  }

  /** The head of a chunked response together with its first size line:
      the response is filed under the segment's key with the first size as
      its length, and the countdown through the first chunk begins. */
  lemma ChunkedHeadSegment(report: Report, fin: Finalisation, p: Parser, seg: Segment, code: int, reason: seq<byte>,
                           before: seq<seq<byte>>, after: seq<seq<byte>>, v: int)
    requires Idle(p) && NoCr(reason) && INT_MIN <= code <= INT_MAX && 0 < v <= LONG_MAX
    requires OtherHeaders(before) && OtherHeaders(after)
    requires seg.data == ChunkedResponseHead(DecimalText(code), reason, before, after) + (Digits(v, 16) + [CR, LF])
    ensures var ack := seg.acknowledgementNumber;
      ScanSegment(report, fin, p, seg) ==
      Some(Parser(Chunk(v, v - 1, true, ack), p.content, p.table[ack := Response(code, v, [])]))
  {
    var ack := seg.acknowledgementNumber;
    var s0 := PacketScan(p, StartHead);
    var head := ChunkedResponseHead(DecimalText(code), reason, before, after);
    ChunkedHeadStep(report, fin, ack, p, code, reason, before, after);
    var s1 := PacketScan(p, Head(Splitter([], LF, true), true, true, 0, code));
    SizeText(v);
    FirstSizeStep(report, fin, ack, s1, Digits(v, 16), v);
    ScanResponseConcat(report, fin, ack, s0, head, Digits(v, 16) + [CR, LF]);
  }

  /** The rest of a chunked body in a later segment, with no status line
      of its own: the zero size gives the response filed earlier the sum of
      the chunk sizes. */
  lemma ChunkedBodySegment(report: Report, fin: Finalisation, p: Parser, seg: Segment, chunks: seq<seq<byte>>)
    requires chunks != [] && PlainChunks(chunks) && TotalSize(chunks) <= LONG_MAX
    requires NotCapturing(p) && p.chunk.active && p.chunk.length == |chunks[0]| && p.chunk.counter == |chunks[0]| - 1
    requires seg.data == (chunks[0] + [CR, LF]) + ChunkedRest(chunks[1..])
    ensures var total := TotalSize(chunks);
      ScanSegment(report, fin, p, seg) ==
      match Finalise(fin, p.table, p.chunk.key, total)
      case None => None
      case Some(t) => Some(Parser(p.chunk.(counter := 0, length := total, active := false), p.content, t))
  {
    var ack := seg.acknowledgementNumber;
    var first, rest := chunks[0], chunks[1..];
    assert PlainChunk(first);
    var s0 := PacketScan(p, StartHead);
    ChunkDataStep(report, fin, ack, s0, first);
    var s1 := PacketScan(p.(chunk := p.chunk.(counter := -3)), StartHead.(split := Splitter([], LF, false)));
    assert PlainChunks(rest) by {
      forall i | 0 <= i < |rest| ensures PlainChunk(rest[i]) {
        assert rest[i] == chunks[i + 1];
      }
    }
    ScanChunkedRest(report, fin, ack, s1, rest);
    ScanResponseConcat(report, fin, ack, s0, first + [CR, LF], ChunkedRest(rest));
  }

  /** Two segments scanned in order are the second scanned after the
      first. */
  lemma ScanTwoSegments(report: Report, fin: Finalisation, p: Parser, a: Segment, b: Segment)
    ensures ScanSegments(report, fin, p, [a, b]) ==
      match ScanSegment(report, fin, p, a)
      case None => None
      case Some(p') => ScanSegment(report, fin, p', b)
  {
    assert [a][..0] == [];
    assert ScanSegments(report, fin, p, [a]) == ScanSegment(report, fin, p, a);
    assert [a, b][..1] == [a];
  }

  /** A chunked response whose head and first size line travel in one
      segment and whose chunks follow in the next, the shape the chunk
      countdown across segments is for: the response is filed with its
      status code and the sum of the chunk sizes, whichever way a missing
      entry is treated. */
  lemma ChunkedResponseTwoSegments(report: Report, fin: Finalisation, table: map<int, Response>, h: Segment, b: Segment,
                                   code: int, reason: seq<byte>, before: seq<seq<byte>>, after: seq<seq<byte>>,
                                   chunks: seq<seq<byte>>)
    requires NoCr(reason) && INT_MIN <= code <= INT_MAX && OtherHeaders(before) && OtherHeaders(after)
    requires chunks != [] && PlainChunks(chunks) && TotalSize(chunks) <= LONG_MAX
    requires h.data == ChunkedResponseHead(DecimalText(code), reason, before, after) + (Digits(|chunks[0]|, 16) + [CR, LF])
    requires b.data == (chunks[0] + [CR, LF]) + ChunkedRest(chunks[1..])
    ensures FileResponses(report, fin, table, [h, b]) ==
      Some(table[h.acknowledgementNumber := Response(code, TotalSize(chunks), [])])
  {
    var ack, total := h.acknowledgementNumber, TotalSize(chunks);
    var p := Parser(NoChunk, NoContent, table);
    var p1 := ChunkedHeadScanned(report, fin, table, h, code, reason, before, after, |chunks[0]|);
    ChunkedBodyScanned(report, fin, p1, b, chunks);
    var t2 := p1.table[ack := p1.table[ack].(bodyLength := total)];
    assert t2 == table[ack := Response(code, total, [])];
    ScanTwoSegments(report, fin, p, h, b);
    assert ScanSegments(report, fin, p, [h, b]) == Some(Parser(Chunk(total, 0, false, ack), NoContent, t2));
  }

  /** The parser after the head segment of `ChunkedResponseTwoSegments`. */
  lemma ChunkedHeadScanned(report: Report, fin: Finalisation, table: map<int, Response>, h: Segment,
                           code: int, reason: seq<byte>, before: seq<seq<byte>>, after: seq<seq<byte>>, v: int)
    returns (p1: Parser)
    requires NoCr(reason) && INT_MIN <= code <= INT_MAX && OtherHeaders(before) && OtherHeaders(after) && 0 < v <= LONG_MAX
    requires h.data == ChunkedResponseHead(DecimalText(code), reason, before, after) + (Digits(v, 16) + [CR, LF])
    ensures p1 == Parser(Chunk(v, v - 1, true, h.acknowledgementNumber), NoContent,
                         table[h.acknowledgementNumber := Response(code, v, [])])
    ensures ScanSegment(report, fin, Parser(NoChunk, NoContent, table), h) == Some(p1)
  {
    ChunkedHeadSegment(report, fin, Parser(NoChunk, NoContent, table), h, code, reason, before, after, v);
    p1 := Parser(Chunk(v, v - 1, true, h.acknowledgementNumber), NoContent,
                 table[h.acknowledgementNumber := Response(code, v, [])]);
  }

  /** The parser after the chunk segment of `ChunkedResponseTwoSegments`. */
  lemma ChunkedBodyScanned(report: Report, fin: Finalisation, p1: Parser, b: Segment, chunks: seq<seq<byte>>)
    requires chunks != [] && PlainChunks(chunks) && TotalSize(chunks) <= LONG_MAX
    requires p1.chunk == Chunk(|chunks[0]|, |chunks[0]| - 1, true, p1.chunk.key) && p1.content == NoContent
    requires p1.chunk.key in p1.table
    requires b.data == (chunks[0] + [CR, LF]) + ChunkedRest(chunks[1..])
    ensures ScanSegment(report, fin, p1, b) ==
      Some(Parser(Chunk(TotalSize(chunks), 0, false, p1.chunk.key), NoContent,
                  p1.table[p1.chunk.key := p1.table[p1.chunk.key].(bodyLength := TotalSize(chunks))]))
  {
    assert PlainChunk(chunks[0]);
    ChunkedBodySegment(report, fin, p1, b, chunks);
  }

  // ---------------------------------------------------------------- image bodies

  /** A capture armed by a header and not yet started. */
  predicate Armed(p: Parser)
  {
    !p.chunk.active && p.content.headerEndWait && !p.content.active
  }

  /** The first line of a block, with no space, after a header announced a
      length: the capture starts after its line end, filed under this
      segment's key. */
  lemma CaptureStartStep(fin: Finalisation, ack: int, s: PacketScan, prefix: seq<byte>)
    requires Ready(s.head.split) && s.head.split.line == [] && s.head.split.newBlock && !s.head.chunked
    requires Armed(s.parser) && prefix != [] && NoCr(prefix) && SP !in prefix
    ensures ScanResponse(ImageExtract, fin, ack, s, prefix + [CR, LF]) ==
      Some(PacketScan(s.parser.(content := s.parser.content.(active := true, data := [], key := ack, headerEndWait := false)),
                      s.head.(split := Splitter([], LF, false))))
  {
    var text := prefix + [CR, LF];
    ScanResponseLine(ImageExtract, fin, ack, s, prefix);
    assert SP !in text;
  }

  /** A capture re-armed while it runs (a `Content-Length:` line among the
      captured bytes) restarts at the next first line of a block with its
      bytes cleared but its counter kept, so the counter then exceeds the
      number of bytes captured. */
  lemma CaptureRestartKeepsCount(fin: Finalisation, ack: int, s: PacketScan, text: seq<byte>)
    requires IsLine(text) && FirstWord(text).None? && !s.head.chunked && !s.parser.chunk.active
    requires s.parser.content.active && s.parser.content.headerEndWait && s.parser.content.counter > 0
    ensures var r := OnResponseLine(ImageExtract, fin, ack, s, text, true);
      && r.Some? && r.value.parser.content.active && r.value.parser.content.data == []
      && r.value.parser.content.counter == s.parser.content.counter > |r.value.parser.content.data|
  {}

  /** Captured bytes short of the announced length that end no line are
      appended to the capture and counted. */
  lemma {:induction false} CaptureRun(fin: Finalisation, ack: int, s: PacketScan, data: seq<byte>)
    requires Ready(s.head.split) && FeedAll(s.head.split, data).1 == []
    requires !s.parser.chunk.active && s.parser.content.active
    requires s.parser.content.counter + |data| < s.parser.content.length
    ensures var c := s.parser.content;
      ScanResponse(ImageExtract, fin, ack, s, data) ==
      Some(PacketScan(s.parser.(content := c.(counter := c.counter + |data|, data := c.data + data)),
                      s.head.(split := FeedAll(s.head.split, data).0)))
  {
    var c := s.parser.content;
    if data == [] {
      ScanResponseEmpty(ImageExtract, fin, ack, s);
      assert c.data + data == c.data;
    } else {
      var front, b := data[..|data| - 1], data[|data| - 1];
      assert data == front + [b];
      CaptureRun(fin, ack, s, front);
      ScanResponseSnoc(ImageExtract, fin, ack, s, front, b);
      assert c.data + front + [b] == c.data + data;
    }
  }

  /** The byte that reaches the announced length, ending no line, files
      the captured body and resets the capture. */
  lemma CaptureLastByte(fin: Finalisation, ack: int, s: PacketScan, b: byte)
    requires Ready(s.head.split) && s.head.split.prev != CR
    requires !s.parser.chunk.active && s.parser.content.active
    requires s.parser.content.counter + 1 == s.parser.content.length
    ensures var p, c := s.parser, s.parser.content;
      ResponseStep(ImageExtract, fin, ack, s, b) ==
      Some(PacketScan(p.(content := c.(active := false, counter := 0, length := 0, code := 0, data := []),
                         table := p.table[c.key := Response(c.code, c.length, c.data + [b])]),
                      s.head.(split := Splitter(s.head.split.line + [b], b, s.head.split.newBlock))))
  {
  }

  /** The bytes of a body before its last, without CR, are captured and
      counted. */
  lemma CaptureFront(fin: Finalisation, ack: int, s: PacketScan, front: seq<byte>)
    requires Ready(s.head.split) && s.head.split.line == []
    requires !s.parser.chunk.active && s.parser.content.active
    requires NoCr(front) && s.parser.content.counter + |front| < s.parser.content.length
    ensures var c := s.parser.content;
      ScanResponse(ImageExtract, fin, ack, s, front) ==
      Some(PacketScan(s.parser.(content := c.(counter := c.counter + |front|, data := c.data + front)),
                      s.head.(split := FeedAll(s.head.split, front).0)))
    ensures FeedAll(s.head.split, front).0.line == front && FeedAll(s.head.split, front).0.prev != CR
    ensures FeedAll(s.head.split, front).0.newBlock == s.head.split.newBlock
  {
    FeedPlain(s.head.split, front);
    CaptureRun(fin, ack, s, front);
    if front != [] {
      assert front[|front| - 1] in front;
    }
  }

  /** A body without CR whose last byte reaches the announced length: the
      body is captured whole and filed, and the capture is reset. */
  lemma CaptureBodyStep(fin: Finalisation, ack: int, s: PacketScan, body: seq<byte>)
    requires Ready(s.head.split) && s.head.split.line == []
    requires !s.parser.chunk.active && s.parser.content.active
    requires body != [] && NoCr(body) && s.parser.content.counter + |body| == s.parser.content.length
    ensures var p, c := s.parser, s.parser.content;
      ScanResponse(ImageExtract, fin, ack, s, body) ==
      Some(PacketScan(p.(content := c.(active := false, counter := 0, length := 0, code := 0, data := []),
                         table := p.table[c.key := Response(c.code, c.length, c.data + body)]),
                      s.head.(split := Splitter(body, body[|body| - 1], s.head.split.newBlock))))
  {
    var c := s.parser.content;
    var front, b := body[..|body| - 1], body[|body| - 1];
    assert body == front + [b];
    assert NoCr(front);
    CaptureFront(fin, ack, s, front);
    var s1 := PacketScan(s.parser.(content := c.(counter := c.counter + |front|, data := c.data + front)),
                         s.head.(split := FeedAll(s.head.split, front).0));
    assert ScanResponse(ImageExtract, fin, ack, s, front) == Some(s1);
    ScanResponseSnoc(ImageExtract, fin, ack, s, front, b);
    assert ScanResponse(ImageExtract, fin, ack, s, body) == ResponseStep(ImageExtract, fin, ack, s1, b);
    CaptureLastByte(fin, ack, s1, b);
    assert c.data + front + [b] == c.data + body;
  }

  /** A segment after the one whose header announced a length: the bytes
      after its first line end are the body, filed under this segment's
      key with the code and length the header gave. */
  lemma ImageBodySegment(fin: Finalisation, p: Parser, seg: Segment, prefix: seq<byte>, body: seq<byte>)
    requires Armed(p) && p.content.counter + |body| == p.content.length
    requires prefix != [] && NoCr(prefix) && SP !in prefix && body != [] && NoCr(body)
    requires seg.data == (prefix + [CR, LF]) + body
    ensures var ack := seg.acknowledgementNumber;
      ScanSegment(ImageExtract, fin, p, seg) ==
      Some(p.(content := p.content.(headerEndWait := false, active := false, key := ack, counter := 0, length := 0, code := 0, data := []),
              table := p.table[ack := Response(p.content.code, p.content.length, body)]))
  {
    var ack := seg.acknowledgementNumber;
    var s0 := PacketScan(p, StartHead);
    CaptureStartStep(fin, ack, s0, prefix);
    var s1 := PacketScan(p.(content := p.content.(active := true, data := [], key := ack, headerEndWait := false)),
                         StartHead.(split := Splitter([], LF, false)));
    CaptureBodyStep(fin, ack, s1, body);
    assert [] + body == body;
    ScanResponseConcat(ImageExtract, fin, ack, s0, prefix + [CR, LF], body);
  }

  /** A fixed-length response whose body follows in the next segment: the
      head files the response with an empty body under the head's key, and
      the body is filed under the next segment's key. */
  lemma ImageResponseTwoSegments(fin: Finalisation, table: map<int, Response>, h: Segment, b: Segment,
                                 code: int, reason: seq<byte>, before: seq<seq<byte>>, after: seq<seq<byte>>,
                                 prefix: seq<byte>, body: seq<byte>)
    requires NoCr(reason) && INT_MIN <= code <= INT_MAX && |body| <= LONG_MAX && OtherHeaders(before) && OtherHeaders(after)
    requires prefix != [] && NoCr(prefix) && SP !in prefix && body != [] && NoCr(body)
    requires h.data == ResponseHead(DecimalText(code), reason, before, DecimalText(|body|), after)
    requires b.data == (prefix + [CR, LF]) + body
    ensures FileResponses(ImageExtract, fin, table, [h, b]) ==
      Some(table[h.acknowledgementNumber := Response(code, |body|, [])]
                [b.acknowledgementNumber := Response(code, |body|, body)])
  {
    var p := Parser(NoChunk, NoContent, table);
    var n := |body|;
    ParseResponseHead(ImageExtract, fin, p, h, code, reason, before, n, after);
    var p1 := Parser(NoChunk, NoContent.(headerEndWait := true, length := n, key := h.acknowledgementNumber, code := code),
                     table[h.acknowledgementNumber := Response(code, n, [])]);
    assert ScanSegment(ImageExtract, fin, p, h) == Some(p1);
    ImageBodySegment(fin, p1, b, prefix, body);
    ScanTwoSegments(ImageExtract, fin, p, h, b);
  }

  /** A body in the same segment as its header ends no line after the
      blank line, so nothing is captured: the response is filed with an
      empty body and the capture still waits for a later segment. */
  lemma ImageBodyInHeadSegment(fin: Finalisation, p: Parser, seg: Segment, code: int, reason: seq<byte>,
                               before: seq<seq<byte>>, after: seq<seq<byte>>, body: seq<byte>)
    requires Idle(p) && NoCr(reason) && NoCr(body) && OtherHeaders(before) && OtherHeaders(after)
    requires INT_MIN <= code <= INT_MAX && LONG_MIN <= |body| <= LONG_MAX
    requires seg.data == ResponseHead(DecimalText(code), reason, before, DecimalText(|body|), after) + body
    ensures var ack := seg.acknowledgementNumber;
      ScanSegment(ImageExtract, fin, p, seg) ==
      Some(Parser(p.chunk, p.content.(headerEndWait := true, length := |body|, key := ack, code := code),
                  p.table[ack := Response(code, |body|, [])]))
  {
    var ack := seg.acknowledgementNumber;
    var head := ResponseHead(DecimalText(code), reason, before, DecimalText(|body|), after);
    var s0 := PacketScan(p, StartHead);
    ResponseHeadStep(ImageExtract, fin, ack, p, code, reason, before, |body|, after);
    var s1 := PacketScan(p.(content := p.content.(headerEndWait := true, length := |body|, key := ack, code := code)),
                         Head(Splitter([], LF, true), true, false, |body|, code));
    FeedPlain(s1.head.split, body);
    ScanResponseQuiet(ImageExtract, fin, ack, s1, body);
    ScanResponseConcat(ImageExtract, fin, ack, s0, head, body);
  }

  /** A status line that is the first line of a block after an announced
      length starts the capture under this segment's key and still marks
      the segment for filing. */
  lemma ArmedStatusLineStep(fin: Finalisation, ack: int, s: PacketScan, code: int, reason: seq<byte>)
    requires Ready(s.head.split) && s.head.split.line == [] && s.head.split.newBlock
    requires Armed(s.parser) && NoCr(reason) && INT_MIN <= code <= INT_MAX
    ensures ScanResponse(ImageExtract, fin, ack, s, StatusLine(DecimalText(code), reason) + [CR, LF]) ==
      Some(PacketScan(s.parser.(content := s.parser.content.(active := true, data := [], key := ack, headerEndWait := false)),
                      s.head.(split := Splitter([], LF, false), code := code, store := true)))
  {
    var field := DecimalText(code);
    var line := StatusLine(field, reason);
    NumberText(code);
    assert NoCr(line);
    RequestLineFields(HTTP_1_1, field, reason);
    ScanResponseLine(ImageExtract, fin, ack, s, line);
    var p := s.parser.(content := s.parser.content.(active := true, data := [], key := ack, headerEndWait := false));
    OnStatus(ImageExtract, ack, p, s.head.(split := Splitter([], LF, false)), line + [CR, LF], true, field, code);
  }

  /** A segment that opens with a status line while a capture is armed,
      followed by the awaited body: the body is captured and filed, and
      then the segment's own filing under the same key replaces it with an
      empty body and this segment's length (none announced, so zero). */
  lemma CapturedBodyOverwritten(fin: Finalisation, p: Parser, seg: Segment, code: int, reason: seq<byte>, body: seq<byte>)
    requires Armed(p) && p.content.counter + |body| == p.content.length
    requires NoCr(reason) && INT_MIN <= code <= INT_MAX && body != [] && NoCr(body)
    requires seg.data == (StatusLine(DecimalText(code), reason) + [CR, LF]) + body
    ensures var ack := seg.acknowledgementNumber;
      ScanSegment(ImageExtract, fin, p, seg) ==
      Some(p.(content := p.content.(headerEndWait := false, active := false, key := ack, counter := 0, length := 0, code := 0, data := []),
              table := p.table[ack := Response(code, 0, [])]))
  {
    var ack := seg.acknowledgementNumber;
    var s0 := PacketScan(p, StartHead);
    ArmedStatusLineStep(fin, ack, s0, code, reason);
    var s1 := PacketScan(p.(content := p.content.(active := true, data := [], key := ack, headerEndWait := false)),
                         StartHead.(split := Splitter([], LF, false), code := code, store := true));
    CaptureBodyStep(fin, ack, s1, body);
    var c := s1.parser.content;
    var s2 := PacketScan(s1.parser.(content := c.(active := false, counter := 0, length := 0, code := 0, data := []),
                                    table := p.table[ack := Response(c.code, c.length, [] + body)]),
                         s1.head.(split := Splitter(body, body[|body| - 1], false)));
    assert ScanResponse(ImageExtract, fin, ack, s1, body) == Some(s2);
    ScanResponseConcat(ImageExtract, fin, ack, s0, StatusLine(DecimalText(code), reason) + [CR, LF], body);
    assert ScanResponse(ImageExtract, fin, ack, s0, seg.data) == Some(s2);
    assert s2.head.store && !s2.head.chunked && s2.head.contentLength == 0 && s2.head.code == code;
    assert Filing(s2.parser, s2.head) == Response(code, 0, []);
    assert ScanSegment(ImageExtract, fin, p, seg) == Some(s2.parser.(table := s2.parser.table[ack := Response(code, 0, [])]));
    assert s2.parser.table[ack := Response(code, 0, [])] == p.table[ack := Response(code, 0, [])];
  }

  // ---------------------------------------------------------------- chunks after a bare head

  /** A line without a space, in a segment that announced no chunked
      transfer and with no chunk or capture under way, changes nothing. */
  lemma InertLineStep(report: Report, fin: Finalisation, ack: int, s: PacketScan, line: seq<byte>)
    requires Ready(s.head.split) && s.head.split.line == [] && !s.head.chunked
    requires Idle(s.parser) && line != [] && NoCr(line) && SP !in line
    ensures ScanResponse(report, fin, ack, s, line + [CR, LF]) == Some(s.(head := s.head.(split := Splitter([], LF, false))))
  {
    assert SP !in line + [CR, LF];
    var h := s.head.(split := Splitter([], LF, false));
    OnNoSpace(report, ack, s.parser, h, line + [CR, LF], s.head.split.newBlock);
    HeaderLineStep(report, fin, ack, s, line, PacketScan(s.parser, h));
  }

  lemma InertChunkLines(report: Report, fin: Finalisation, ack: int, s: PacketScan, chunk: seq<byte>)
    requires Ready(s.head.split) && s.head.split.line == [] && !s.head.chunked
    requires Idle(s.parser) && PlainChunk(chunk) && |chunk| <= LONG_MAX
    ensures ScanResponse(report, fin, ack, s, ChunkLines(chunk)) == Some(s.(head := s.head.(split := Splitter([], LF, false))))
  {
    var d := Digits(|chunk|, 16);
    SizeText(|chunk|);
    InertLineStep(report, fin, ack, s, d);
    var s1 := s.(head := s.head.(split := Splitter([], LF, false)));
    InertLineStep(report, fin, ack, s1, chunk);
    ScanResponseConcat(report, fin, ack, s, d + [CR, LF], chunk + [CR, LF]);
  }

  lemma InertLastChunkLines(report: Report, fin: Finalisation, ack: int, s: PacketScan)
    requires Ready(s.head.split) && s.head.split.line == [] && !s.head.chunked && Idle(s.parser)
    ensures ScanResponse(report, fin, ack, s, LastChunkLines()) == Some(s.(head := s.head.(split := Splitter([], LF, true))))
  {
    var d := Digits(0, 16);
    SizeText(0);
    InertLineStep(report, fin, ack, s, d);
    var s1 := s.(head := s.head.(split := Splitter([], LF, false)));
    ScanResponseBlank(report, fin, ack, s1);
    ScanResponseConcat(report, fin, ack, s, d + [CR, LF], [CR, LF]);
  }

  /** Chunk lines in a segment that announced no chunked transfer are
      lines like any other: no chunk starts and nothing is counted. */
  lemma {:induction false} InertChunks(report: Report, fin: Finalisation, ack: int, s: PacketScan, chunks: seq<seq<byte>>)
    requires Ready(s.head.split) && s.head.split.line == [] && !s.head.chunked && Idle(s.parser)
    requires PlainChunks(chunks) && TotalSize(chunks) <= LONG_MAX
    ensures ScanResponse(report, fin, ack, s, ChunkedRest(chunks)) == Some(s.(head := s.head.(split := Splitter([], LF, true))))
    decreases |chunks|
  {
    if chunks == [] {
      InertLastChunkLines(report, fin, ack, s);
    } else {
      var first, rest := chunks[0], chunks[1..];
      assert PlainChunk(first);
      InertChunkLines(report, fin, ack, s, first);
      var s1 := s.(head := s.head.(split := Splitter([], LF, false)));
      assert PlainChunks(rest) by {
        forall i | 0 <= i < |rest| ensures PlainChunk(rest[i]) {
          assert rest[i] == chunks[i + 1];
        }
      }
      InertChunks(report, fin, ack, s1, rest);
      ScanResponseConcat(report, fin, ack, s, ChunkLines(first), ChunkedRest(rest));
    }
  }

  /** A chunked head alone in its segment is filed with the chunk total the
      flow last reached, since no size line follows it in the segment. */
  lemma BareChunkedHeadSegment(report: Report, fin: Finalisation, p: Parser, seg: Segment, code: int, reason: seq<byte>,
                               before: seq<seq<byte>>, after: seq<seq<byte>>)
    requires Idle(p) && NoCr(reason) && INT_MIN <= code <= INT_MAX && OtherHeaders(before) && OtherHeaders(after)
    requires seg.data == ChunkedResponseHead(DecimalText(code), reason, before, after)
    ensures ScanSegment(report, fin, p, seg) ==
      Some(p.(table := p.table[seg.acknowledgementNumber := Response(code, p.chunk.length, [])]))
  {
    ChunkedHeadStep(report, fin, seg.acknowledgementNumber, p, code, reason, before, after);
  }

  /** A chunked body in a segment of its own, without a status line: the
      segment does not know it is chunked, so nothing changes. */
  lemma InertBodySegment(report: Report, fin: Finalisation, p: Parser, seg: Segment, chunks: seq<seq<byte>>)
    requires Idle(p) && PlainChunks(chunks) && TotalSize(chunks) <= LONG_MAX
    requires seg.data == ChunkedRest(chunks)
    ensures ScanSegment(report, fin, p, seg) == Some(p)
  {
    InertChunks(report, fin, seg.acknowledgementNumber, PacketScan(p, StartHead), chunks);
  }

  /** A chunked response whose head ends its segment and whose chunks
      follow in the next: the chunk countdown never starts, and the
      response is filed with the body length 0 a fresh flow starts with,
      whatever the chunk sizes. */
  lemma ChunkedBodyAfterBareHead(report: Report, fin: Finalisation, table: map<int, Response>, h: Segment, b: Segment,
                                 code: int, reason: seq<byte>, before: seq<seq<byte>>, after: seq<seq<byte>>,
                                 chunks: seq<seq<byte>>)
    requires NoCr(reason) && INT_MIN <= code <= INT_MAX && OtherHeaders(before) && OtherHeaders(after)
    requires PlainChunks(chunks) && TotalSize(chunks) <= LONG_MAX
    requires h.data == ChunkedResponseHead(DecimalText(code), reason, before, after) && b.data == ChunkedRest(chunks)
    ensures FileResponses(report, fin, table, [h, b]) == Some(table[h.acknowledgementNumber := Response(code, 0, [])])
  {
    var p := Parser(NoChunk, NoContent, table);
    BareChunkedHeadSegment(report, fin, p, h, code, reason, before, after);
    var p1 := p.(table := table[h.acknowledgementNumber := Response(code, 0, [])]);
    assert ScanSegment(report, fin, p, h) == Some(p1);
    InertBodySegment(report, fin, p1, b, chunks);
    ScanTwoSegments(report, fin, p, h, b);
  }

  // ---------------------------------------------------------------- a worked example

  /** `AAAAA` */
  const CHUNK_A: seq<byte> := [65, 65, 65, 65, 65]

  /** `BBB` */
  const CHUNK_B: seq<byte> := [66, 66, 66]

  /** The chunks `AAAAA` and `BBB`, with the first size line in the head's
      segment, give the response the body length 8. */
  lemma ChunkedExample(report: Report, fin: Finalisation, table: map<int, Response>, h: Segment, b: Segment, reason: seq<byte>)
    requires NoCr(reason)
    requires h.data == ChunkedResponseHead(DecimalText(200), reason, [], []) + (Digits(5, 16) + [CR, LF])
    requires b.data == (CHUNK_A + [CR, LF]) + ChunkedRest([CHUNK_B])
    ensures FileResponses(report, fin, table, [h, b]) == Some(table[h.acknowledgementNumber := Response(200, 8, [])])
  {
    var chunks := [CHUNK_A, CHUNK_B];
    assert TotalSize(chunks) == 8 by {
      assert [CHUNK_B][1..] == [];
      assert TotalSize([CHUNK_B]) == 3 + TotalSize([]);
      assert chunks[1..] == [CHUNK_B];
      assert TotalSize(chunks) == 5 + TotalSize([CHUNK_B]);
    }
    assert PlainChunks(chunks) by {
      assert PlainChunk(CHUNK_A) && PlainChunk(CHUNK_B);
    }
    assert chunks[1..] == [CHUNK_B];
    ChunkedResponseTwoSegments(report, fin, table, h, b, 200, reason, [], [], chunks);
  }
}

=== FILE: text.dfy ===
/** Text operations the HTTP parsers and the transaction log apply to lines
    held as bytes.

    The source turns each payload byte into a `char` through a sign-extending
    cast, so bytes 0x00-0x7F become the ASCII characters and bytes 0x80-0xFF
    become U+FF80-U+FFFF. That cast is injective, none of the characters in
    its image other than `A`-`Z` has a case mapping, and no character in its
    image folds to an ASCII letter. Hence comparing, case-folding and
    searching the bytes is the same as doing so on the source's characters. */
module Text {
  import opened Base

  const SP: byte := 32
  const CR: byte := 13
  const LF: byte := 10

  /** The bytes of an ASCII literal. */
  function Ascii(s: string): (r: seq<byte>)
    requires forall k :: 0 <= k < |s| ==> s[k] as int < 128
    ensures |r| == |s| && forall k :: 0 <= k < |s| ==> r[k] as int == s[k] as int
  {
    seq(|s|, k requires 0 <= k < |s| => s[k] as int as byte)
  }

  /** The character the source's `(char)` cast gives for a byte. */
  function JavaChar(b: byte): (c: char)
    ensures b < 0x80 ==> c as int == b as int
    ensures b >= 0x80 ==> c as int == 0xFF00 + b as int
  {
    if b < 0x80 then b as int as char else (0xFF00 + b as int) as char
  }

  function JavaString(s: seq<byte>): (r: string)
    ensures |r| == |s|
  {
    seq(|s|, k requires 0 <= k < |s| => JavaChar(s[k]))
  }

  lemma JavaCharInjective(a: byte, b: byte)
    ensures JavaChar(a) == JavaChar(b) <==> a == b
  {}

  predicate IsUpper(c: byte)
  {
    65 <= c <= 90
  }

  /** `Character.toLowerCase` on the image of the byte cast. */
  function Lower(c: byte): byte
  {
    if IsUpper(c) then c + 32 else c
  }

  /** `String.toLowerCase`. */
  function LowerAll(s: seq<byte>): (r: seq<byte>)
    ensures |r| == |s|
    ensures forall k :: 0 <= k < |s| ==> r[k] == Lower(s[k])
  {
    seq(|s|, k requires 0 <= k < |s| => Lower(s[k]))
  }

  /** `String.equalsIgnoreCase`. */
  predicate EqualsIgnoreCase(s: seq<byte>, t: seq<byte>)
  {
    |s| == |t| && forall k :: 0 <= k < |s| ==> Lower(s[k]) == Lower(t[k])
  }

  lemma EqualsIgnoreCaseReflexive(s: seq<byte>)
    ensures EqualsIgnoreCase(s, s)
  {}

  /** Case-insensitive equality is equality after lower-casing both sides. */
  lemma EqualsIgnoreCaseIffLowerEqual(s: seq<byte>, t: seq<byte>)
    ensures EqualsIgnoreCase(s, t) <==> LowerAll(s) == LowerAll(t)
  {
    if LowerAll(s) == LowerAll(t) {
      forall k | 0 <= k < |s|
        ensures Lower(s[k]) == Lower(t[k])
      {
        assert LowerAll(s)[k] == LowerAll(t)[k];
      }
    }
  }

  /** `String.indexOf(c, from)`: the first position at or after `from`
      holding `c`, or -1. */
  function IndexOf(s: seq<byte>, c: byte, from: nat): (r: int)
    decreases |s| - from
    ensures r == -1 || (from <= r < |s| && s[r] == c)
    ensures forall k :: from <= k < |s| && (r == -1 || k < r) ==> s[k] != c
  {
    if from >= |s| then -1
    else if s[from] == c then from
    else IndexOf(s, c, from + 1)
  }

  /** The first space-delimited word of a line, if the line has a space;
      the source uses the placeholder "noSpace", which equals no keyword. */
  function FirstWord(line: seq<byte>): (r: Option<seq<byte>>)
    ensures r.None? <==> SP !in line
    ensures r.Some? ==> SP !in r.value && |r.value| < |line| && line[..|r.value|] == r.value && line[|r.value|] == SP
  {
    var sp := IndexOf(line, SP, 0);
    if sp < 0 then None else Some(line[..sp])
  }

  /** `Character.digit(c, radix)` on the image of the byte cast, or -1. */
  function DigitValue(c: byte, radix: nat): (r: int)
    ensures -1 <= r < radix
  {
    var v := if 48 <= c <= 57 then c as int - 48
             else if 97 <= c <= 122 then c as int - 87
             else if 65 <= c <= 90 then c as int - 55
             else 36;
    if v < radix then v else -1
  }

  predicate AllDigits(s: seq<byte>, radix: nat)
  {
    forall k :: 0 <= k < |s| ==> DigitValue(s[k], radix) >= 0
  }

  /** The value of a digit string, most significant digit first. */
  function Magnitude(s: seq<byte>, radix: nat): nat
    requires AllDigits(s, radix)
  {
    if s == [] then 0
    else Magnitude(s[..|s| - 1], radix) * radix + DigitValue(s[|s| - 1], radix)
  }

  const PLUS: byte := 43
  const MINUS: byte := 45

  const INT_MIN: int := -0x8000_0000
  const INT_MAX: int := 0x7FFF_FFFF
  const LONG_MIN: int := -0x8000_0000_0000_0000
  const LONG_MAX: int := 0x7FFF_FFFF_FFFF_FFFF

  /** `Long.parseLong(s, radix)` (with the `long` bounds) and
      `Integer.parseInt(s)` (with the `int` bounds): an optional sign, then
      at least one digit, and the value in range; `None` where Java throws
      `NumberFormatException`. */
  function ParseInteger(s: seq<byte>, radix: nat, lo: int, hi: int): (r: Option<int>)
    ensures r.Some? ==> lo <= r.value <= hi
    ensures r.Some? ==> |s| > 0
  {
    if |s| == 0 then None
    else
      var negative := s[0] == MINUS;
      var digits := if s[0] == MINUS || s[0] == PLUS then s[1..] else s;
      if |digits| == 0 || !AllDigits(digits, radix) then None
      else
        var v: int := if negative then 0 - Magnitude(digits, radix) as int else Magnitude(digits, radix);
        if lo <= v <= hi then Some(v) else None
  }

  function ParseDecimalLong(s: seq<byte>): Option<int>
  {
    ParseInteger(s, 10, LONG_MIN, LONG_MAX)
  }

  function ParseDecimalInt(s: seq<byte>): Option<int>
  {
    ParseInteger(s, 10, INT_MIN, INT_MAX)
  }

  function ParseHexLong(s: seq<byte>): Option<int>
  {
    ParseInteger(s, 16, LONG_MIN, LONG_MAX)
  }

  /** The lower-case digit character of a value below the radix. */
  function DigitChar(d: nat, radix: nat): (c: byte)
    requires d < radix <= 36
    ensures DigitValue(c, radix) == d
  {
    if d < 10 then (48 + d) as byte else (87 + d) as byte
  }

  /** The digits of `n` in `radix`, most significant first, without leading
      zeros (as `Long.toString(n, radix)` writes a non-negative value). */
  function Digits(n: nat, radix: nat): (r: seq<byte>)
    requires 2 <= radix <= 36
    decreases n
    ensures |r| > 0 && AllDigits(r, radix)
  {
    if n < radix then [DigitChar(n, radix)]
    else
      DivModBounds(n, radix);
      var front, last := Digits(n / radix, radix), DigitChar(n % radix, radix);
      assert forall k :: 0 <= k < |front| ==> (front + [last])[k] == front[k];
      front + [last]
  }

  lemma DivModBounds(n: nat, radix: nat)
    requires 2 <= radix <= n
    ensures 0 <= n % radix < radix && n / radix < n
  {}

  /** Digits are neither signs nor separators. */
  lemma DigitsArePlain(s: seq<byte>, radix: nat)
    requires radix <= 36 && AllDigits(s, radix)
    ensures MINUS !in s && PLUS !in s && SP !in s && LF !in s && CR !in s
  {
    forall k | 0 <= k < |s|
      ensures s[k] != MINUS && s[k] != PLUS && s[k] != SP && s[k] != LF && s[k] != CR
    {
      assert DigitValue(s[k], radix) >= 0;
    }
  }

  /** `Long.toString(n)`: a minus sign for negative values, then the
      decimal digits. */
  function DecimalText(n: int): (r: seq<byte>)
    ensures |r| > 0 && SP !in r && LF !in r && CR !in r
  {
    var digits := Digits(if n < 0 then -n else n, 10);
    DigitsArePlain(digits, 10);
    if n < 0 then [MINUS] + digits else digits
  }

  lemma DivMod(n: nat, radix: nat)
    requires 2 <= radix
    ensures n == (n / radix) * radix + n % radix
    ensures n > 0 ==> n / radix < n
  {}

  lemma {:induction false} MagnitudeOfDigits(n: nat, radix: nat)
    requires 2 <= radix <= 36
    decreases n
    ensures Magnitude(Digits(n, radix), radix) == n
  {
    var r := Digits(n, radix);
    if n < radix {
      assert r[..|r| - 1] == [];
    } else {
      var q, d := n / radix, n % radix;
      var front := Digits(q, radix);
      assert r == front + [DigitChar(d, radix)];
      assert r[..|r| - 1] == front;
      assert DigitValue(r[|r| - 1], radix) == d;
      assert Magnitude(r, radix) == Magnitude(front, radix) * radix + d;

      DivMod(n, radix);
      MagnitudeOfDigits(q, radix);
    }
  }

  /** The sign a number text may start with: none, `-` or `+`. */
  predicate IsSign(sign: seq<byte>)
  {
    sign == [] || sign == [MINUS] || sign == [PLUS]
  }

  /** Any sign followed by at least one digit parses to the signed value
      of the digits (leading zeros allowed) when that value is in range,
      and fails otherwise. */
  lemma ParseSignedDigits(sign: seq<byte>, digits: seq<byte>, radix: nat, lo: int, hi: int)
    requires 2 <= radix <= 36 && IsSign(sign)
    requires |digits| > 0 && AllDigits(digits, radix)
    ensures var v := if sign == [MINUS] then 0 - Magnitude(digits, radix) as int else Magnitude(digits, radix);
      ParseInteger(sign + digits, radix, lo, hi) == if lo <= v <= hi then Some(v) else None
  {
    var s := sign + digits;
    if sign == [] {
      assert s == digits;
      assert DigitValue(s[0], radix) >= 0;
      assert s[0] != MINUS && s[0] != PLUS;
    } else {
      assert s[0] == sign[0] && s[1..] == digits;
    }
  }

  /** A sign alone, or a sign followed by text holding a byte that is no
      digit, fails to parse. Without a sign the offending byte must not be
      a leading sign, which would be read as the sign. */
  lemma ParseNonDigit(sign: seq<byte>, rest: seq<byte>, i: nat, radix: nat, lo: int, hi: int)
    requires 2 <= radix <= 36 && IsSign(sign)
    requires i < |rest| && DigitValue(rest[i], radix) < 0
    requires sign == [] ==> i > 0 || (rest[0] != MINUS && rest[0] != PLUS)
    ensures ParseInteger(sign, radix, lo, hi) == None
    ensures ParseInteger(sign + rest, radix, lo, hi) == None
  {
    var s := sign + rest;
    if sign == [] {
      assert s == rest;
      if rest[0] == MINUS || rest[0] == PLUS {
        assert rest[1..][i - 1] == rest[i];
      }
    } else {
      assert s[1..] == rest;
    }
  }

  /** Parsing the digits written for a value gives the value back. */
  lemma ParseDigits(n: nat, radix: nat, lo: int, hi: int)
    requires 2 <= radix <= 36
    requires lo <= n <= hi
    ensures ParseInteger(Digits(n, radix), radix, lo, hi) == Some(n)
  {
    MagnitudeOfDigits(n, radix);
  }

  /** Parsing the decimal text written for a `long` gives the value back. */
  lemma ParseDecimalText(n: int)
    requires LONG_MIN <= n <= LONG_MAX
    ensures ParseDecimalLong(DecimalText(n)) == Some(n)
    ensures INT_MIN <= n <= INT_MAX ==> ParseDecimalInt(DecimalText(n)) == Some(n)
  {
    var t := DecimalText(n);
    MagnitudeOfDigits(if n < 0 then -n else n, 10);
    if n < 0 {
      assert t[1..] == Digits(-n, 10);
    }
  }

  function Pow(base: nat, k: nat): nat
  {
    if k == 0 then 1 else base * Pow(base, k - 1)
  }

  /** A value below `16^k` has at most `k` hex digits. */
  lemma {:induction false} HexDigitsLength(n: nat, k: nat)
    requires 1 <= k && n < Pow(16, k)
    ensures |Digits(n, 16)| <= k
  {
    if n >= 16 {
      assert k > 1;
      assert n / 16 < Pow(16, k - 1);
      HexDigitsLength(n / 16, k - 1);
    }
  }

  /** A `long` has at most sixteen hex digits. */
  lemma LongHexDigits(n: nat)
    requires n <= LONG_MAX
    ensures |Digits(n, 16)| <= 16
  {
    assert Pow(16, 4) == 0x1_0000;
    assert Pow(16, 8) == 0x1_0000_0000;
    assert Pow(16, 12) == 0x1_0000_0000_0000;
    assert Pow(16, 16) == 0x1_0000_0000_0000_0000;
    HexDigitsLength(n, 16);
  }
}
